=== FILE: README.md ===
# slate-social core, modelled in Dafny

slate-social is a small PHP site: an admin back end and a JSON API. This
project models the code those pages and endpoints run on.

- **The API dispatcher.**
  - `ApiRequest` classifies the incoming request by its verb and body.
  - `ApiHandler` keeps a route table of verb, URL pattern and handler, with an optional list of roles. `handle` matches the URL parameter against the table. It checks the session token and the roles. It then calls the first matching handler, and renders its `ApiResponse` as JSON.
- **The account endpoints.** These are `getAccount`, `updateAccount`, `createAccount` and `deleteAccount`.
- **Helpers.**
  - `ParameterHelper`: typed access to request arrays.
  - `ReturnHelper`: a status with messages and results.
  - `Logger`: levels as bit flags, level names, context interpolation and per-level buckets.
  - `ConsoleHelper` and `ScriptUsageHelper`: command-line arguments, prompting and help screens.
  - `env_parse_params` and `wordWrapIgnoreHTML`.
  - `IoHelper`'s path handling.
  - The `Page` model of captured content blocks, title and meta elements.
  - `BackendMenuHelper`'s menu tree.
  - The data-layer `BaseClass` and `ClassFields`.
  - The username, email and password validators of the `Users` repository.
- **The pager.** This is the pagination arithmetic of the Bootstrap-style DataTables pager in the back end's JavaScript.

## How the model is built

Each source file is one Dafny module.
- Pure decisions are functions, and their properties are lemmas.
- A class whose methods update its fields is a Dafny `class` with `modifies` clauses. Examples are the route table, the logger, the page, the menu helper and `ReturnHelper`.
- A method that loops is a Dafny method with loop invariants. Each is proved equal to a specification function, and the properties are proved about that function.

The PHP values that cross these interfaces are null, booleans, 64-bit integers and strings (`Php.Value`). `empty()`, `strval`, `intval`, `strtolower`, `trim`, `explode` and `str_pad` are written out with PHP 8's behaviour.

Anything that needs a database, the network, the regex engine or the clock is a function-valued parameter. This covers:
- the session and role repositories;
- `preg_match` and `json_decode`;
- `password_verify`;
- the user table;
- the existence of files;
- what `php://input` and STDIN return.

Output written with `echo` is returned as a value, or appended to a `Stdout` object.

Places where PHP's behaviour was pinned down for the model:
- `count(null)` and `string & int` raise `TypeError` as in PHP 8. They are modelled as failures with PHP's message.
- `$account->id < 1` and `userInRoleByRoleName`'s `$userId < 1` use PHP 8's `<`. It compares an integer string by its value, but any other string is compared with "1" as a string (`Php.LessThanOne`). An id such as "abc" is therefore not below 1.
- `$session->userId !== $account->id` is identity. It compares the session's raw `UserID`, as the database driver returns it, with the request's id string. A session id given as an integer is never identical to the request's string, and a session id "5" is not identical to a request id "05".
- Each Dafny `char` of a string stands for one byte of the PHP string. `strlen`, `str_pad` and the character scans count bytes, and so does the model.

## Model

| member | source | states |
|---|---|---|
| ApiRequests.CodesDistinct | inc/ApiRequest.php:13-19 | The seven request types have distinct integer codes, so comparing codes is comparing types. |
| ApiRequests.VerbOf | inc/ApiRequest.php:96-131 | Exactly the six names DELETE, GET, HEAD, OPTIONS, POST and PUT are recognised, each as the type of the same name; nothing maps to ERROR. |
| ApiRequests.Classify | inc/ApiRequest.php:87-159 | No REQUEST_METHOD leaves the request unclassified and invalid. A valid request has a recognised verb and its own name. GET is valid with no body and no JSON. A valid request of any other verb has a non-empty body. It is JSON exactly when the body starts with `{` or `[` or its trimmed form decodes. |
| ApiRequests.NonGetValidity | inc/ApiRequest.php:134-146 | A recognised verb other than GET is valid exactly when the body is non-empty in PHP's sense, so a body of "0" leaves the request invalid. |
| ApiRequests.UnknownVerbIsError | inc/ApiRequest.php:127-131 | An unrecognised verb is named ERROR, typed ERROR, and invalid whatever the body. |
| ApiRequests.ApiRequest.constructor | inc/ApiRequest.php:87-174 | The fields the constructor leaves are exactly the classification of the server array and the body read. |
| ApiRequests.ApiRequest.GetParameterizedGet | inc/ApiRequest.php:182-184 | The query-string helper is valid exactly when the query string has an entry, and then holds it unchanged. |
| ApiRequests.ApiRequest.GetRequestType | inc/ApiRequest.php:193-199 | Throws exactly on an invalid request; otherwise returns the classified type. |
| ApiRequests.ApiRequest.GetRequestTypeName | inc/ApiRequest.php:208-214 | Throws exactly on an invalid request; otherwise returns the classified name. |
| ApiRequests.ApiRequest.GetRawInput | inc/ApiRequest.php:223-229 | Throws exactly on an invalid request; otherwise returns the body read. |
| ApiRequests.ApiRequest.GetParameterizedInput | inc/ApiRequest.php:239-253 | An invalid request throws. GET gives the query-string helper. A non-JSON body throws. Any helper returned is well formed. |
| ApiRequests.ParameterizedInput | inc/ApiRequest.php:239-253 | An invalid request throws "Can't get input on an invalid request.". GET gives a helper over the query string. A request of another verb that is not JSON throws. A JSON request succeeds exactly when its body does not decode to a scalar. Any helper returned is well formed. |
| ApiRequests.ErrorNameNeverReturned | inc/ApiRequest.php:96-159 | Every valid request is named by one of the six real verbs, never ERROR. |
| ApiHandlers.SplitVerbs | inc/ApiHandler.php:130-144 | `*` stands for all seven verbs, ERROR included. Any other string splits at the bar character into pieces that contain no bar and join back to the string. |
| ApiHandlers.RoleNames | inc/ApiHandler.php:224-227 | A single role name is treated as a one-element list; a list is used as given. |
| ApiHandlers.AddRoute | inc/ApiHandler.php:95-100 | A new pattern is appended as the route `(pattern, entry)` after the untouched earlier routes; a pattern already present leaves the table as it was. The pattern is present afterwards, and patterns stay distinct. |
| ApiHandlers.AddRouteKeepsFirst | inc/ApiHandler.php:95-100 | A second registration of a pattern under the same verb changes nothing: the first callback and roles stay. |
| ApiHandlers.AddRouteKeepsDistinct | inc/ApiHandler.php:90-101 | Adding a route under one verb keeps every verb's patterns distinct. |
| ApiHandlers.RegisterAllStep | inc/ApiHandler.php:90-101 | One turn of the registration loop adds the route under the current verb, and the remaining verbs continue from there. |
| ApiHandlers.RegisterAllAt | inc/ApiHandler.php:88-101 | After registering under a list of verbs, each listed verb has the route added unless it already had the pattern, and every other verb's table is unchanged. |
| ApiHandlers.ApiHandler.constructor | inc/ApiHandler.php:153-159 | A new handler has no routes and no default endpoint. |
| ApiHandlers.ApiHandler.RegisterEndpoint | inc/ApiHandler.php:81-104 | A null pattern only replaces the default endpoint. Otherwise the route is registered under each split verb as the registration fold says, the default is kept, and patterns stay distinct per verb. |
| ApiHandlers.FirstMatch | inc/ApiHandler.php:200-201 | The index found is the first route, in registration order, whose pattern matches the URL. None means no pattern matches. |
| ApiHandlers.ApiHandler.FindRoute | inc/ApiHandler.php:200-254 | The route loop stops at exactly the first matching route. |
| ApiHandlers.ApiHandler.HasAnyRole | inc/ApiHandler.php:229-237 | The role loop finds a role exactly when the session's user holds one of the listed roles. |
| ApiHandlers.GateOf | inc/ApiHandler.php:205-246 | An open route (no roles) always passes the auth gate. |
| ApiHandlers.ApiHandler.CheckGate | inc/ApiHandler.php:205-246 | The token, session and role checks give the gate verdict of the specification. |
| ApiHandlers.GateRefusals | inc/ApiHandler.php:206-222 | A protected route refuses a request without a token with the "No authentication parameter" message. It refuses a token without a session with the "Invalid authentication parameter" message. |
| ApiHandlers.GateRoles | inc/ApiHandler.php:224-245 | With a session, `true` passes. A role or role list passes exactly when the user holds one of the roles. Any refusal is "Unauthorized access". |
| ApiHandlers.Fallback | inc/ApiHandler.php:180-190 | With nothing routed, the default endpoint is called when there is one; otherwise the answer is 404. |
| ApiHandlers.Routed | inc/ApiHandler.php:193-269 | For a URL that is present, handling never skips, and the "Invalid URL" branch is taken only when there is no default endpoint. |
| ApiHandlers.RenderReturn | inc/ApiHandler.php:248-251 | A handler that throws skips `ob_end_clean`, so what it echoed is sent, with the code it set, if any. Otherwise a null return prints nothing and a printable value is printed as it is, both keeping the code the handler set; an `ApiResponse` sets its own code, replacing any earlier one, and prints its data as JSON (inc/ApiHandler.php:271-278). |
| ApiHandlers.ApiHandler.Handle | inc/ApiHandler.php:169-281 | The branch `handle` takes is the dispatch specification of the table and the request, and the response is what rendering makes of that branch. That includes the code the default endpoint sets, so the application's endpoint answers 404. |
| ApiHandlers.ApiHandler.Route | inc/ApiHandler.php:193-281 | Once the URL is known, the verb lookup, route search, gate and call give the routed branch and its rendering. A verb with no table, or an unmatched URL, gets the default endpoint's own code and writes. |
| ApiHandlers.InvokesFirstMatch | inc/ApiHandler.php:197-253 | When a handler is invoked, it belongs to the first route of the request's verb whose pattern matches the URL, and no earlier route matches. |
| ApiHandlers.ResponseShape | inc/ApiHandler.php:169-191 | With no URL parameter name, no headers and nothing else are sent. Otherwise the three API headers are always sent. The default endpoint's response is the code it set and what it echoed. A 404 that no handler set is the "Invalid URL" answer, and that branch happens only without a default endpoint. |
| ApiHandlers.HandlerWritesDiscarded | inc/ApiHandler.php:248-251 | What a matched handler that returns echoes is discarded. Only its return value, and the code it set when it does not return an `ApiResponse`, reach the response. |
| ApiHandlers.ThrowingHandlerWritesKept | inc/ApiHandler.php:248-251 | A matched handler that throws leaves its buffer open: the body is exactly what it echoed, after the API headers, with the code it set before throwing (none if it set none). |
| ApiHandlers.AppDefaultEndpointAnswers404 | api/1/index.php:6-11 | With the application's default endpoint, a request with no URL value, or one no route takes, is answered 404 with `{"message":"Not a valid API endpoint"}`, and the "Invalid URL" branch never happens. |
| ApiHandlers.ErrorRoutesUnreachable | inc/ApiHandler.php:130-141 | Routes registered under ERROR, as `*` does, never affect dispatch of any request. |
| ApiHandlers.RoutedIgnoresOtherVerbs | inc/ApiHandler.php:197-198 | Routing consults only the table of the request's own verb. |
| AccountApi.SessionOf | api/1/account.api.php:25-26 | An empty token never finds a session. Otherwise the session's raw `UserID` is returned. |
| AccountApi.LoadUser | api/1/account.api.php:34 | Loading a user fails exactly for an id below 1. An unknown id gives an empty user, and a known one gives its stored fields. |
| AccountApi.GetAccount | api/1/account.api.php:20-80 | No token gives "Invalid parameters provided", and an unknown token gives the session error naming it. An `id` needs the session's user to be an administrator, and returns that user or the read error for an id below 1. Without `id`, the user of the session's `intval` id is returned. A returned user is its record of five keys: userId, email, username, join date and last login. The answer is 200 only with a session. |
| AccountApi.AccountFromParams | api/1/account.api.php:93 | Each of the six fields is a string exactly when the request has its key, a string sent being kept as it is; every other field is null. |
| AccountApi.PasswordStep | api/1/account.api.php:145-204 | The password part of an update fails only with the invalid-password message or the invalid-permissions message. |
| AccountApi.ChangePassword | api/1/account.api.php:145-204 | The if-chain of the source agrees with the password step: it continues exactly when the step succeeds, with the step's new key, and otherwise reports the step's message. |
| AccountApi.Edited | api/1/account.api.php:108-229 | Once both users are loaded there are three outcomes. It answers 200 with a write, or 500 with a message and nothing written. Or, when the target has no join date because its row does not exist, it escapes with the null-date error, writing no row. Only a user with a join date is ever written. It never creates or deletes. |
| AccountApi.UpdateAccount | api/1/account.api.php:89-234 | The handler's answer and database writes are those of the reference decision. The order is: account id (PHP's `<`), session, loading both users outside the `try`, permission (`!==` identity), email, password, then the row write. |
| AccountApi.UpdateChecksIdFirst | api/1/account.api.php:95-97 | An account id that PHP's `< 1` holds for is refused before the session or anything else is consulted. |
| AccountApi.UpdateOutcomes | api/1/account.api.php:89-234 | Every JSON answer is 200 or 500, and a 500 carries a message and writes nothing. Only a 200 writes the user row. An error that escapes the handler writes no row. |
| AccountApi.UpdateKeepsStoredFields | api/1/account.api.php:206-223 | A successful update targets a stored user. It writes the request's account with its id, but with the stored username, join date and last login, and answers with the five-key record of what it wrote. |
| AccountApi.UpdateOtherNeedsAdmin | api/1/account.api.php:106-124 | When the session's raw id is not identical to the request's id, a 200 needs a stored administrator as executor and a non-administrator as target. |
| AccountApi.UpdateWithoutEmailFails | api/1/account.api.php:128-142 | A user whose session id is identical to the request id, updating their own account without an email address, is refused as a duplicate email. The null request email differs from the stored one, and the lookup finds the user themself. |
| AccountApi.SelfEditWithoutEmail | api/1/account.api.php:128-142 | The same refusal, from the point where both users are loaded. |
| AccountApi.UnknownTargetNeverWritten | api/1/account.api.php:116 | An update of an id with no `User` row never writes the row and never answers 200. The loaded user's join date is null, and `User::update` fails formatting it (inc/classes/User.cls.php:238). |
| AccountApi.UnknownSelfEditEscapes | api/1/account.api.php:213 | A session editing its own row-less id, with no email and no password fields, gets no JSON answer: the null-date error escapes the handler's `catch (Exception)`. Nothing is written. |
| AccountApi.UnknownUserEditEscapes | api/1/account.api.php:126-223 | The same escape, from the point where both users are loaded, for any permitted editor. |
| AccountApi.LetterIdEscapes | api/1/account.api.php:95-116 | An id made of letters passes the `< 1` test. Loading the user of its `intval` 0 then throws outside the `try`, so the request gets no JSON answer. |
| AccountApi.IntSessionIdNeverSelf | api/1/account.api.php:108-112 | When the session's id comes back as an integer, it is never identical to the request's string id. A 200 then needs an administrator editing a non-administrator, even on one's own account. |
| AccountApi.PasswordChainOrder | api/1/account.api.php:145-177 | With a current password, the change succeeds exactly when both new passwords are given and equal, a BASIC key exists, and the current password verifies. The new key is the new password; any failure is the invalid-password message. |
| AccountApi.AdminPasswordReset | api/1/account.api.php:178-204 | Without a current password, a non-administrator is refused for permissions. An administrator succeeds exactly when the new passwords agree and a BASIC key exists. |
| AccountApi.CreateAccount | api/1/account.api.php:242-304 | A missing field or unequal passwords refuse without effect. With all fields and equal passwords: no session gives the session error without effect. A session, an unused email, a new id of at least 1 and no earlier key give 200. Conversely a 200 needs all of these. It creates a confirmed user with the request's username and email, joined at the clock's current time and never logged in, and stores the new password as its key. The 200 answer is that user's record of five keys: id, email, username, join date and last login. Nothing is updated or deleted. |
| AccountApi.DeleteAccount | api/1/account.api.php:312-351 | Checked in order: session, then id, then roles, then the delete. With a session and an id, a non-administrator executor or an administrator target gives the role-mismatch message without effect. An administrator deleting an existing non-administrator of id at least 1 gets 200 and the delete. Conversely a 200 happens only then. Every other answer is 500 without effect. |
| Functions.WordWrapIgnoreHtml | inc/Functions.php:31-73 | The character loop produces the rendering of the wrap specification, with the source's `!empty($word)` flush test. |
| Functions.RunInvariant | inc/Functions.php:38-66 | The loop's html flag means exactly "inside a tag". With the intended flush rule, no word is pending inside a tag. |
| Functions.RenderAppend | inc/Functions.php:42-72 | Appending a piece to the output appends its text to the rendering, as each `.=` of the loop does. |
| Functions.PlainStep | inc/Functions.php:42-65 | One character keeps "emitted text plus pending word is the text read", under the intended flush rule, whenever no word is pending inside a tag. |
| Functions.PlainPrefix | inc/Functions.php:38-66 | Under the intended flush rule, after any prefix, the emitted text without wrap points, plus the pending word, is the prefix. |
| Functions.WrapKeepsText | inc/Functions.php:31-73 | With the intended flush rule (a non-empty word is flushed before `<` and before `>`), removing the inserted wrap strings gives the input back, for every input. |
| Functions.ZeroWordMovesPastTag | inc/Functions.php:43-46 | As written, "0<b>" is wrapped to "<b>0": the pending word "0" is not flushed before the tag. |
| Functions.StrayCloseMovesPastWord | inc/Functions.php:50-52 | As written, "a->b" is wrapped to ">a-b": a `>` outside any tag is emitted while the pending word is held back. |
| Functions.BreaksFollowFullWords | inc/Functions.php:58-64 | Each wrap string follows a word one longer than the limit, and the pending word stays within the limit. |
| Functions.StepKeepsFullWords | inc/Functions.php:58-64 | One loop step keeps every wrap point after a full word. |
| Functions.NextEntry | inc/Functions.php:186-208 | Each argument is consumed, possibly with the next one, and the loop always moves forward. |
| Functions.ParseParams | inc/Functions.php:182-212 | The parsed array is the in-order assignment of the entries read from the arguments. |
| Functions.ReadEntry | inc/Functions.php:187-208 | One loop turn stores the key and value of the entry specification and continues after the arguments it consumed. |
| Functions.AssignAllFrom | inc/Functions.php:186-209 | Assigning from argument i on is assigning that entry, then the rest. |
| Functions.LastAssignmentWins | inc/Functions.php:192-206 | A key is present exactly when some argument assigns it, and holds the value of its last assignment. |
| Functions.CaseInsensitiveLowersKeysOnly | inc/Functions.php:192-206 | Case-insensitive parsing lower-cases the keys and changes nothing else. |
| Functions.KeyEqualsValue | inc/Functions.php:187-192 | `-k=v` and `--k=v` assign the text after the first `=` to `k` and consume one argument. |
| Functions.KeyDashValue | inc/Functions.php:193-195 | A dash-led key with an inner `-` and no `=` splits at the first dash, so `--make-admin` assigns "admin" to `make`. |
| Functions.SwitchTakesNextArgument | inc/Functions.php:196-200 | A bare switch takes the next argument as its value unless that starts with a dash; at the end or before a dash it is `true`. |
| ConsoleHelpers.ConsoleHelper.constructor | inc/ConsoleHelper.php:49-72 | A null count or vector leaves no argument info. With more than one argument, the rest after the script name are parsed. Otherwise the parsed arguments are null. The script name is the first entry. |
| ConsoleHelpers.ConsoleHelper.GetParameterWithDefault | inc/ConsoleHelper.php:136-142 | The short name wins over the long one, which wins over the default. With no argument info the default is returned. Null parsed arguments raise PHP 8's TypeError. |
| ConsoleHelpers.ConsoleHelper.HasShortLongArg | inc/ConsoleHelper.php:265-286 | No argument info or an argument count below 1 gives false. Otherwise the answer is whether a parsed key equals either name, ignoring case when asked. Null parsed arguments raise the TypeError. |
| ConsoleHelpers.CaseSensitiveHitIsCaseInsensitiveHit | inc/ConsoleHelper.php:265-286 | A case-sensitive hit is also a case-insensitive hit. |
| ConsoleHelpers.ConstructedLookups | inc/ConsoleHelper.php:49-62 | On a constructed helper, a long-name lookup gives the value of the last argument that sets it, or the default when none does. With a single argument the lookup throws. |
| ConsoleHelpers.Prompt | inc/ConsoleHelper.php:157-163 | The prompt is the query and ": ", with " [default]" in between when there is a default. |
| ConsoleHelpers.GetQueriedInput | inc/ConsoleHelper.php:155-217 | The prompting loop returns, crashes or runs forever as the query specification says, and writes the same transcript. |
| ConsoleHelpers.FirstStopUnique | inc/ConsoleHelper.php:175-214 | Only one read can be the first to stop the loop. |
| ConsoleHelpers.StopsPastEnd | inc/ConsoleHelper.php:177 | Every read past the end of input behaves like the first one there. |
| ConsoleHelpers.QueryUntilFirstStop | inc/ConsoleHelper.php:175-214 | Up to the first stopping read, the run echoes a prompt and an error per rejected read, then ends as that read decides. |
| ConsoleHelpers.FirstStopDecides | inc/ConsoleHelper.php:175-214 | Within the try limit, the first read that is accepted or crashes decides the result. The transcript is the rejections before it and its prompt. |
| ConsoleHelpers.QueryRejectsFrom | inc/ConsoleHelper.php:199-213 | With every remaining read rejected, the loop prints a prompt and an error line per read, then gives up. It gives up with the "exceeded" helper when there is a positive limit, and runs forever otherwise. |
| ConsoleHelpers.GivesUpAfterMaxTries | inc/ConsoleHelper.php:206-212 | After exactly maxTries rejected reads the result is BAD with the single message "Exceeded maximum number of attempts.". |
| ConsoleHelpers.EndlessWithoutLimit | inc/ConsoleHelper.php:206-212 | The loop runs forever exactly when maxTries is not positive and every read, up to the first one at end of input, is rejected. |
| ConsoleHelpers.FirstStopBelow | inc/ConsoleHelper.php:175-214 | If some read stops the loop, a first such read exists. |
| ScriptUsage.ScriptUsageHelper.constructor | inc/ScriptUsageHelper.php:103-108 | A new helper has its name and description and no options or examples. |
| ScriptUsage.ScriptUsageHelper.AddExample | inc/ScriptUsageHelper.php:115-119 | The example is appended after the earlier ones, and nothing else changes. |
| ScriptUsage.ScriptUsageHelper.AddOption | inc/ScriptUsageHelper.php:133-146 | The option is appended with exactly the given fields, and nothing else changes. |
| ScriptUsage.ScriptUsageHelper.ShowBasicHelp | inc/ScriptUsageHelper.php:172-177 | Two lines: the name, followed by ": message" when one is given, then the hint. |
| ScriptUsage.ScriptUsageHelper.ShowOptionHelp | inc/ScriptUsageHelper.php:185-249 | A failing help lookup fails. Otherwise the lines printed are the option-help specification of the requested name. |
| ScriptUsage.PutTable | inc/ScriptUsageHelper.php:210-245 | The table branch prints exactly the table specification. |
| ScriptUsage.MeasureWidths | inc/ScriptUsageHelper.php:216-227 | The width loop computes the column widths of the specification. |
| ScriptUsage.PutRows | inc/ScriptUsageHelper.php:229-234 | One row per option, as the row specification gives it. |
| ScriptUsage.PutOptionExamples | inc/ScriptUsageHelper.php:239-241 | Each option's example, indented by four spaces. |
| ScriptUsage.PutPrefixed | inc/ScriptUsageHelper.php:243-245 | Each line with the same prefix, in order. |
| ScriptUsage.FirstMatch | inc/ScriptUsageHelper.php:192-207 | The option found is the first whose short name, long name or name equals the lower-cased request after lower-casing. None means none matches. |
| ScriptUsage.CellContents | inc/ScriptUsageHelper.php:230-231 | A column is the dashes and the name padded to the width. It is blanks of the same width when the name is "" or "0". |
| ScriptUsage.Width | inc/ScriptUsageHelper.php:216-227 | Every column is at least one character wide. |
| ScriptUsage.WidthFits | inc/ScriptUsageHelper.php:216-227 | No name is longer than its column. |
| ScriptUsage.WidthAttained | inc/ScriptUsageHelper.php:216-227 | The width is 1 or the length of some name: no column is wider than it needs to be. |
| ScriptUsage.Rows | inc/ScriptUsageHelper.php:229-234 | There are exactly as many rows as options. |
| ScriptUsage.RowsAt | inc/ScriptUsageHelper.php:229-234 | Row k is option k's row. |
| ScriptUsage.ExamplesOf | inc/ScriptUsageHelper.php:239-241 | The option examples, in option order. |
| ScriptUsage.Prefixed | inc/ScriptUsageHelper.php:243-245 | One output line per input line. |
| ScriptUsage.PrefixedAt | inc/ScriptUsageHelper.php:243-245 | Line k is the prefix followed by input line k. |
| ScriptUsage.RowsAligned | inc/ScriptUsageHelper.php:229-234 | Every row puts its short description at the same column. |
| ScriptUsage.TableLength | inc/ScriptUsageHelper.php:210-245 | The table has four heading lines, one row per option, two more lines, then one line per option example and per added example. |
| ScriptUsage.TableRow | inc/ScriptUsageHelper.php:229-234 | Line 4 + k of the table is option k's row. |
| ScriptUsage.TableOptionExample | inc/ScriptUsageHelper.php:236-241 | Line 6 + n + k (n options) is option k's example. |
| ScriptUsage.TableAddedExample | inc/ScriptUsageHelper.php:243-245 | The added examples come last, each after "php" and the script name. |
| ScriptUsage.DetailShowsFirstMatch | inc/ScriptUsageHelper.php:189-208 | Detailed help prints the name and the detail of the first matching option only. |
| ScriptUsage.SatisfiesRequirements | inc/ScriptUsageHelper.php:155-163 | The loop's answer is the requirement fold over the options, looking names up by the given rule. |
| ScriptUsage.DeclaredNamesMeetRequirements | inc/ScriptUsageHelper.php:155-163 | With the declared short and long names, the requirements hold exactly when every required option is given. |
| ScriptUsage.UndeclaredNamesIgnoreArguments | inc/ScriptUsageHelper.php:157 | As written, with the undeclared names, the requirements hold exactly when no option is required, whatever the arguments. |
| ScriptUsage.RequiredOptionGiven | inc/ScriptUsageHelper.php:157 | A required `-u` that is given passes the intended check and fails the check as written. |
| Logging.And64 | inc/Logger.php:292 | PHP's `&` with a non-negative operand is the bitwise and of the two's-complement pattern. |
| Logging.FlagIndex | inc/Logger.php:142-179 | A level is a flag exactly when it is 2^j for some j below 8. |
| Logging.FlagIndexOfPow2 | inc/Logger.php:142-179 | 2^j is the j-th flag. |
| Logging.ConvertLevelToString | inc/Logger.php:139-182 | "N/A" exactly for non-flags, NONE and ALL included. The short form is the flag's three-letter name; the long form is its constant name without "N2F_LOG_". |
| Logging.NameIndex | inc/Logger.php:320-353 | A part is recognised only as one of the eight flag names. |
| Logging.PartFlagOfName | inc/Logger.php:320-353 | The j-th name ORs in 2^j. |
| Logging.PartFlagBits | inc/Logger.php:320-353 | A part sets bit j exactly when it is the j-th name. |
| Logging.FoldBelow | inc/Logger.php:308-356 | Parsing a level never goes above ALL. |
| Logging.FoldAll | inc/Logger.php:314-318 | A part naming ALL makes the level ALL. |
| Logging.FoldBits | inc/Logger.php:311-354 | Without ALL, bit j is set exactly when it already was or some trimmed part is the j-th name; unknown parts change nothing. |
| Logging.LevelOfIsValid | inc/Logger.php:303-357 | Every parsed level is within 0 to 255, a level `validLevel` accepts. |
| Logging.LevelOfAll | inc/Logger.php:309-318 | N2F_LOG_ALL anywhere in the string gives ALL. |
| Logging.LevelOfBits | inc/Logger.php:303-357 | Otherwise, bit j of the level is set exactly when some part, trimmed, is the j-th name. |
| Logging.NameRoundTrip | inc/Logger.php:139-182 | A flag's long name, with its prefix, parses back to the flag. |
| Logging.NameLevel | inc/Logger.php:303-357 | The j-th constant name alone parses to 2^j. |
| Logging.SinglePart | inc/Logger.php:303-357 | A string of one untrimmed name parses to that name's flag. |
| Logging.EmptySplit | inc/Logger.php:304-305 | "" and "0" do not split further. |
| Logging.ValidLevel | inc/Logger.php:520-560 | The loop accepts exactly the levels the validity predicate describes: integers 0 to 255, or strings whose every part, trimmed, is a known name. |
| Logging.SingleLevelIsValid | inc/Logger.php:520-611 | Every level `validSingleLevel` accepts is also accepted by `validLevel`. |
| Logging.NoBarInNames | inc/Logger.php:543-552 | No level name contains the bar that separates parts. |
| Logging.TrimDropsOnlyBlanks | inc/Logger.php:540 | `trim` removes only blanks. |
| Logging.NewConfig | inc/Logger.php:44-54 | Null or an empty array gives no dumping and level ERROR. Dumping is on exactly when `dump_logs` is truthy. The level is `log_level` when given, ERROR otherwise. |
| Logging.ConfigOf | inc/Logger.php:103-117 | An array is read as a config, a config object is copied, and anything else gives the default config. |
| Logging.LowestFrom | inc/Logger.php:397-403 | The bucket chosen is a flag that the level shares. |
| Logging.LowestOfPow2 | inc/Logger.php:397-403 | A flag's bucket is its own. |
| Logging.LowestOfNone | inc/Logger.php:397-403 | NONE has no bucket. |
| Logging.FiledBuckets | inc/Logger.php:387-404 | A flag is filed in its own bucket, ALL in Debug, and NONE nowhere. A combination that is not a single level is not logged at all. |
| Logging.LowestOfFull | inc/Logger.php:397-403 | A level with the lowest bit set is filed in the first bucket. |
| Logging.ReplaceContext | inc/Logger.php:377-385 | The placeholder loop and `str_replace` give the interpolation specification. |
| Logging.ReplaceAbsent | inc/Logger.php:384 | A string without the search's first character is left alone. |
| Logging.ReplaceOne | inc/Logger.php:384 | A single occurrence is replaced and nothing else changes. |
| Logging.InterpolateNoBraces | inc/Logger.php:377-385 | A message without `{` is logged as it is. |
| Logging.InterpolateOne | inc/Logger.php:377-385 | A message with one placeholder gets the value in its place. |
| Logging.Logger.constructor | inc/Logger.php:103-117 | A new logger has the configuration its argument gives and eight empty buckets. |
| Logging.Logger.LevelFromString | inc/Logger.php:303-357 | The parsing loop gives the level specification. |
| Logging.Logger.IsLevelLogged | inc/Logger.php:287-293 | A string configured level is PHP 8's TypeError; an integer one is and-ed with the given level. |
| Logging.Logger.Log | inc/Logger.php:368-407 | The interpolated message is filed as the filing specification says, and the configuration is unchanged. |
| Logging.Logger.FileEntry | inc/Logger.php:387-404 | The bucket loop files the entry in the lowest flag's bucket of a single level, and nowhere otherwise. |
| Logging.Logger.GetLogs | inc/Logger.php:248-266 | Null gives every bucket. A single level gives the buckets whose flag it has. Anything else gives null. |
| Logging.Flag | inc/Logger.php:7-14 | The j-th flag is 2^j and below 256. |
| Logging.SelectionContents | inc/Logger.php:256-260 | The selection holds exactly the buckets whose flag the level has, with their entries. |
| Logging.LogsAtFlag | inc/Logger.php:248-266 | Asking for one flag gives that bucket alone. |
| Logging.LogsAtNone | inc/Logger.php:248-266 | NONE gives no bucket, and a combination of flags gives null. |
| Logging.LogsAtAll | inc/Logger.php:248-266 | ALL gives every bucket. |
| Logging.SelectionOfAll | inc/Logger.php:256-260 | A level with all eight bits selects every bucket. |
| Logging.AllBits | inc/Logger.php:15 | ALL has each of the eight flag bits. |
| Logging.FlagLogged | inc/Logger.php:287-293 | A flag is logged exactly when the configured level's two's-complement pattern has its bit. |
| Logging.FlagNameLogged | inc/Logger.php:287-293 | Naming a flag by its constant gives the same answer as the flag. |
| ParameterHelpers.New | inc/ParameterHelper.php:33-42 | Null or an empty array gives an invalid helper. Anything else is stored and valid. |
| ParameterHelpers.ParameterHelper.NumValues | inc/ParameterHelper.php:49-51 | The count is the number of entries; it is 0 exactly when the helper is invalid. |
| ParameterHelpers.ParameterHelper.GetInt | inc/ParameterHelper.php:75-81 | A readable key gives an integer, an integer stored as it is; otherwise the default. |
| ParameterHelpers.ParameterHelper.GetBool | inc/ParameterHelper.php:120-126 | A readable key gives its truthiness; otherwise the default. |
| ParameterHelpers.ParameterHelper.GetString | inc/ParameterHelper.php:152-158 | A readable value is returned as the string `strval` makes of it, so a string comes back as it is; an unreadable key gives the default unconverted. |
| ParameterHelpers.GetStringOfScalar | inc/ParameterHelper.php:152-158 | Null and false read as "", true as "1", and an integer within PHP's range as a decimal that `intval` reads back as the same integer. |
| ParameterHelpers.ParameterHelper.GetRaw | inc/ParameterHelper.php:167-177 | An invalid helper gives the default. No key gives the whole array. A key gives its value, or the default when missing. |
| ParameterHelpers.HasValueGuardsGetters | inc/ParameterHelper.php:60-66 | On a constructed helper, `hasValue` holds exactly when the getters read the key. A non-empty value reads as true. |
| ParameterHelpers.GetIntOfDecimalString | inc/ParameterHelper.php:75-81 | An integer sent as its decimal string reads back unchanged. |
| ParameterHelpers.GetIntIsIntValOfGetString | inc/ParameterHelper.php:75-81 | `getInt` agrees with `intval` of `getString` on every value a client can send. |
| Php.IntValOfStrVal | inc/ParameterHelper.php:75-81 | Every 64-bit integer survives `intval(strval(n))`. |
| Php.LessThanOneOfDecimal | inc/repos/UserRoles.rpo.php:57 | On the decimal spelling of a number, PHP's `< 1` is the number's own test. |
| Php.LettersNotBelowOne | api/1/account.api.php:95 | A string of letters is not below 1 for PHP's `<`, although its `intval` is 0. |
| Php.ToUpper | inc/ApiRequest.php:96 | `strtoupper` keeps the length and upper-cases each letter. |
| Php.Split | inc/ApiHandler.php:143 | `explode` gives at least one piece, and no piece holds the delimiter. |
| Php.JoinSplit | inc/ApiHandler.php:143 | Joining the pieces of `explode` gives the string back. |
| Php.SplitJoin | inc/ApiHandler.php:143 | `explode` recovers any non-empty list of delimiter-free pieces from their join. |
| Php.PadRight | inc/ScriptUsageHelper.php:230-231 | `str_pad` keeps the string and fills with spaces up to the width. |
| ReturnHelpers.BadWith | inc/repos/Users.rpo.php:144-145 | A failing validator's helper is BAD, not GUD, with the one message and no results. |
| ReturnHelpers.ResultsOf | inc/ReturnHelper.php:95-103 | No result gives null, one gives that result, and more give the whole list. |
| ReturnHelpers.MessagesOf | inc/ReturnHelper.php:82-88 | No message gives null; otherwise the whole list. |
| ReturnHelpers.ReturnHelper.constructor | inc/ReturnHelper.php:41-47 | A new helper is BAD with no messages and no results. |
| ReturnHelpers.ReturnHelper.IsBad | inc/ReturnHelper.php:54-56 | BAD exactly when the status is 0, and then not GUD. |
| ReturnHelpers.ReturnHelper.IsGud | inc/ReturnHelper.php:73-75 | GUD exactly when the status is strictly 1, and then not BAD. |
| ReturnHelpers.ReturnHelper.IsGood | inc/ReturnHelper.php:64-66 | The alias of `isGud`: true exactly when `isGud` is. |
| ReturnHelpers.ReturnHelper.HasMessages | inc/ReturnHelper.php:111-113 | True exactly when `getMessages` would not give null. |
| ReturnHelpers.ReturnHelper.GetMessages | inc/ReturnHelper.php:82-88 | The messages, in the shape the message specification gives. |
| ReturnHelpers.ReturnHelper.GetResults | inc/ReturnHelper.php:95-103 | The results, in the shape the result specification gives. |
| ReturnHelpers.ReturnHelper.SetMessage | inc/ReturnHelper.php:121-125 | Appends one message; status and results are unchanged. |
| ReturnHelpers.ReturnHelper.SetMessages | inc/ReturnHelper.php:133-143 | Appends every message in order; nothing else changes. |
| ReturnHelpers.ReturnHelper.SetResult | inc/ReturnHelper.php:151-155 | Appends one result; nothing else changes. |
| ReturnHelpers.ReturnHelper.SetResults | inc/ReturnHelper.php:163-173 | Appends every result in order; nothing else changes. |
| ReturnHelpers.ReturnHelper.SetBad | inc/ReturnHelper.php:180-184 | The status becomes BAD and nothing else changes. |
| ReturnHelpers.ReturnHelper.SetGud | inc/ReturnHelper.php:201-205 | The status becomes GUD and nothing else changes. |
| ReturnHelpers.ReturnHelper.SetGood | inc/ReturnHelper.php:192-194 | Same as setGud. |
| ReturnHelpers.ReturnHelper.SetStatus | inc/ReturnHelper.php:213-217 | Stores `intval` of the argument, so "1" makes the helper GUD, and any status other than 0 and 1 is neither BAD nor GUD. |
| UsersRepo.FirstUnacceptable | inc/repos/Users.rpo.php:150-157 | Finds the first character outside letters, digits, `-` and `_`. None means every character is acceptable. |
| UsersRepo.IsValidUsername | inc/repos/Users.rpo.php:126-183 | The helper returned is fresh and holds the username verdict: length, then characters, then the uniqueness query. |
| UsersRepo.CheckUnique | inc/repos/Users.rpo.php:159-182 | The shared tail: the query when asked for, then GUD. |
| UsersRepo.IsValidEmail | inc/repos/Users.rpo.php:194-228 | The helper returned is fresh and holds the email verdict. |
| UsersRepo.IsValidPassword | inc/repos/Users.rpo.php:237-254 | The helper returned is fresh and holds the password verdict. |
| UsersRepo.UsernameGoodIff | inc/repos/Users.rpo.php:126-183 | A username is GUD exactly when it has 6 to 64 acceptable characters and, when checked, the query finds no row. Every BAD answer carries one message. |
| UsersRepo.UsernameNamesFirstBadCharacter | inc/repos/Users.rpo.php:150-157 | A bad character is reported by naming the first one. |
| UsersRepo.UsernameQueryOutcomes | inc/repos/Users.rpo.php:159-178 | A found row gives "Duplicate username in database", and a failed query gives "Unable to check database for duplicates". |
| UsersRepo.EmailFormat | inc/repos/Users.rpo.php:194-228 | An email is refused for its format exactly when it is empty or has no `@`. Without the uniqueness check, every other email is GUD. |
| UsersRepo.PasswordGoodIff | inc/repos/Users.rpo.php:237-254 | A password is GUD exactly when it has 8 to 72 characters; otherwise it is BAD with the length message. |
| BackendMenu.AnyMatches | inc/BackendMenuHelper.php:79-86 | True exactly when some pattern matches the path. |
| BackendMenu.IsActive | inc/BackendMenuHelper.php:75-91 | A single pattern is active when it matches; a list is active when any of its patterns matches. |
| BackendMenu.Find | inc/BackendMenuHelper.php:120-158 | Finds the top-level element with the key; none exactly when the key is absent. |
| BackendMenu.BackendMenuHelper.constructor | inc/BackendMenuHelper.php:101-113 | A new helper has no elements. |
| BackendMenu.BackendMenuHelper.AddElement | inc/BackendMenuHelper.php:120-131 | The menu becomes the insertion specification's result; a failure leaves it as it was. |
| BackendMenu.BackendMenuHelper.AddSubElement | inc/BackendMenuHelper.php:145-159 | The menu becomes the sub-insertion specification's result; a failure leaves it as it was. |
| BackendMenu.BackendMenuHelper.GetElements | inc/BackendMenuHelper.php:166-168 | Returns the menu as the insertions built it: top-level elements in insertion order, each with its sub-elements. |
| BackendMenu.InsertedSpec | inc/BackendMenuHelper.php:120-131 | Adding fails exactly on a duplicate top-level key, with the duplicate-key message. Otherwise the element is appended with no children, and keys stay unique. |
| BackendMenu.SubInsertedSpec | inc/BackendMenuHelper.php:145-159 | An unknown parent fails with the invalid-parent message. Otherwise the element is appended under its parent only, and keys stay unique. |
| BackendMenu.InsertionOrder | inc/BackendMenuHelper.php:120-131 | Elements with distinct keys come back in the order they were added, each without children. |
| BackendMenu.RepeatedKeyFails | inc/BackendMenuHelper.php:122-124 | Adding a key already present fails, whatever came before. |
| Pages.MetaElement.Render | inc/Page.php:40-50 | The meta tag is returned when asked for, and echoed otherwise. |
| Pages.Page.constructor | inc/Page.php:61-79 | A new page has no blocks, no title and no meta elements. |
| Pages.Page.AddMeta | inc/Page.php:88-96 | Appends the element; blocks and title are unchanged. |
| Pages.Page.GetMeta | inc/Page.php:103-105 | Returns the meta elements in the order `addMeta` appended them. |
| Pages.Page.StartBlock | inc/Page.php:114-122 | The blocks become the started specification's; nothing else changes. |
| Pages.Page.EndBlock | inc/Page.php:132-143 | Ending a block that was never started fails. Otherwise the captured text becomes its last chunk. |
| Pages.Page.RenderBlock | inc/Page.php:155-170 | An unknown block fails. Otherwise the indented chunks are returned when asked for, and echoed otherwise. |
| Pages.Page.SetTitle | inc/Page.php:177-181 | Sets the title; nothing else changes. |
| Pages.Page.RenderTitle | inc/Page.php:190-200 | The title element, with null as empty, is returned when asked for, and echoed otherwise. |
| Pages.StartKeepsChunks | inc/Page.php:114-122 | Starting a block never loses chunks: an existing block stays as it is, a new one is empty, and no other block changes. |
| Pages.EndAppendsChunk | inc/Page.php:132-143 | Ending fails exactly when the block was never started. Otherwise the captured text is appended to that block only. |
| Pages.CapturesAccumulate | inc/Page.php:114-143 | Repeated start/end pairs on one key accumulate its chunks in call order and leave other blocks alone. |
| Pages.RenderedLines | inc/Page.php:155-170 | A rendered block is the indent, then its chunks, each later one on a new line after the indent. |
| Pages.MetaNameRecoverable | inc/Page.php:40-50 | With no quote in the name, the name is exactly the text between `name="` and the next quote. |
| IoHelpers.NewIoHelper | inc/IoHelper.php:33-41 | A null core path, or one that is not a directory, is refused with the source's message. Otherwise the helper holds the path. |
| IoHelpers.IoHelper.constructor | inc/IoHelper.php:33-40 | The helper holds the core path it was given (the checks of the PHP constructor are in the row above). |
| IoHelpers.ProcessRoot | inc/IoHelper.php:277-282 | Null stays null. A path not starting with `~` is kept. A `~` path becomes a path starting with the core path, at most two characters shorter than core path and path together. |
| IoHelpers.FileExists | inc/IoHelper.php:99-104 | An empty path ("" or "0") never exists. A non-empty path without `~` exists exactly when the filesystem has it. |
| IoHelpers.FolderExists | inc/IoHelper.php:113-118 | An empty path is never a folder, and an existing folder is an existing file for `fileExists`. A non-empty path without `~` is a folder exactly when the filesystem has it as a directory. |
| IoHelpers.CopyFile | inc/IoHelper.php:51-68 | An empty source or destination fails with the invalid-path message. A success needs a successful `copy`, an existing source and an absent destination. |
| IoHelpers.MakeFolder | inc/IoHelper.php:262-267 | Only a non-empty path can give true, and only when `mkdir` succeeds. |
| IoHelpers.IoHelper.Load | inc/IoHelper.php:241-254 | A missing file fails. A loaded path without reload fails. Otherwise the raw path is recorded and returned. |
| IoHelpers.ProcessRootKeeps | inc/IoHelper.php:277-283 | Null, and paths not starting with `~`, pass through untouched. |
| IoHelpers.ProcessRootExpands | inc/IoHelper.php:277-283 | `~/rest` becomes the core path and rest with one slash between; any other `~x` becomes the core path followed by x. |
| IoHelpers.ProcessRootIdempotent | inc/IoHelper.php:262-283 | Expanding twice equals expanding once when the core path is non-empty and does not start with `~`. |
| IoHelpers.CopyFileChecksArgumentsFirst | inc/IoHelper.php:51-69 | An empty path, then a trailing slash, fails the same way whatever the filesystem holds. |
| IoHelpers.CopyFileSucceeds | inc/IoHelper.php:51-69 | Copying succeeds exactly when both paths are non-empty files, the source exists, the destination does not, and `copy` succeeds. |
| IoHelpers.MakeFolderEmpty | inc/IoHelper.php:262-268 | An empty path makes no folder. |
| IoHelpers.MakeFolderUnlessFolder | inc/IoHelper.php:262-267 | With a non-empty core path not starting with `~`, a non-empty path gives `mkdir`'s answer exactly when no folder is at that path, despite the second expansion. |
| IoHelpers.LoadGuard | inc/IoHelper.php:241-254 | A missing file never loads. An existing file fails only when already loaded without reload. A load records the path. |
| IoHelpers.CacheKeyedByRawPath | inc/IoHelper.php:241-254 | After loading `~/x`, its expansion is a different key and loads again, though both name the same file. |
| BaseClasses.FirstMatchSpec | inc/classes/BaseClass.php:45-54 | The matching property is found exactly when one exists, and it is the first whose name equals the key ignoring case. |
| BaseClasses.FromArray | inc/classes/BaseClass.php:34-67 | The nested loops give the population specification: an empty source, a count mismatch, or an unmatched key fails. |
| BaseClasses.AssignFirstMatch | inc/classes/BaseClass.php:45-58 | The inner loop assigns the value to the first matching property and stops, or reports that none matches. |
| BaseClasses.BaseObject.constructor | inc/classes/BaseClass.php:77-86 | The object keeps the logger it is given. |
| BaseClasses.BaseObject.AssertIdentifier | inc/classes/BaseClass.php:97-106 | A strict `true` passes without logging. Anything else logs the error and throws the identifier message. |
| BaseClasses.PopulatedGuards | inc/classes/BaseClass.php:35-43 | An empty source fails first. A size other than the property count less two fails next. Success implies the count matches. |
| BaseClasses.AssignedProperties | inc/classes/BaseClass.php:44-64 | When every key matches, the properties assigned are exactly the first matches of the keys. |
| BaseClasses.AssignedToFirstMatch | inc/classes/BaseClass.php:44-64 | When no two keys are equal ignoring case, each value lands in the first property matching its key. |
| BaseClasses.FailurePersists | inc/classes/BaseClass.php:58-61 | Once the loop throws, the result is that exception. |
| BaseClasses.UnmatchedKeyNamed | inc/classes/BaseClass.php:58-61 | The exception names the first key that matches no property. |
| ClassFieldLists.Collect | inc/classes/ClassField.php:103-151 | The shared loop builds the keyed table, a later field overwriting an earlier one. |
| ClassFieldLists.ClassFields.constructor | inc/classes/ClassField.php:80-84 | Stores the list as given, null included. |
| ClassFieldLists.ClassFields.AddField | inc/classes/ClassField.php:91-95 | Appends the field; a null list becomes a one-field list. |
| ClassFieldLists.ClassFields.GetSqlColumns | inc/classes/ClassField.php:103-113 | A null list raises PHP 8's `count(null)` TypeError. Otherwise each column maps to true. |
| ClassFieldLists.ClassFields.GetSqlParameters | inc/classes/ClassField.php:122-132 | A null list raises the TypeError. Otherwise each parameter maps to its PDO type. |
| ClassFieldLists.ClassFields.GetClassFields | inc/classes/ClassField.php:141-151 | A null list raises the TypeError. Otherwise each property maps to true. |
| ClassFieldLists.IndexedKeys | inc/classes/ClassField.php:103-151 | The table's keys are exactly the fields' keys. |
| ClassFieldLists.IndexedLastWriter | inc/classes/ClassField.php:103-151 | Each key holds the value of the last field with that key. |
| ClassFieldLists.LastWith | inc/classes/ClassField.php:103-151 | Each field's key holds the value of some field at or after it. |
| ClassFieldLists.PresenceTables | inc/classes/ClassField.php:103-113 | The column and property tables map exactly the columns and properties, each to true. |
| ClassFieldLists.ParameterTypes | inc/classes/ClassField.php:122-132 | The parameter table maps exactly the parameters, each to the type of the last field using it. |
| Paging.CeilDiv | back/js/main.js:436-437 | `Math.ceil(a / b)` is the least r with a at most r times b. |
| Paging.PagingInfoOf | back/js/main.js:428-439 | The page and the page count are never negative. |
| Paging.Links | back/js/main.js:489-491 | One link per number from first to last, marked active exactly for the current page's label. |
| Paging.WindowCases | back/js/main.js:469-482 | Fewer than five pages are all listed. Otherwise the window pins to the start, pins to the end, or runs from the page before the current one. |
| Paging.WindowBounds | back/js/main.js:464-482 | The window lies within the pages and lists the smaller of 5 and the page count. |
| Paging.ActiveLinkIsCurrentPage | back/js/main.js:489-491 | While the current page exists, exactly its link is active. |
| Paging.ClickShowsPage | back/js/main.js:493-496 | A click on a page link moves the table to that page. |
| Paging.PrevOnFirstPage | back/js/main.js:501-505 | Prev is disabled exactly on the first page. |
| Paging.NextOnLastPage | back/js/main.js:507-511 | On a page boundary inside the records, Next is disabled exactly when no records follow the page shown. |

## Left out

- I/O is left out:
  - the buffers behind `ConsoleHelper::get`, `getLine`, `put` and `putLine` are parameters or returned values;
  - `readInput` is a parameter: a failed read becomes "" as in the source;
  - headers and the codes set through `setHttpResponseCode` are part of the returned response; a handler's own code is the `status` of its call;
  - the `ob_*` buffer stack is not modelled: `endBlock` takes the captured text as a parameter.
- These are oracles: `preg_match`, `json_decode`, `password_verify` and `password_hash`, PDO queries, and the session, role, user and login-key repositories. Their answers are parameters, so the properties hold for every answer.
- The `$_GET`, `$_SERVER`, `$_COOKIE` and STDIN superglobals are parameters.
- PHP arrays are maps or sequences. The key order of an associative array is not modelled where a map is used. Examples are `env_parse_params`'s result, the `ClassFields` tables and `fromArray`'s result. Integer-like string keys are not converted to integers.
- Loose `==` between numeric strings is read as string equality. This affects `hasShortLongArg`, `showOptionHelp`'s name match and `levelFromString`'s `'N2F_LOG_ALL'` test.
- `intval` of strings in exponent or hexadecimal form, and floats in general, are left out. `getFloat`, `getDouble` and `getJson` of `ParameterHelper` are not modelled, because they need floats or JSON values.
- `Logging.Logger.IsLevelLogged`: a numeric string as the configured `log_level` is treated like any other string (the TypeError). It does not model PHP's numeric-string `&`.
- Timestamps of log entries, `output`, `outputToFile`, `unrollLogs` and `getLogLevel` are left out: they are formatting and I/O. The level wrappers (`alert`, `debug`, `error`, `info` and the rest) are calls of `log` with a constant level. `error` is modelled where `assertIdentifier` uses it; the account endpoints also call `error` and `info`, and those entries are not modelled (see below).
- `addMeta`'s null guard cannot fire under its type declaration. The model appends unconditionally.
- The folder operations of `IoHelper` are not modelled, because they only call filesystem functions: `copyFolder`, `recursiveCopy`, `getContents`, `putContents`, `getFolderFiles`, `getFolderFolders`, `getFolderItems` and `globFolder`. The `require` of `load` is also left out, and so is the effect of `copy` and `mkdir` on the filesystem (their answers are parameters).
- The database check of the `BaseClass` constructor, and the CRUD methods of the data classes, are left out: they are database I/O.
- `ApiRequest`'s `cookie` and `server` helpers are left out, because nothing in the core reads them after construction.
- The account endpoint registrations (api/1/account.api.php:357-362) are calls of `RegisterEndpoint` with constant arguments. They are not repeated as a separate member.
- DateTime conversion of `dateJoined` and `lastLogin` in `User` is not modelled: dates are strings as read, and the clock reading `now` stands for the `DateTime` that `User::create` makes (inc/classes/User.cls.php:159-160). How `json_encode` spells a `DateTime` object in an answer is not modelled. A stored join date is taken to be non-empty, so a user with a row, including one just created, has a join date; only a user without a row has a null one.
- AccountApi.GetAccount, AccountApi.UpdateAccount, AccountApi.CreateAccount and AccountApi.DeleteAccount do not model their log entries: the `$this->log->error(...)` and `$this->log->info(...)` calls (for example api/1/account.api.php:70, :215, :277 and :342) write only to the logger, which no answer or database effect depends on.
- Uncaught exceptions are modelled only as what reaches the response. This covers a matched handler that throws: its echoed text and the code it set are sent. It also covers the `Crashed` outcome of `ApiHandlers.ApiHandler.Handle` and `ApiHandlers.ApiHandler.Route`: an invalid request at `getRequestTypeName` (inc/ApiHandler.php:197), or a non-JSON body at an auth-only route's `getParameterizedInput` (inc/ApiHandler.php:206). There the headers are sent with no code and an empty body. In every case PHP's own report of the uncaught exception (its error text, and the 500 status it may set when errors are not displayed) is not modelled, because it depends on the PHP configuration.
- Numeric strings in decimal-point or exponent form (such as "1.5" or "1e3") are compared by `Php.LessThanOne` as non-numeric strings, not as numbers.
- The role and user queries bind an id as an integer; the model looks them up under its `intval`.
- Multi-byte characters are not modelled. Each `char` is one byte, so `UsersRepo.IsValidUsername`, `UsersRepo.IsValidPassword`, `Functions.WordWrapIgnoreHtml`, `ScriptUsage.MeasureWidths`, `ScriptUsage.CellContents` and `Php.PadRight` count bytes as `strlen` and `str_pad` do. A character above 255 stands for no PHP string.
- DataTables' "All" page length (−1) is outside `Paging.PagingInfoOf`, which requires a positive length. The DOM work of `fnInit` and `fnUpdate` (inserting and binding list items) is not modelled.
- `ConsoleHelpers.GetQueriedInput` takes the lines that `getLine` returns, already trimmed. The default validator and sanitiser therefore see trimmed input.
- `compareArg`, `compareArgAt`, `hasArg`, `numArgs`, `parameters`, `isCLI`, `isNaturalCLI` and `getSelf` of `ConsoleHelper` are not modelled: they are one-line lookups. `hasShortLongArg` and `getParameterWithDefault` stand for them.
- `isAuthenticated`, `getApiParams`, `env_get_guid`, `env_is_windows` and `doAutoload` of inc/Functions.php are left out: they are session, random and autoloader glue.

## Findings

| source | as written | input that shows it | evidently intended | confidence | as-written member | corrected member |
|---|---|---|---|---|---|---|
| inc/Functions.php:43 | A pending word is flushed before `<` only when `!empty($word)`, and `empty("0")` is true | `wordWrapIgnoreHTML("0<b>")` returns "<b>0" | Flush any non-empty pending word, so the text keeps its order | high, not executed | Functions.ZeroWordMovesPastTag | Functions.WrapKeepsText |
| inc/Functions.php:50-52 | A `>` is appended at once, and the pending word is never flushed before it, so a `>` outside a tag moves ahead of the word | `wordWrapIgnoreHTML("a->b")` returns ">a-b" | Flush any non-empty pending word before `>` as well as before `<` | medium, not executed | Functions.StrayCloseMovesPastWord | Functions.WrapKeepsText |
| inc/ScriptUsageHelper.php:157 | `satisfiesRequirements` passes `$opt->short` and `$opt->long`, which `ScriptUsageOption` does not declare, so both are null | A required option `-u` given as `-u x` still makes `satisfiesRequirements` return false | Look up `$opt->shortName` and `$opt->longName` | high, not executed | ScriptUsage.RequiredOptionGiven | ScriptUsage.DeclaredNamesMeetRequirements |

=== FILE: account_api.dfy ===
/**
 * The account endpoints: reading, updating, creating and deleting a user
 * account. Database lookups, role checks and password hashing are oracles
 * bundled in `Repo`; every handler answers with an `ApiResponse`.
 */
module AccountApi {
  import opened Wrappers
  import opened Php
  import opened ParameterHelpers
  import ApiHandlers

  const OK: int := 200
  const INTERNAL_SERVER_ERROR: int := 500

  /** `AccountApiStrings::Field_Token`, the token field `getAccount` reads. */
  const TokenField: string := "token"

  /** A row of the `User` table. */
  datatype StoredUser = StoredUser(username: string, email: string, emailConfirmed: bool, dateJoined: string, lastLogin: Option<string>)

  /** The public fields of a `User` object, as the PHP values they hold. */
  datatype UserFields = UserFields(id: Value, username: Value, email: Value, emailConfirmed: Value, dateJoined: Value, lastLogin: Value)

  /** The five keys of an account answer: the identifier (under the name the
      handler gives it), email, username, join date and last login. Whether
      the email is confirmed is not sent. */
  datatype Record = Record(id: Value, email: Value, username: Value, dateJoined: Value, lastLogin: Value)

  function RecordOf(u: UserFields): Record {
    Record(u.id, u.email, u.username, u.dateJoined, u.lastLogin)
  }

  /** What a handler puts in its response: a message, or an account record
      under the given name for its identifier ('userId' or 'id'). */
  datatype Data = Text(message: string) | Info(idKey: string, user: Record)

  datatype ApiResponse = ApiResponse(httpCode: int, data: Data)

  /** The database writes a handler performs. `keySet` is the plain password
      whose hash is stored as the BASIC login key. */
  datatype Effects = Effects(keySet: Option<Value>, written: Option<UserFields>, created: Option<UserFields>, deleted: Option<int>)

  const NoEffects := Effects(None, None, None, None)

  /**
   * The repositories and library calls the handlers use:
   * `sessionOf(token)` is the session's `UserID` column as the database driver
   * returns it, an integer or a numeric string (`ApiSessions::getByToken`),
   * `inAdminRole(id)` is the role query of `userInRoleByRoleName` for an id
   * of at least 1,
   * `userById` reads the `User` table, `emailInUse` is a `User` row with that
   * email, `basicKey(id)` is the user's BASIC login key hash,
   * `verify` is `password_verify`, `newUserId` is the id the next insert gets,
   * and `now` is the clock's current UTC time, the join date of a new user.
   */
  datatype Repo = Repo(
    sessionOf: string -> Option<Value>,
    inAdminRole: int -> bool,
    userById: int -> Option<StoredUser>,
    emailInUse: string -> bool,
    basicKey: int -> Option<string>,
    verify: (string, string) -> bool,
    newUserId: int,
    now: string)

  function Fail(message: string): ApiResponse {
    ApiResponse(INTERNAL_SERVER_ERROR, Text(message))
  }

  /** `getByToken`: an empty token finds nothing. */
  function SessionOf(repo: Repo, token: Value): (sv: Option<Value>)
    ensures IsEmpty(token) ==> sv.None?
  {
    if IsEmpty(token) then None else repo.sessionOf(StrVal(token))
  }

  /** `userInRoleByRoleName($id, Admin_Role)`: false when `$id < 1` holds
      (PHP's `<`, which compares a non-numeric string with "1" as a string);
      otherwise the query binds the id as an integer. */
  predicate IsAdmin(repo: Repo, id: Value) {
    !LessThanOne(id) && repo.inAdminRole(IntVal(id))
  }

  /** `getByEmail($email) !== null`: an empty address finds nothing. */
  predicate EmailFound(repo: Repo, email: Value) {
    !IsEmpty(email) && repo.emailInUse(StrVal(email))
  }

  /** The fields of a user read from the database. */
  function FieldsOf(id: int, u: StoredUser): UserFields {
    UserFields(Int(id), Str(u.username), Str(u.email), Bool(u.emailConfirmed), Str(u.dateJoined),
               if u.lastLogin.None? then Null else Str(u.lastLogin.value))
  }

  /** A user object whose `read` found no row: id 0, every other field null. */
  const Unknown := UserFields(Int(0), Null, Null, Null, Null, Null)

  /** `new User($db, $id)`: an id below 1 throws; an unknown id gives `Unknown`. */
  function LoadUser(repo: Repo, id: int): (r: Result<UserFields>)
    ensures r.Failure? <==> id < 1
    ensures r.Success? ==> r.value == (if repo.userById(id).Some? then FieldsOf(id, repo.userById(id).value) else Unknown)
  {
    if id < 1 then Failure("Cannot read a user without an identifier")
    else match repo.userById(id)
      case Some(u) => Success(FieldsOf(id, u))
      case None => Success(Unknown)
  }

  /** The value `getString` gives for a key, null when absent. */
  function Param(params: ParameterHelper, key: string): Value {
    params.GetString(key, Null)
  }

  // -------------------------------------------------------------------------
  // getAccount

  const NoParamsMessage := "Invalid parameters provided"
  const BadSessionPrefix := "Invalid session data provided, please contact administrator with code: "
  const ReadFailedMessage := "Failed to retrieve account information"
  const NotAdminMessage := "Non-admin cannot retrieve other user account information"

  /** `getAccount` */
  method GetAccount(params: ParameterHelper, repo: Repo) returns (resp: ApiResponse)
    ensures !params.HasValue(TokenField, true) ==> resp == Fail(NoParamsMessage)
    ensures params.HasValue(TokenField, true) && SessionOf(repo, Param(params, TokenField)).None? ==>
      resp == Fail(BadSessionPrefix + StrVal(Param(params, TokenField)))
    ensures resp.httpCode == OK || resp.httpCode == INTERNAL_SERVER_ERROR
    ensures resp.httpCode == OK ==> params.HasValue(TokenField, true) && SessionOf(repo, Param(params, TokenField)).Some?
    ensures params.HasValue(TokenField, true) && SessionOf(repo, Param(params, TokenField)).Some? ==>
      var sv := SessionOf(repo, Param(params, TokenField)).value;
      var uid := IntVal(sv);
      if params.HasValue("id", true) then
        if !IsAdmin(repo, sv) then resp == Fail(NotAdminMessage)
        else
          var id := IntVal(params.GetInt("id", Null));
          resp == (if id < 1 then Fail(ReadFailedMessage) else ApiResponse(OK, Info("userId", RecordOf(LoadUser(repo, id).value))))
      else
        resp == (if uid < 1 then Fail(ReadFailedMessage) else ApiResponse(OK, Info("userId", RecordOf(LoadUser(repo, uid).value))))
  {
    if params.HasValue(TokenField, true) {
      var sess := SessionOf(repo, Param(params, TokenField));
      if sess.Some? {
        if params.HasValue("id", true) {
          if IsAdmin(repo, sess.value) {
            var user := LoadUser(repo, IntVal(params.GetInt("id", Null)));
            if user.Success? {
              resp := ApiResponse(OK, Info("userId", RecordOf(user.value)));
            } else {
              resp := Fail(ReadFailedMessage);
            }
          } else {
            resp := Fail(NotAdminMessage);
          }
        } else {
          var user := LoadUser(repo, IntVal(sess.value));
          if user.Success? {
            resp := ApiResponse(OK, Info("userId", RecordOf(user.value)));
          } else {
            resp := Fail(ReadFailedMessage);
          }
        }
      } else {
        resp := Fail(BadSessionPrefix + StrVal(Param(params, TokenField)));
      }
    } else {
      resp := Fail(NoParamsMessage);
    }
  }

  // -------------------------------------------------------------------------
  // updateAccount

  const BadAccountMessage := "Invalid account information provided for update"
  const BadUpdateSessionMessage := "Invalid account information given for update"
  const UpdateCrashMessage := "Failed to update account, please contact an administrator"
  const DuplicateEmailMessage := "Failed to update account, email address already exists"
  const BadPasswordMessage := "Failed to update account, invalid password information supplied"
  const NoPermissionMessage := "Failed to update account, invalid permissions"
  const NoIdentifierMessage := "Cannot read a user without an identifier"

  /** The error `User::update` raises when it formats the null join date of a
      user object whose `read` found no row. It is an `Error`, not an
      `Exception`, so the handler's `catch` lets it through. */
  const NullDateError := "Call to a member function format() on null"

  /** How `fromParameterHelper` takes one field: a string exactly when the
      request has the key (a string sent is kept as it is), null otherwise. */
  predicate TakenFrom(params: ParameterHelper, key: string, v: Value) {
    && (v.Str? <==> params.Readable(key))
    && (!params.Readable(key) ==> v == Null)
    && (params.Readable(key) && params.parameters[key].Str? ==> v == params.parameters[key])
  }

  /** `User::fromParameterHelper($params, false)`: every present field is taken
      as a string, every absent one stays null. */
  function AccountFromParams(params: ParameterHelper): (a: UserFields)
    ensures TakenFrom(params, "id", a.id) && TakenFrom(params, "username", a.username)
    ensures TakenFrom(params, "email", a.email) && TakenFrom(params, "emailConfirmed", a.emailConfirmed)
    ensures TakenFrom(params, "dateJoined", a.dateJoined) && TakenFrom(params, "lastLogin", a.lastLogin)
  {
    UserFields(Param(params, "id"), Param(params, "username"), Param(params, "email"),
               Param(params, "emailConfirmed"), Param(params, "dateJoined"), Param(params, "lastLogin"))
  }

  /** Who may edit whom: the session's raw user id is identical (`!==` is
      false) to the request's id string, or an administrator edits a
      non-administrator. */
  predicate MayEdit(repo: Repo, sessionId: Value, executor: int, target: Value) {
    sessionId == target || (IsAdmin(repo, Int(executor)) && !IsAdmin(repo, target))
  }

  /** The password part of an update, once permission and email passed. */
  function PasswordStep(params: ParameterHelper, repo: Repo, target: int, executorIsAdmin: bool): (r: Result<Option<Value>>)
    ensures r.Failure? ==> r.error == BadPasswordMessage || r.error == NoPermissionMessage
  {
    var curr := Param(params, "current-password");
    var new1 := Param(params, "new-password");
    var new2 := Param(params, "new-password-2");
    if !IsEmpty(curr) then
      if IsEmpty(new1) || IsEmpty(new2) then Failure(BadPasswordMessage)
      else if new1 != new2 then Failure(BadPasswordMessage)
      else if repo.basicKey(target).None? then Failure(BadPasswordMessage)
      else if !repo.verify(StrVal(curr), repo.basicKey(target).value) then Failure(BadPasswordMessage)
      else Success(Some(new1))
    else if !IsEmpty(new1) && !IsEmpty(new2) then
      if !executorIsAdmin then Failure(NoPermissionMessage)
      else if new1 != new2 then Failure(BadPasswordMessage)
      else if repo.basicKey(target).None? then Failure(BadPasswordMessage)
      else Success(Some(new1))
    else Success(None)
  }

  /**
   * The reference decision of `updateAccount`: the account id is checked
   * first (with PHP's `<` on the string sent), then the session, then both
   * users are loaded outside the handler's `try`, then permission, email and
   * password. A failure in the outer `Result` is an error that escapes the
   * handler, so the request gets no JSON answer.
   */
  function UpdateSpec(params: ParameterHelper, repo: Repo): (r: (Result<ApiResponse>, Effects))
  {
    var account := AccountFromParams(params);
    if LessThanOne(account.id) then (Success(Fail(BadAccountMessage)), NoEffects)
    else
      match SessionOf(repo, Param(params, ApiHandlers.AuthTokenField))
      case None => (Success(Fail(BadUpdateSessionMessage)), NoEffects)
      case Some(sv) =>
        match LoadUser(repo, IntVal(sv))
        case Failure(e) => (Failure(e), NoEffects)
        case Success(sessUser) =>
          match LoadUser(repo, IntVal(account.id))
          case Failure(e) => (Failure(e), NoEffects)
          case Success(user) => Edited(params, repo, account, sv, sessUser.id.i, user)
  }

  /** The rest of `updateAccount` once both users are loaded: 200 with the
      written account, 500 with a message and no write, or the escaped error
      of writing a user with no join date, after the login key was set. */
  function Edited(params: ParameterHelper, repo: Repo, account: UserFields, sessionId: Value, executor: int, user: UserFields): (r: (Result<ApiResponse>, Effects))
    ensures r.0.Success? ==> r.0.value.httpCode == OK || (r.0.value.httpCode == INTERNAL_SERVER_ERROR && r.0.value.data.Text? && r.1 == NoEffects)
    ensures r.0.Failure? ==> r.0.error == NullDateError && user.dateJoined == Null && r.1.written.None?
    ensures r.0.Success? && r.0.value.httpCode == OK ==> user.dateJoined != Null && r.1.written.Some?
    ensures r.1.created.None? && r.1.deleted.None?
  {
    var target := IntVal(account.id);
    var executorIsAdmin := IsAdmin(repo, Int(executor));
    if !MayEdit(repo, sessionId, executor, account.id) then (Success(Fail(UpdateCrashMessage)), NoEffects)
    else
      var emailParam := Param(params, "email");
      var keepStored := !params.HasValue("email", true) || IsEmpty(emailParam);
      var email := if keepStored then user.email else account.email;
      var confirmed := if keepStored then user.emailConfirmed else account.emailConfirmed;
      if emailParam != user.email && EmailFound(repo, email) then (Success(Fail(DuplicateEmailMessage)), NoEffects)
      else
        var confirmed' := if emailParam != user.email then Bool(executorIsAdmin) else confirmed;
        match PasswordStep(params, repo, target, executorIsAdmin)
        case Failure(m) => (Success(Fail(m)), NoEffects)
        case Success(key) =>
          if user.dateJoined == Null then (Failure(NullDateError), Effects(key, None, None, None))
          else
            var written := account.(email := email, emailConfirmed := confirmed',
              username := user.username, dateJoined := user.dateJoined, lastLogin := user.lastLogin);
            (Success(ApiResponse(OK, Info("id", RecordOf(written)))), Effects(key, Some(written), None, None))
  }

  /** The password part of `updateAccount`, reached while `canContinue`
      holds: whether it may go on, the message when not, and the new key. */
  method ChangePassword(params: ParameterHelper, repo: Repo, target: int, executingUserIsAdmin: bool)
    returns (changed: bool, errorMessage: string, key: Option<Value>)
    ensures changed <==> PasswordStep(params, repo, target, executingUserIsAdmin).Success?
    ensures changed ==> key == PasswordStep(params, repo, target, executingUserIsAdmin).value
    ensures !changed ==> errorMessage == PasswordStep(params, repo, target, executingUserIsAdmin).error
  {
    errorMessage, key := "", None;
    var canContinue := true;
    var curr := Param(params, "current-password");
    var new1 := Param(params, "new-password");
    var new2 := Param(params, "new-password-2");
    if !IsEmpty(curr) {
      if !IsEmpty(new1) && !IsEmpty(new2) {
        if new1 == new2 {
          var loginKey := repo.basicKey(target);
          if loginKey.Some? {
            if repo.verify(StrVal(curr), loginKey.value) {
              key := Some(new1);
            } else {
              canContinue := false;
              errorMessage := BadPasswordMessage;
            }
          } else {
            canContinue := false;
            errorMessage := BadPasswordMessage;
          }
        } else {
          canContinue := false;
          errorMessage := BadPasswordMessage;
        }
      } else {
        canContinue := false;
        errorMessage := BadPasswordMessage;
      }
    } else if !IsEmpty(new1) && !IsEmpty(new2) {
      if executingUserIsAdmin {
        if new1 == new2 {
          if repo.basicKey(target).Some? {
            key := Some(new1);
          } else {
            canContinue := false;
            errorMessage := BadPasswordMessage;
          }
        } else {
          canContinue := false;
          errorMessage := BadPasswordMessage;
        }
      } else {
        canContinue := false;
        errorMessage := NoPermissionMessage;
      }
    }
    changed := canContinue;
  }

  /** `updateAccount`, threading `canContinue` and `errorMessage` as the source does. */
  method UpdateAccount(params: ParameterHelper, repo: Repo) returns (r: Result<ApiResponse>, eff: Effects)
    ensures (r, eff) == UpdateSpec(params, repo)
  {
    eff := NoEffects;
    var account := AccountFromParams(params);
    if LessThanOne(account.id) {
      return Success(Fail(BadAccountMessage)), eff;
    }
    var session := SessionOf(repo, Param(params, ApiHandlers.AuthTokenField));
    if session.None? {
      return Success(Fail(BadUpdateSessionMessage)), eff;
    }
    var canContinue := true;
    var sessUser := LoadUser(repo, IntVal(session.value));
    if sessUser.Failure? {
      return Failure(sessUser.error), eff;
    }
    var executor := sessUser.value.id.i;
    if session.value != account.id {
      if !IsAdmin(repo, Int(executor)) || IsAdmin(repo, account.id) {
        canContinue := false;
      }
    }
    var loaded := LoadUser(repo, IntVal(account.id));
    if loaded.Failure? {
      // Thrown before the handler's `try`.
      return Failure(loaded.error), eff;
    }
    var user := loaded.value;
    var target := IntVal(account.id);
    var executingUserIsAdmin := IsAdmin(repo, Int(executor));
    if !canContinue {
      // "Other user edit attempted by non-admin" is thrown and caught.
      return Success(Fail(UpdateCrashMessage)), eff;
    }
    var errorMessage := "";
    var key: Option<Value> := None;
    if !params.HasValue("email", true) || IsEmpty(Param(params, "email")) {
      account := account.(email := user.email, emailConfirmed := user.emailConfirmed);
    }
    if Param(params, "email") != user.email {
      if EmailFound(repo, account.email) {
        canContinue := false;
        errorMessage := DuplicateEmailMessage;
      } else {
        account := account.(emailConfirmed := Bool(executingUserIsAdmin));
      }
    }
    if canContinue {
      var changed, message, newKey := ChangePassword(params, repo, target, executingUserIsAdmin);
      if !changed {
        canContinue := false;
        errorMessage := message;
      }
      key := newKey;
    }
    if !canContinue {
      return Success(Fail(errorMessage)), NoEffects;
    }
    account := account.(username := user.username, dateJoined := user.dateJoined, lastLogin := user.lastLogin);
    if account.dateJoined == Null {
      // `update()` formats the null join date; the key was already updated.
      return Failure(NullDateError), Effects(key, None, None, None);
    }
    eff := Effects(key, Some(account), None, None);
    r := Success(ApiResponse(OK, Info("id", RecordOf(account))));
  }

  /** The account id is judged before the session is even looked up. */
  lemma UpdateChecksIdFirst(params: ParameterHelper, repo1: Repo, repo2: Repo)
    requires LessThanOne(AccountFromParams(params).id)
    ensures UpdateSpec(params, repo1) == UpdateSpec(params, repo2) == (Success(Fail(BadAccountMessage)), NoEffects)
  {
  }

  /** Every JSON answer is 200 or 500, only a 200 writes the user row, and an
      error that escapes writes no row. */
  lemma UpdateOutcomes(params: ParameterHelper, repo: Repo)
    ensures var (r, eff) := UpdateSpec(params, repo);
      (r.Failure? ==> eff.written.None? && eff.created.None? && eff.deleted.None?) &&
      (r.Success? ==> r.value.httpCode == OK || r.value.httpCode == INTERNAL_SERVER_ERROR) &&
      (r.Success? && r.value.httpCode == INTERNAL_SERVER_ERROR ==> eff == NoEffects && r.value.data.Text?) &&
      (r.Success? && r.value.httpCode == OK ==> eff.written.Some?)
  {
    var account := AccountFromParams(params);
    var session := SessionOf(repo, Param(params, ApiHandlers.AuthTokenField));
    if !LessThanOne(account.id) && session.Some? {
      var sessUser := LoadUser(repo, IntVal(session.value));
      var user := LoadUser(repo, IntVal(account.id));
      if sessUser.Success? && user.Success? {
        var e := Edited(params, repo, account, session.value, sessUser.value.id.i, user.value);
        assert UpdateSpec(params, repo) == e;
      }
    }
  }

  /** A successful update targets a stored user and writes the request's
      account, but with the stored username, join date and last login
      whatever the request said. */
  lemma UpdateKeepsStoredFields(params: ParameterHelper, repo: Repo)
    requires UpdateSpec(params, repo).0.Success? && UpdateSpec(params, repo).0.value.httpCode == OK
    ensures var (r, eff) := UpdateSpec(params, repo);
      var target := IntVal(AccountFromParams(params).id);
      target >= 1 && repo.userById(target).Some? &&
      r.value.data.Info? && eff.written.Some? && r.value.data.user == RecordOf(eff.written.value) &&
      var stored := repo.userById(target).value;
      r.value.data.user.id == AccountFromParams(params).id &&
      r.value.data.user.username == Str(stored.username) &&
      r.value.data.user.dateJoined == Str(stored.dateJoined) &&
      r.value.data.user.lastLogin == FieldsOf(target, stored).lastLogin
  {
    var account := AccountFromParams(params);
    assert !LessThanOne(account.id);
    var sv := SessionOf(repo, Param(params, ApiHandlers.AuthTokenField)).value;
    var sessUser := LoadUser(repo, IntVal(sv)).value;
    var target := IntVal(account.id);
    var user := LoadUser(repo, target).value;
    assert UpdateSpec(params, repo) == Edited(params, repo, account, sv, sessUser.id.i, user);
    assert user.dateJoined != Null;
    var executorIsAdmin := IsAdmin(repo, Int(sessUser.id.i));
    var key := PasswordStep(params, repo, target, executorIsAdmin).value;
    var emailParam := Param(params, "email");
    var keepStored := !params.HasValue("email", true) || IsEmpty(emailParam);
    var email := if keepStored then user.email else account.email;
    var confirmed := if keepStored then user.emailConfirmed else account.emailConfirmed;
    var confirmed' := if emailParam != user.email then Bool(executorIsAdmin) else confirmed;
    var written := account.(email := email, emailConfirmed := confirmed',
      username := user.username, dateJoined := user.dateJoined, lastLogin := user.lastLogin);
    assert UpdateSpec(params, repo) == (Success(ApiResponse(OK, Info("id", RecordOf(written)))), Effects(key, Some(written), None, None));
  }

  /** An id with no `User` row is never written and never answered with 200:
      its user object has a null join date, and `update()` fails on it. */
  lemma UnknownTargetNeverWritten(params: ParameterHelper, repo: Repo)
    requires repo.userById(IntVal(AccountFromParams(params).id)).None?
    ensures var (r, eff) := UpdateSpec(params, repo);
      eff.written.None? && (r.Success? ==> r.value.httpCode == INTERNAL_SERVER_ERROR)
  {
    UpdateOutcomes(params, repo);
    var (r, eff) := UpdateSpec(params, repo);
    if r.Success? && r.value.httpCode == OK {
      UpdateKeepsStoredFields(params, repo);
    }
  }

  /** A user editing their own id that has no row, with no email and no
      password fields: the request escapes with the null-date error. */
  lemma UnknownSelfEditEscapes(params: ParameterHelper, repo: Repo)
    requires SessionOf(repo, Param(params, ApiHandlers.AuthTokenField)) == Some(AccountFromParams(params).id)
    requires IntVal(AccountFromParams(params).id) >= 1 && !LessThanOne(AccountFromParams(params).id)
    requires repo.userById(IntVal(AccountFromParams(params).id)).None?
    requires !params.Readable("email") && !params.Readable("current-password") && !params.Readable("new-password")
    ensures UpdateSpec(params, repo) == (Failure(NullDateError), NoEffects)
  {
    var account := AccountFromParams(params);
    assert LoadUser(repo, IntVal(account.id)) == Success(Unknown);
    assert UpdateSpec(params, repo) == Edited(params, repo, account, account.id, 0, Unknown);
    UnknownUserEditEscapes(params, repo, account, account.id, 0);
  }

  /** The same, from the point where both users are loaded. */
  lemma UnknownUserEditEscapes(params: ParameterHelper, repo: Repo, account: UserFields, sessionId: Value, executor: int)
    requires MayEdit(repo, sessionId, executor, account.id)
    requires !params.Readable("email") && !params.Readable("current-password") && !params.Readable("new-password")
    ensures Edited(params, repo, account, sessionId, executor, Unknown) == (Failure(NullDateError), NoEffects)
  {
    assert Param(params, "email") == Null;
    assert !EmailFound(repo, Null);
    assert PasswordStep(params, repo, IntVal(account.id), IsAdmin(repo, Int(executor))) == Success(None);
  }

  /** An id made of letters passes the `< 1` test (PHP 8 compares it with
      "1" as a string), and reading the user of `intval` 0 then throws
      outside the handler's `try`: the request gets no answer. */
  lemma LetterIdEscapes(params: ParameterHelper, repo: Repo, s: string)
    requires params.Readable("id") && params.parameters["id"] == Str(s)
    requires |s| > 0 && forall k :: 0 <= k < |s| ==> 'a' <= s[k] <= 'z'
    requires SessionOf(repo, Param(params, ApiHandlers.AuthTokenField)).Some?
    requires LoadUser(repo, IntVal(SessionOf(repo, Param(params, ApiHandlers.AuthTokenField)).value)).Success?
    ensures UpdateSpec(params, repo) == (Failure(NoIdentifierMessage), NoEffects)
  {
    LettersNotBelowOne(s);
  }

  /** Editing someone else (the session's raw id not identical to the
      request's id) succeeds only for a stored administrator editing a
      non-administrator. */
  lemma UpdateOtherNeedsAdmin(params: ParameterHelper, repo: Repo, sv: Value)
    requires SessionOf(repo, Param(params, ApiHandlers.AuthTokenField)) == Some(sv)
    requires sv != AccountFromParams(params).id
    requires UpdateSpec(params, repo).0.Success? && UpdateSpec(params, repo).0.value.httpCode == OK
    ensures IntVal(sv) >= 1 && repo.userById(IntVal(sv)).Some?
    ensures IsAdmin(repo, Int(IntVal(sv))) && !IsAdmin(repo, AccountFromParams(params).id)
  {
    var account := AccountFromParams(params);
    var sessUser := LoadUser(repo, IntVal(sv)).value;
    var user := LoadUser(repo, IntVal(account.id)).value;
    assert UpdateSpec(params, repo) == Edited(params, repo, account, sv, sessUser.id.i, user);
    assert IsAdmin(repo, Int(sessUser.id.i));
  }

  /** When the database driver gives the session's `UserID` as an integer, it
      is never identical to the string id of the request, so even editing
      one's own account needs an administrator editing a non-administrator. */
  lemma IntSessionIdNeverSelf(params: ParameterHelper, repo: Repo, n: int)
    requires SessionOf(repo, Param(params, ApiHandlers.AuthTokenField)) == Some(Int(n))
    requires UpdateSpec(params, repo).0.Success? && UpdateSpec(params, repo).0.value.httpCode == OK
    ensures n >= 1 && IsAdmin(repo, Int(n)) && !IsAdmin(repo, AccountFromParams(params).id)
  {
    assert !AccountFromParams(params).id.Int?;
    UpdateOtherNeedsAdmin(params, repo, Int(n));
  }

  /** Leaving the email out (or empty) for a stored user still compares null
      with the stored address, so `getByEmail` finds the user's own row and
      the update fails as a duplicate. */
  lemma UpdateWithoutEmailFails(params: ParameterHelper, repo: Repo, uid: int, stored: StoredUser)
    requires SessionOf(repo, Param(params, ApiHandlers.AuthTokenField)) == Some(AccountFromParams(params).id)
    requires !LessThanOne(AccountFromParams(params).id)
    requires uid == IntVal(AccountFromParams(params).id) && uid >= 1
    requires repo.userById(uid) == Some(stored)
    requires !params.HasValue("email", true)
    requires stored.email != "" && stored.email != "0" && repo.emailInUse(stored.email)
    ensures UpdateSpec(params, repo) == (Success(Fail(DuplicateEmailMessage)), NoEffects)
  {
    var account := AccountFromParams(params);
    assert LoadUser(repo, uid).value.id.i == uid;
    assert UpdateSpec(params, repo) == Edited(params, repo, account, account.id, uid, FieldsOf(uid, stored));
    SelfEditWithoutEmail(params, repo, account, uid, stored);
  }

  /** The same, from the point where both users are loaded. */
  lemma SelfEditWithoutEmail(params: ParameterHelper, repo: Repo, account: UserFields, uid: int, stored: StoredUser)
    requires IntVal(account.id) == uid
    requires !params.HasValue("email", true)
    requires stored.email != "" && stored.email != "0" && repo.emailInUse(stored.email)
    ensures Edited(params, repo, account, account.id, uid, FieldsOf(uid, stored)) == (Success(Fail(DuplicateEmailMessage)), NoEffects)
  {
    var user := FieldsOf(uid, stored);
    assert user.email == Str(stored.email);
    assert Param(params, "email") == Null;
    assert EmailFound(repo, user.email);
  }

  /** With a current password, the chain stops at the first failing check:
      both new passwords given, equal, a BASIC key exists, the current one verifies. */
  lemma PasswordChainOrder(params: ParameterHelper, repo: Repo, target: int, admin: bool)
    requires !IsEmpty(Param(params, "current-password"))
    ensures var new1 := Param(params, "new-password");
      var new2 := Param(params, "new-password-2");
      var r := PasswordStep(params, repo, target, admin);
      (r.Success? <==> !IsEmpty(new1) && !IsEmpty(new2) && new1 == new2 && repo.basicKey(target).Some? &&
                        repo.verify(StrVal(Param(params, "current-password")), repo.basicKey(target).value)) &&
      (r.Success? ==> r.value == Some(new1)) &&
      (r.Failure? ==> r.error == BadPasswordMessage)
  {
  }

  /** Without a current password, setting one needs an administrator, equal
      new passwords and an existing key; a non-administrator is refused first. */
  lemma AdminPasswordReset(params: ParameterHelper, repo: Repo, target: int, admin: bool)
    requires IsEmpty(Param(params, "current-password"))
    requires !IsEmpty(Param(params, "new-password")) && !IsEmpty(Param(params, "new-password-2"))
    ensures !admin ==> PasswordStep(params, repo, target, admin) == Failure(NoPermissionMessage)
    ensures admin ==> (PasswordStep(params, repo, target, admin).Success? <==>
      Param(params, "new-password") == Param(params, "new-password-2") && repo.basicKey(target).Some?)
  {
  }

  // -------------------------------------------------------------------------
  // createAccount

  const CreateFailedMessage := "Failed to create account, please contact an administrator"

  /** `createAccount` */
  method CreateAccount(params: ParameterHelper, repo: Repo) returns (resp: ApiResponse, eff: Effects)
    ensures resp.httpCode == OK || resp.httpCode == INTERNAL_SERVER_ERROR
    ensures !(params.HasValue("username", true) && params.HasValue("email", true) &&
              params.HasValue("new-password", true) && params.HasValue("new-password-2", true)) ==>
      resp == Fail(CreateFailedMessage) && eff == NoEffects
    ensures Param(params, "new-password") != Param(params, "new-password-2") ==> resp == Fail(CreateFailedMessage) && eff == NoEffects
    ensures resp.httpCode == OK ==>
      SessionOf(repo, Param(params, ApiHandlers.AuthTokenField)).Some? &&
      !repo.emailInUse(StrVal(Param(params, "email"))) &&
      repo.newUserId >= 1 && repo.basicKey(repo.newUserId).None? &&
      eff.created.Some? && eff.created.value.emailConfirmed == Bool(true) &&
      eff.keySet == Some(Param(params, "new-password")) &&
      eff.created.value.dateJoined == Str(repo.now) && eff.created.value.lastLogin == Null &&
      resp.data == Info("id", RecordOf(eff.created.value))
    ensures params.HasValue("username", true) && params.HasValue("email", true) &&
            params.HasValue("new-password", true) && params.HasValue("new-password-2", true) &&
            Param(params, "new-password") == Param(params, "new-password-2") ==>
      var session := SessionOf(repo, Param(params, ApiHandlers.AuthTokenField));
      (session.None? ==> resp == Fail(BadUpdateSessionMessage) && eff == NoEffects) &&
      (session.Some? && !repo.emailInUse(StrVal(Param(params, "email"))) &&
         repo.newUserId >= 1 && repo.basicKey(repo.newUserId).None?
       ==> resp.httpCode == OK)
    ensures eff.created.Some? ==> eff.created.value.email == Param(params, "email") && eff.created.value.username == Param(params, "username")
    ensures eff.written.None? && eff.deleted.None?
  {
    eff := NoEffects;
    var session := SessionOf(repo, Param(params, ApiHandlers.AuthTokenField));
    if params.HasValue("username", true) && params.HasValue("email", true) &&
       params.HasValue("new-password", true) && params.HasValue("new-password-2", true) {
      var new1 := Param(params, "new-password");
      var new2 := Param(params, "new-password-2");
      if new1 == new2 {
        if session.None? {
          resp := Fail(BadUpdateSessionMessage);
        } else {
          var user := UserFields(Null, Param(params, "username"), Param(params, "email"), Bool(true), Null, Null);
          if repo.emailInUse(StrVal(user.email)) {
            // `create` throws on a duplicate address.
            resp := Fail(CreateFailedMessage);
          } else {
            // `create` sets the join date from the clock and inserts the row.
            user := user.(id := Int(repo.newUserId), dateJoined := Str(repo.now));
            eff := eff.(created := Some(user));
            if repo.newUserId < 1 || repo.basicKey(repo.newUserId).Some? {
              // The row is created but the key is not: `LoginKey::create` refuses
              // an id below 1 and a duplicate key (a stored key may already be
              // refused by the `> PROVIDER_ERROR` test just before).
              resp := Fail(CreateFailedMessage);
            } else {
              eff := eff.(keySet := Some(new1));
              resp := ApiResponse(OK, Info("id", RecordOf(user)));
            }
          }
        }
      } else {
        resp := Fail(CreateFailedMessage);
      }
    } else {
      resp := Fail(CreateFailedMessage);
    }
  }

  // -------------------------------------------------------------------------
  // deleteAccount

  const DeleteBadTokenMessage := "Failed to delete user, invalid user token"
  const DeleteNoIdMessage := "Failed to delete user, incomplete parameters"
  const DeleteRoleMessage := "Failed to delete user, admin role mismatch"
  const DeleteFailedMessage := "Failed to delete user, please contact an administrator"
  const DeletedMessage := "User was deleted"

  /** `deleteAccount`: session, then id, then roles, then the delete itself. */
  method DeleteAccount(params: ParameterHelper, repo: Repo) returns (resp: ApiResponse, eff: Effects)
    ensures SessionOf(repo, Param(params, ApiHandlers.AuthTokenField)).None? ==> resp == Fail(DeleteBadTokenMessage) && eff == NoEffects
    ensures SessionOf(repo, Param(params, ApiHandlers.AuthTokenField)).Some? && !params.HasValue("id", true) ==>
      resp == Fail(DeleteNoIdMessage) && eff == NoEffects
    ensures resp.httpCode == OK <==> eff.deleted.Some?
    ensures resp.httpCode == OK ==>
      var sv := SessionOf(repo, Param(params, ApiHandlers.AuthTokenField)).value;
      var id := IntVal(params.GetInt("id", Null));
      resp.data == Text(DeletedMessage) && eff == Effects(None, None, None, Some(id)) &&
      IsAdmin(repo, sv) && !IsAdmin(repo, Int(id)) && id >= 1 && repo.userById(id).Some?
    ensures SessionOf(repo, Param(params, ApiHandlers.AuthTokenField)).Some? && params.HasValue("id", true) ==>
      var sv := SessionOf(repo, Param(params, ApiHandlers.AuthTokenField)).value;
      var id := IntVal(params.GetInt("id", Null));
      (!IsAdmin(repo, sv) || IsAdmin(repo, Int(id)) ==> resp == Fail(DeleteRoleMessage) && eff == NoEffects) &&
      (IsAdmin(repo, sv) && !IsAdmin(repo, Int(id)) && id >= 1 && repo.userById(id).Some? ==>
        resp == ApiResponse(OK, Text(DeletedMessage)) && eff == Effects(None, None, None, Some(id)))
    ensures resp.httpCode != OK ==> resp.httpCode == INTERNAL_SERVER_ERROR && eff == NoEffects
  {
    eff := NoEffects;
    var session := SessionOf(repo, Param(params, ApiHandlers.AuthTokenField));
    if session.None? {
      resp := Fail(DeleteBadTokenMessage);
    } else if !params.HasValue("id", true) {
      resp := Fail(DeleteNoIdMessage);
    } else {
      var executorIsAdmin := IsAdmin(repo, session.value);
      var id := IntVal(params.GetInt("id", Null));
      var executeeIsAdmin := IsAdmin(repo, Int(id));
      if !executorIsAdmin || executeeIsAdmin {
        resp := Fail(DeleteRoleMessage);
      } else {
        var user := LoadUser(repo, id);
        if user.Failure? || user.value.id == Int(0) {
          // Reading an id below 1 throws, and so does deleting the id-0 user an unknown row leaves.
          resp := Fail(DeleteFailedMessage);
        } else {
          eff := eff.(deleted := Some(id));
          resp := ApiResponse(OK, Text(DeletedMessage));
        }
      }
    }
  }
}

=== FILE: api_handler.dfy ===
/**
 * `ApiHandler`: the verb-keyed route table that endpoints register into, and
 * the dispatcher that picks the first matching route, applies the
 * authentication gate and renders the handler's return value.
 *
 * `preg_match`, the session lookup by token, the role lookup and the
 * handlers themselves are oracles bundled in `Env`.
 */
module ApiHandlers {
  import opened Wrappers
  import opened Php
  import opened ParameterHelpers
  import opened ApiRequests

  /** What `'*'` expands to. */
  const AllVerbs: seq<string> := ["DELETE", "ERROR", "GET", "HEAD", "OPTIONS", "POST", "PUT"]

  /** The request field carrying the session token. Its value is defined in a
      constants file that is not part of this model; any fixed name behaves alike. */
  const AuthTokenField: string := "token"

  const FORBIDDEN: int := 403
  const NOT_FOUND: int := 404

  /** The three headers `handle` sends before choosing a branch. */
  const ApiHeaders: seq<string> := ["Content-Type: application/json", "Access-Control-Allow-Origin: *", "Cache-Control: max-age=500"]

  const NoTokenMessage := "No authentication parameter provided for auth-only endpoint"
  const BadTokenMessage := "Invalid authentication parameter provided for auth-only endpoint"
  const NoRoleMessage := "Unauthorized access for auth-only endpoint"
  const InvalidUrlMessage := "Invalid URL"

  /** `splitVerbs`: `'*'` is every verb, anything else is split on `'|'` as is. */
  function SplitVerbs(verbs: string): (r: seq<string>)
    ensures verbs == "*" ==> r == AllVerbs
    ensures verbs != "*" ==> Join(r, '|') == verbs && forall k :: 0 <= k < |r| ==> '|' !in r[k]
    ensures |r| >= 1
  {
    if verbs == "*" then AllVerbs
    else
      JoinSplit(verbs, '|');
      Split(verbs, '|')
  }

  /** `$authRoles`: null (open route), `true` (any session), one role name, or a list. */
  datatype Roles = Open | AnySession | OneRole(name: string) | RoleList(names: seq<string>)

  /** A string role is treated as a one-element list. */
  function RoleNames(roles: Roles): (names: seq<string>)
    requires roles.OneRole? || roles.RoleList?
    ensures roles.OneRole? ==> names == [roles.name]
    ensures roles.RoleList? ==> names == roles.names
  {
    if roles.OneRole? then [roles.name] else roles.names
  }

  datatype Entry<H> = Entry(callback: H, roles: Roles)

  /** One registered route: a URL pattern and what it dispatches to. */
  type Route<H> = (string, Entry<H>)

  predicate HasPattern<H>(routes: seq<Route<H>>, pattern: string) {
    exists k :: 0 <= k < |routes| && routes[k].0 == pattern
  }

  predicate DistinctPatterns<H>(routes: seq<Route<H>>) {
    forall i, j :: 0 <= i < j < |routes| ==> routes[i].0 != routes[j].0
  }

  /** Every verb's table has distinct patterns. */
  predicate TablesDistinct<H>(endpoints: map<string, seq<Route<H>>>) {
    forall v :: v in endpoints ==> DistinctPatterns(endpoints[v])
  }

  /** Adding a route under one verb keeps every table's patterns distinct. */
  lemma AddRouteKeepsDistinct<H>(endpoints: map<string, seq<Route<H>>>, v: string, pattern: string, entry: Entry<H>)
    requires TablesDistinct(endpoints)
    ensures TablesDistinct(endpoints[v := AddRoute(RoutesOf(endpoints, v), pattern, entry)])
  {
    assert DistinctPatterns(RoutesOf(endpoints, v));
  }

  /** Registering one pattern under one verb: first writer wins. */
  function AddRoute<H>(routes: seq<Route<H>>, pattern: string, entry: Entry<H>): (r: seq<Route<H>>)
    ensures HasPattern(r, pattern)
    ensures |routes| <= |r| <= |routes| + 1 && r[..|routes|] == routes
    ensures DistinctPatterns(routes) ==> DistinctPatterns(r)
    ensures !HasPattern(routes, pattern) ==> r == routes + [(pattern, entry)]
    ensures HasPattern(routes, pattern) ==> r == routes
  {
    if HasPattern(routes, pattern) then routes
    else
      var r := routes + [(pattern, entry)];
      assert r[|routes|].0 == pattern;
      r
  }

  /** A second registration of a pattern changes nothing, whatever its entry. */
  lemma AddRouteKeepsFirst<H>(routes: seq<Route<H>>, pattern: string, first: Entry<H>, second: Entry<H>)
    ensures AddRoute(AddRoute(routes, pattern, first), pattern, second) == AddRoute(routes, pattern, first)
  {
  }

  function RoutesOf<H>(endpoints: map<string, seq<Route<H>>>, verb: string): seq<Route<H>> {
    if verb in endpoints then endpoints[verb] else []
  }

  /** The loop of `registerEndpoint` over the split verbs, in order. */
  function RegisterAll<H>(endpoints: map<string, seq<Route<H>>>, verbs: seq<string>, pattern: string, entry: Entry<H>): map<string, seq<Route<H>>>
    decreases |verbs|
  {
    if verbs == [] then endpoints
    else RegisterAll(endpoints[verbs[0] := AddRoute(RoutesOf(endpoints, verbs[0]), pattern, entry)], verbs[1..], pattern, entry)
  }

  /** One turn of the registration loop. */
  lemma RegisterAllStep<H>(endpoints: map<string, seq<Route<H>>>, verbs: seq<string>, i: nat, pattern: string, entry: Entry<H>)
    requires i < |verbs|
    ensures RegisterAll(endpoints, verbs[i..], pattern, entry)
      == RegisterAll(endpoints[verbs[i] := AddRoute(RoutesOf(endpoints, verbs[i]), pattern, entry)], verbs[i + 1..], pattern, entry)
  {
    assert verbs[i..][0] == verbs[i];
    assert verbs[i..][1..] == verbs[i + 1..];
  }

  /**
   * The effect of registering one pattern under a list of verbs: each listed
   * verb gets the pattern appended unless it already had it (then nothing
   * changes), and every other verb's table is untouched.
   */
  lemma {:induction false} RegisterAllAt<H>(endpoints: map<string, seq<Route<H>>>, verbs: seq<string>, pattern: string, entry: Entry<H>, v: string)
    ensures var r := RegisterAll(endpoints, verbs, pattern, entry);
      (v in r <==> v in endpoints || v in verbs) &&
      RoutesOf(r, v) == if v in verbs then AddRoute(RoutesOf(endpoints, v), pattern, entry) else RoutesOf(endpoints, v)
    decreases |verbs|
  {
    if verbs != [] {
      var e1 := endpoints[verbs[0] := AddRoute(RoutesOf(endpoints, verbs[0]), pattern, entry)];
      RegisterAllAt(e1, verbs[1..], pattern, entry, v);
      if v == verbs[0] {
        AddRouteKeepsFirst(RoutesOf(endpoints, v), pattern, entry, entry);
      }
      assert v in verbs <==> v == verbs[0] || v in verbs[1..];
    }
  }

  /** `preg_match`, the session and role repositories, `json_decode` and the
      handlers. `sessionOf(token)` is `ApiSessions::getByToken` for any token
      string, the empty one included, so it also stands for that lookup's
      handling of an empty token. */
  datatype Env<!H, D> = Env(
    matches: (string, string) -> bool,
    sessionOf: string -> Option<int>,
    inRole: (int, string) -> bool,
    decode: string -> Decoded,
    call: (H, Matches) -> Call<D>)

  /** The matches array a handler receives: empty for the default endpoint. */
  datatype Matches = NoMatches | MatchOf(pattern: string, url: string)

  /** How a handler ends: it returns null, an `ApiResponse` or any other
      printable value, or it throws. */
  datatype HandlerReturn<D> = NullReturn | ApiResponse(httpCode: int, data: D) | Printable(text: string) | Threw(error: string)

  /** A handler call: the last code it set through `setHttpResponseCode`
      (None: it set none), what it echoed directly, and how it ended. */
  datatype Call<D> = Call(status: Option<int>, writes: string, ret: HandlerReturn<D>)

  /** A piece of the response body. */
  datatype Chunk<D> = JsonString(s: string) | JsonData(data: D) | RawText(text: string)

  /** Headers, response code (None: PHP's default) and body. */
  datatype Response<D> = Response(headers: seq<string>, status: Option<int>, body: seq<Chunk<D>>)

  /** Which branch `handle` took. */
  datatype Outcome<H> =
    | Skipped                         // no URL parameter name: nothing sent
    | DefaultCalled(callback: H)      // the default endpoint ran
    | NotFound                        // no default endpoint: 404 "Invalid URL"
    | Forbidden(message: string)      // the auth gate refused
    | Invoked(pattern: string, callback: H)
    | Crashed(error: string)          // an exception escaped `handle`

  /** The verdict of the auth gate on one route. */
  datatype Gate = Pass | Deny(message: string) | Throw(error: string)

  /** The first route, in registration order, whose pattern matches the URL. */
  function FirstMatch<H>(routes: seq<Route<H>>, url: string, matches: (string, string) -> bool): (r: Option<nat>)
    ensures r.Some? ==> r.value < |routes| && matches(routes[r.value].0, url)
    ensures r.Some? ==> forall j :: 0 <= j < r.value ==> !matches(routes[j].0, url)
    ensures r.None? ==> forall j :: 0 <= j < |routes| ==> !matches(routes[j].0, url)
    decreases |routes|
  {
    if routes == [] then None
    else if matches(routes[0].0, url) then Some(0)
    else match FirstMatch(routes[1..], url, matches)
      case None => None
      case Some(i) => Some(i + 1)
  }

  /** The auth gate of a matched route, given the request's fields. */
  function GateOf<H, D>(roles: Roles, req: Classified, get: Params, env: Env<H, D>): (g: Gate)
    ensures roles.Open? ==> g == Pass
  {
    if roles.Open? then Pass
    else
      match ParameterizedInput(req, get, env.decode)
      case Failure(e) => Throw(e)
      case Success(h) =>
        if !h.HasValue(AuthTokenField, true) then Deny(NoTokenMessage)
        else
          match env.sessionOf(StrVal(h.GetString(AuthTokenField, Null)))
          case None => Deny(BadTokenMessage)
          case Some(uid) =>
            if roles.AnySession? then Pass
            else if exists k :: 0 <= k < |RoleNames(roles)| && env.inRole(uid, RoleNames(roles)[k]) then Pass
            else Deny(NoRoleMessage)
  }

  /** No URL, no route table for the verb, or no match: the default endpoint, else 404. */
  function Fallback<H>(defaultEndpoint: Option<H>): (o: Outcome<H>)
    ensures o.DefaultCalled? || o.NotFound?
  {
    match defaultEndpoint
    case Some(h) => DefaultCalled(h)
    case None => NotFound
  }

  /** The branch `handle` takes. */
  function Dispatch<H, D>(endpoints: map<string, seq<Route<H>>>, defaultEndpoint: Option<H>,
                         req: Classified, get: Params, urlParam: Option<string>, env: Env<H, D>): Outcome<H>
  {
    if EmptyOpt(urlParam) then Skipped
    else
      var getHelper := New(Some(get));
      if !getHelper.HasValue(urlParam.value, true) then Fallback(defaultEndpoint)
      else if !req.isValid then Crashed("Can't get request type on an invalid request.")
      else
        Routed(endpoints, defaultEndpoint, req, get, StrVal(getHelper.GetString(urlParam.value, Null)), env)
  }

  /** The branch `handle` takes for a valid request with a URL. */
  function Routed<H, D>(endpoints: map<string, seq<Route<H>>>, defaultEndpoint: Option<H>,
                       req: Classified, get: Params, url: string, env: Env<H, D>): (o: Outcome<H>)
    ensures !o.Skipped?
    ensures o.NotFound? ==> defaultEndpoint.None?
  {
    var verb := req.requestTypeName.GetOr("");
    if verb !in endpoints then Fallback(defaultEndpoint)
    else
      var routes := endpoints[verb];
      match FirstMatch(routes, url, env.matches)
      case None => Fallback(defaultEndpoint)
      case Some(i) =>
        match GateOf(routes[i].1.roles, req, get, env)
        case Pass => Invoked(routes[i].0, routes[i].1.callback)
        case Deny(m) => Forbidden(m)
        case Throw(e) => Crashed(e)
  }

  /** What a matched handler's call puts on the wire. A handler that returns
      has its writes discarded by `ob_end_clean`; one that throws skips it,
      and the open buffer with its writes is flushed at shutdown. A code the
      handler set stays set, unless an `ApiResponse` sets its own. */
  function RenderReturn<D>(c: Call<D>): (r: (Option<int>, seq<Chunk<D>>))
    ensures c.ret.NullReturn? ==> r == (c.status, [])
    ensures c.ret.ApiResponse? ==> r == (Some(c.ret.httpCode), [JsonData(c.ret.data)])
    ensures c.ret.Printable? ==> r == (c.status, [RawText(c.ret.text)])
    ensures c.ret.Threw? ==> r == (c.status, [RawText(c.writes)])
  {
    match c.ret
    case NullReturn => (c.status, [])
    case ApiResponse(code, data) => (Some(code), [JsonData(data)])
    case Printable(text) => (c.status, [RawText(text)])
    case Threw(_) => (c.status, [RawText(c.writes)])
  }

  /** The response `handle` produces for a branch. */
  function Render<H, D>(o: Outcome<H>, url: string, env: Env<H, D>): Response<D> {
    match o
    case Skipped => Response([], None, [])
    case DefaultCalled(h) =>
      // Not buffered: its writes are sent and its return value is ignored.
      var c := env.call(h, NoMatches);
      Response(ApiHeaders, c.status, [RawText(c.writes)])
    case NotFound => Response(ApiHeaders, Some(NOT_FOUND), [JsonString(InvalidUrlMessage)])
    case Forbidden(m) => Response(ApiHeaders, Some(FORBIDDEN), [JsonString(m)])
    case Invoked(p, h) =>
      var (status, body) := RenderReturn(env.call(h, MatchOf(p, url)));
      Response(ApiHeaders, status, body)
    case Crashed(_) => Response(ApiHeaders, None, [])
  }

  /** The URL string `handle` matches against. */
  function UrlOf(get: Params, urlParam: Option<string>): string {
    if urlParam.None? then "" else StrVal(New(Some(get)).GetString(urlParam.value, Null))
  }

  /** The route table; PHP keeps it in static properties. */
  class ApiHandler<H> {
    var endpoints: map<string, seq<Route<H>>>
    var defaultEndpoint: Option<H>

    /** Within each verb's table a pattern occurs at most once. */
    ghost predicate Valid()
      reads this
    {
      TablesDistinct(endpoints)
    }

    constructor ()
      ensures Valid() && endpoints == map[] && defaultEndpoint == None
    {
      endpoints := map[];
      defaultEndpoint := None;
    }

    /**
     * `registerEndpoint`: a null pattern only replaces the default endpoint;
     * otherwise the pattern is added under each verb unless already there.
     */
    method RegisterEndpoint(verbs: string, pattern: Option<string>, callback: H, roles: Roles)
      requires Valid()
      modifies this
      ensures Valid()
      ensures pattern.None? ==> endpoints == old(endpoints) && defaultEndpoint == Some(callback)
      ensures pattern.Some? ==> defaultEndpoint == old(defaultEndpoint)
      ensures pattern.Some? ==> endpoints == RegisterAll(old(endpoints), SplitVerbs(verbs), pattern.value, Entry(callback, roles))
    {
      if pattern.None? {
        defaultEndpoint := Some(callback);
        return;
      }
      var sverbs := SplitVerbs(verbs);
      var entry := Entry(callback, roles);
      var i := 0;
      while i < |sverbs|
        invariant 0 <= i <= |sverbs|
        invariant Valid() && defaultEndpoint == old(defaultEndpoint)
        invariant RegisterAll(endpoints, sverbs[i..], pattern.value, entry) == RegisterAll(old(endpoints), sverbs, pattern.value, entry)
      {
        var v := sverbs[i];
        // A verb seen for the first time starts with an empty table.
        var routes := RoutesOf(endpoints, v);
        var added := AddRoute(routes, pattern.value, entry);
        AddRouteKeepsDistinct(endpoints, v, pattern.value, entry);
        RegisterAllStep(endpoints, sverbs, i, pattern.value, entry);
        endpoints := endpoints[v := added];
        i := i + 1;
      }
    }

    /** The auth gate's role loop: does the session's user hold any listed role? */
    static method HasAnyRole(uid: int, names: seq<string>, inRole: (int, string) -> bool) returns (hasRole: bool)
      ensures hasRole <==> exists k :: 0 <= k < |names| && inRole(uid, names[k])
    {
      hasRole := false;
      var i := 0;
      while i < |names|
        invariant 0 <= i <= |names|
        invariant !hasRole && forall k :: 0 <= k < i ==> !inRole(uid, names[k])
      {
        if inRole(uid, names[i]) {
          hasRole := true;
          return;
        }
        i := i + 1;
      }
    }

    /**
     * `handle`: the branch taken is `Dispatch` of the table and the request,
     * and the response is what `Render` makes of it.
     */
    method Handle<D>(req: ApiRequest, urlParam: Option<string>, env: Env<H, D>) returns (outcome: Outcome<H>, resp: Response<D>)
      ensures outcome == Dispatch(endpoints, defaultEndpoint, req.Snapshot(), req.get, urlParam, env)
      ensures resp == Render(outcome, UrlOf(req.get, urlParam), env)
    {
      if urlParam.None? || EmptyString(urlParam.value) {
        return Skipped, Response([], None, []);
      }
      var headers := ApiHeaders;
      var get := req.GetParameterizedGet();
      assert get == New(Some(req.get));
      if !get.HasValue(urlParam.value, true) {
        outcome := Fallback(defaultEndpoint);
        resp := Render(outcome, UrlOf(req.get, urlParam), env);
        return;
      }
      var url := StrVal(get.GetString(urlParam.value, Null));
      assert url == UrlOf(req.get, urlParam);
      var name := req.GetRequestTypeName();
      if name.Failure? {
        return Crashed(name.error), Response(headers, None, []);
      }
      outcome, resp := Route(req, url, env);
    }

    /** `handle` once the request is valid and names a URL. */
    method Route<D>(req: ApiRequest, url: string, env: Env<H, D>) returns (outcome: Outcome<H>, resp: Response<D>)
      ensures outcome == Routed(endpoints, defaultEndpoint, req.Snapshot(), req.get, url, env)
      ensures resp == Render(outcome, url, env)
    {
      var headers := ApiHeaders;
      var verb := req.requestTypeName.GetOr("");
      if verb !in endpoints {
        outcome := Fallback(defaultEndpoint);
        resp := Render(outcome, url, env);
        return;
      }
      var routes := endpoints[verb];
      var found := FindRoute(routes, url, env.matches);
      if found.None? {
        outcome := Fallback(defaultEndpoint);
        resp := Render(outcome, url, env);
        return;
      }
      var (pattern, entry) := routes[found.value];
      var gate := CheckGate(entry.roles, req, env);
      match gate {
        case Throw(e) =>
          return Crashed(e), Response(headers, None, []);
        case Deny(m) =>
          return Forbidden(m), Response(headers, Some(FORBIDDEN), [JsonString(m)]);
        case Pass =>
      }
      // The handler's own writes are captured, and thrown away unless it throws.
      var c := env.call(entry.callback, MatchOf(pattern, url));
      outcome := Invoked(pattern, entry.callback);
      var (status, body) := RenderReturn(c);
      resp := Response(headers, status, body);
    }

    /** The loop over the verb's routes: the first whose pattern matches. */
    static method FindRoute(routes: seq<Route<H>>, url: string, matches: (string, string) -> bool) returns (found: Option<nat>)
      ensures found == FirstMatch(routes, url, matches)
    {
      var i := 0;
      while i < |routes|
        invariant 0 <= i <= |routes|
        invariant forall j :: 0 <= j < i ==> !matches(routes[j].0, url)
      {
        if matches(routes[i].0, url) {
          assert FirstMatch(routes, url, matches) == Some(i);
          return Some(i);
        }
        i := i + 1;
      }
      found := None;
    }

    /** The token and role checks `handle` makes before a protected route. */
    static method CheckGate<D>(roles: Roles, req: ApiRequest, env: Env<H, D>) returns (g: Gate)
      ensures g == GateOf(roles, req.Snapshot(), req.get, env)
    {
      if roles.Open? {
        return Pass;
      }
      var input := req.GetParameterizedInput(env.decode);
      assert input == ParameterizedInput(req.Snapshot(), req.get, env.decode);
      if input.Failure? {
        return Throw(input.error);
      }
      if !input.value.HasValue(AuthTokenField, true) {
        return Deny(NoTokenMessage);
      }
      var session := env.sessionOf(StrVal(input.value.GetString(AuthTokenField, Null)));
      if session.None? {
        return Deny(BadTokenMessage);
      }
      if !roles.AnySession? {
        var hasRole := HasAnyRole(session.value, RoleNames(roles), env.inRole);
        if !hasRole {
          return Deny(NoRoleMessage);
        }
      }
      g := Pass;
    }
  }

  /** The dispatcher invokes the first route registered for the request's verb
      whose pattern matches, and none registered before it matches. */
  lemma InvokesFirstMatch<H, D>(endpoints: map<string, seq<Route<H>>>, defaultEndpoint: Option<H>,
                               req: Classified, get: Params, urlParam: Option<string>, env: Env<H, D>)
    requires Dispatch(endpoints, defaultEndpoint, req, get, urlParam, env).Invoked?
    ensures var o := Dispatch(endpoints, defaultEndpoint, req, get, urlParam, env);
      var routes := endpoints[req.requestTypeName.GetOr("")];
      var url := UrlOf(get, urlParam);
      req.isValid && req.requestTypeName.GetOr("") in endpoints &&
      exists i :: 0 <= i < |routes| && routes[i].0 == o.pattern && routes[i].1.callback == o.callback &&
        env.matches(routes[i].0, url) && forall j :: 0 <= j < i ==> !env.matches(routes[j].0, url)
  {
    var routes := endpoints[req.requestTypeName.GetOr("")];
    var i := FirstMatch(routes, UrlOf(get, urlParam), env.matches).value;
    assert 0 <= i < |routes|;
  }

  /** A protected route refuses a request without a token, or whose token has
      no session, before its handler can run. */
  lemma GateRefusals<H, D>(roles: Roles, req: Classified, get: Params, env: Env<H, D>)
    requires !roles.Open?
    requires ParameterizedInput(req, get, env.decode).Success?
    ensures var h := ParameterizedInput(req, get, env.decode).value;
      (!h.HasValue(AuthTokenField, true) ==> GateOf(roles, req, get, env) == Deny(NoTokenMessage)) &&
      (h.HasValue(AuthTokenField, true) && env.sessionOf(StrVal(h.GetString(AuthTokenField, Null))).None? ==>
        GateOf(roles, req, get, env) == Deny(BadTokenMessage))
  {
  }

  /** With a session, `true` lets it pass; role names let it pass iff it holds one of them. */
  lemma GateRoles<H, D>(roles: Roles, req: Classified, get: Params, env: Env<H, D>, uid: int)
    requires !roles.Open?
    requires ParameterizedInput(req, get, env.decode).Success?
    requires ParameterizedInput(req, get, env.decode).value.HasValue(AuthTokenField, true)
    requires env.sessionOf(StrVal(ParameterizedInput(req, get, env.decode).value.GetString(AuthTokenField, Null))) == Some(uid)
    ensures roles.AnySession? ==> GateOf(roles, req, get, env) == Pass
    ensures roles.OneRole? ==> (GateOf(roles, req, get, env) == Pass <==> env.inRole(uid, roles.name))
    ensures roles.RoleList? ==> (GateOf(roles, req, get, env) == Pass <==> exists k :: 0 <= k < |roles.names| && env.inRole(uid, roles.names[k]))
    ensures GateOf(roles, req, get, env) != Pass ==> GateOf(roles, req, get, env) == Deny(NoRoleMessage)
  {
    if roles.RoleList? {
      assert RoleNames(roles) == roles.names;
    }
    if roles.OneRole? {
      assert RoleNames(roles) == [roles.name];
      if env.inRole(uid, roles.name) {
        assert 0 <= 0 < |RoleNames(roles)| && env.inRole(uid, RoleNames(roles)[0]);
      }
    }
  }

  /** Without a URL parameter name nothing is sent; otherwise the three API
      headers always are. The default endpoint's response is its own code and
      writes, and a 404 that no handler set comes only with the "Invalid URL"
      body. */
  lemma ResponseShape<H, D>(endpoints: map<string, seq<Route<H>>>, defaultEndpoint: Option<H>,
                           req: Classified, get: Params, urlParam: Option<string>, env: Env<H, D>)
    ensures var o := Dispatch(endpoints, defaultEndpoint, req, get, urlParam, env);
      var r := Render(o, UrlOf(get, urlParam), env);
      (EmptyOpt(urlParam) <==> r.headers == []) &&
      (EmptyOpt(urlParam) ==> r == Response([], None, [])) &&
      (o.DefaultCalled? ==> r == Response(ApiHeaders, env.call(o.callback, NoMatches).status, [RawText(env.call(o.callback, NoMatches).writes)])) &&
      (r.status == Some(NOT_FOUND) && !o.Invoked? && !(o.DefaultCalled? && env.call(o.callback, NoMatches).status.Some?) ==>
        o.NotFound? && r.body == [JsonString(InvalidUrlMessage)]) &&
      (o.NotFound? ==> defaultEndpoint.None?)
  {
  }

  /** A matched handler that returns has its direct writes discarded: two
      handlers that return the same value, and set the same code (or return
      an `ApiResponse`, whose code wins), produce the same response. */
  lemma HandlerWritesDiscarded<H, D>(o: Outcome<H>, url: string, env1: Env<H, D>, env2: Env<H, D>)
    requires o.Invoked?
    requires !env1.call(o.callback, MatchOf(o.pattern, url)).ret.Threw?
    requires env1.call(o.callback, MatchOf(o.pattern, url)).ret == env2.call(o.callback, MatchOf(o.pattern, url)).ret
    requires env1.call(o.callback, MatchOf(o.pattern, url)).ret.ApiResponse? ||
             env1.call(o.callback, MatchOf(o.pattern, url)).status == env2.call(o.callback, MatchOf(o.pattern, url)).status
    ensures Render(o, url, env1) == Render(o, url, env2)
  {
  }

  /** A matched handler that throws leaves its output buffer open, so what it
      echoed is the whole body, with whatever code it set before throwing. */
  lemma ThrowingHandlerWritesKept<H, D>(o: Outcome<H>, url: string, env: Env<H, D>)
    requires o.Invoked?
    requires env.call(o.callback, MatchOf(o.pattern, url)).ret.Threw?
    ensures var c := env.call(o.callback, MatchOf(o.pattern, url));
      Render(o, url, env) == Response(ApiHeaders, c.status, [RawText(c.writes)])
  {
  }

  /** The body the application's default endpoint echoes, `json_encode` of
      its one-entry array. */
  const NotValidEndpointBody := "{\"message\":\"Not a valid API endpoint\"}"

  /** The application's default endpoint: it sets 404, echoes the message
      and returns null. */
  function AppDefaultCall<D>(): Call<D> {
    Call(Some(NOT_FOUND), NotValidEndpointBody, NullReturn)
  }

  /** With the application's default endpoint registered, a request without
      a URL, or with one no route takes, is answered 404 with its message;
      the "Invalid URL" branch never happens. */
  lemma AppDefaultEndpointAnswers404<H, D>(endpoints: map<string, seq<Route<H>>>, h: H,
                                          req: Classified, get: Params, urlParam: Option<string>, env: Env<H, D>)
    requires env.call(h, NoMatches) == AppDefaultCall()
    requires !EmptyOpt(urlParam)
    ensures var o := Dispatch(endpoints, Some(h), req, get, urlParam, env);
      && (o.DefaultCalled? || o.Invoked? || o.Forbidden? || o.Crashed?)
      && (!New(Some(get)).HasValue(urlParam.value, true) ==> o == DefaultCalled(h))
      && (o.DefaultCalled? ==> Render(o, UrlOf(get, urlParam), env) == Response(ApiHeaders, Some(NOT_FOUND), [RawText(NotValidEndpointBody)]))
  {
  }

  /**
   * The "ERROR" table is never consulted: whatever is registered under the
   * verb "ERROR" (as `'*'` does), dispatch of a constructed request is the same.
   */
  lemma ErrorRoutesUnreachable<H, D>(endpoints: map<string, seq<Route<H>>>, errorRoutes: seq<Route<H>>, defaultEndpoint: Option<H>,
                                    server: Params, body: Option<string>, parsesAsJson: string -> bool,
                                    get: Params, urlParam: Option<string>, env: Env<H, D>)
    ensures var req := Classify(server, body, parsesAsJson);
      Dispatch(endpoints["ERROR" := errorRoutes], defaultEndpoint, req, get, urlParam, env)
        == Dispatch(endpoints, defaultEndpoint, req, get, urlParam, env)
  {
    var req := Classify(server, body, parsesAsJson);
    if req.isValid {
      assert req.requestTypeName.GetOr("") != "ERROR";
      forall url: string {
        RoutedIgnoresOtherVerbs(endpoints, "ERROR", errorRoutes, defaultEndpoint, req, get, url, env);
      }
    }
  }

  /** Routing a request consults only the table of its own verb. */
  lemma RoutedIgnoresOtherVerbs<H, D>(endpoints: map<string, seq<Route<H>>>, other: string, routes: seq<Route<H>>,
                                     defaultEndpoint: Option<H>, req: Classified, get: Params, url: string, env: Env<H, D>)
    requires req.requestTypeName.GetOr("") != other
    ensures Routed(endpoints[other := routes], defaultEndpoint, req, get, url, env)
      == Routed(endpoints, defaultEndpoint, req, get, url, env)
  {
    var verb := req.requestTypeName.GetOr("");
    assert verb in endpoints[other := routes] <==> verb in endpoints;
    if verb in endpoints {
      assert endpoints[other := routes][verb] == endpoints[verb];
    }
  }
}

=== FILE: api_request.dfy ===
/**
 * `ApiRequest`: classification of the incoming HTTP request by its verb and
 * body, and the getters that refuse to work on an invalid request.
 */
module ApiRequests {
  import opened Wrappers
  import opened Php
  import opened ParameterHelpers

  /** `ApiRequestType`, with the enum's integer codes. */
  datatype RequestType = DELETE | ERROR | GET | HEAD | OPTIONS | POST | PUT
  {
    function Code(): (n: int)
      ensures 1 <= n <= 7
    {
      match this
      case DELETE => 1
      case ERROR => 2
      case GET => 3
      case HEAD => 4
      case OPTIONS => 5
      case POST => 6
      case PUT => 7
    }

    function Name(): string {
      match this
      case DELETE => "DELETE"
      case ERROR => "ERROR"
      case GET => "GET"
      case HEAD => "HEAD"
      case OPTIONS => "OPTIONS"
      case POST => "POST"
      case PUT => "PUT"
    }
  }

  /** The enum codes are distinct, so `is()` on codes is equality of types. */
  lemma CodesDistinct(a: RequestType, b: RequestType)
    ensures a.Code() == b.Code() <==> a == b
  {
  }

  /** The six verbs the constructor recognises, keyed by upper-cased name. */
  function VerbOf(upper: string): (t: Option<RequestType>)
    ensures t.Some? ==> t.value != ERROR && t.value.Name() == upper
    ensures t.None? ==> upper !in {"DELETE", "GET", "HEAD", "OPTIONS", "POST", "PUT"}
  {
    if upper == "DELETE" then Some(DELETE)
    else if upper == "GET" then Some(GET)
    else if upper == "HEAD" then Some(HEAD)
    else if upper == "OPTIONS" then Some(OPTIONS)
    else if upper == "POST" then Some(POST)
    else if upper == "PUT" then Some(PUT)
    else None
  }

  /** What `json_decode` produced: null (also on a syntax error), an array, or a scalar. */
  datatype Decoded = DecodedNull | DecodedArray(entries: Params) | DecodedScalar

  /** The fields the constructor leaves behind. */
  datatype Classified = Classified(
    requestType: RequestType,
    requestTypeName: Option<string>,
    isValid: bool,
    isJson: bool,
    input: Option<string>)

  /** The request the constructor starts from: type ERROR, no name, invalid. */
  const Unclassified := Classified(ERROR, None, false, false, None)

  /**
   * The constructor's decision. `server` is `$_SERVER`; `body` is what reading
   * `php://input` gave (None when the read failed, which the source turns into
   * ""); `parsesAsJson(t)` says whether `json_decode(t)` reported no error.
   */
  function Classify(server: Params, body: Option<string>, parsesAsJson: string -> bool): (c: Classified)
    ensures "REQUEST_METHOD" !in server ==> c == Unclassified
    ensures c.isValid ==> c.requestType != ERROR && c.requestTypeName == Some(c.requestType.Name())
    ensures c.requestTypeName == Some("ERROR") ==> !c.isValid
    ensures c.requestType == GET ==> c.isValid && !c.isJson && c.input.None?
    ensures c.isJson ==> c.isValid && c.requestType != GET && c.input.Some? && |c.input.value| > 0
    ensures c.isValid && c.requestType != GET ==> c.input.Some? && !EmptyString(c.input.value)
    ensures c.isValid && c.requestType != GET ==>
      (c.isJson <==> c.input.value[0] == '{' || c.input.value[0] == '[' || parsesAsJson(Trim(c.input.value)))
  {
    if "REQUEST_METHOD" !in server then Unclassified
    else
      var upper := ToUpper(StrVal(server["REQUEST_METHOD"]));
      match VerbOf(upper)
      case None => Classified(ERROR, Some("ERROR"), false, false, None)
      case Some(t) =>
        if t == GET then Classified(GET, Some("GET"), true, false, None)
        else
          var input := body.GetOr("");
          if EmptyString(input) then Classified(t, Some(t.Name()), false, false, Some(input))
          else
            var json := input[0] == '{' || input[0] == '[' || parsesAsJson(Trim(input));
            Classified(t, Some(t.Name()), true, json, Some(input))
  }

  /** A recognised verb other than GET is valid exactly when its body is not
      empty in PHP's sense, so a body of "0" leaves the request invalid. */
  lemma NonGetValidity(server: Params, body: Option<string>, parsesAsJson: string -> bool)
    requires "REQUEST_METHOD" in server
    requires VerbOf(ToUpper(StrVal(server["REQUEST_METHOD"]))).Some?
    requires VerbOf(ToUpper(StrVal(server["REQUEST_METHOD"]))) != Some(GET)
    ensures Classify(server, body, parsesAsJson).isValid <==> !EmptyString(body.GetOr(""))
    ensures body == Some("0") ==> !Classify(server, body, parsesAsJson).isValid
  {
  }

  /** An unrecognised verb is named "ERROR" and stays invalid whatever the body. */
  lemma UnknownVerbIsError(server: Params, body: Option<string>, parsesAsJson: string -> bool)
    requires "REQUEST_METHOD" in server
    requires VerbOf(ToUpper(StrVal(server["REQUEST_METHOD"]))).None?
    ensures Classify(server, body, parsesAsJson) == Classified(ERROR, Some("ERROR"), false, false, None)
  {
  }

  class ApiRequest {
    var requestType: RequestType
    var requestTypeName: Option<string>
    var isValid: bool
    var isJson: bool
    var input: Option<string>
    /** `$_GET`, which `getParameterizedGet` and GET input are built from. */
    var get: Params

    function Snapshot(): Classified
      reads this
    {
      Classified(requestType, requestTypeName, isValid, isJson, input)
    }

    /** The constructor's field assignments, step by step. */
    constructor (server: Params, get: Params, body: Option<string>, parsesAsJson: string -> bool)
      ensures Snapshot() == Classify(server, body, parsesAsJson)
      ensures this.get == get
    {
      this.get := get;
      requestType := ERROR;
      requestTypeName := None;
      isValid := false;
      isJson := false;
      input := None;
      new;
      if "REQUEST_METHOD" !in server {
        return;
      }
      var verb := VerbOf(ToUpper(StrVal(server["REQUEST_METHOD"])));
      if verb.None? {
        requestType := ERROR;
        requestTypeName := Some("ERROR");
        return;
      }
      requestType := verb.value;
      requestTypeName := Some(verb.value.Name());
      if requestType == GET {
        isValid := true;
      } else {
        input := Some(body.GetOr(""));
        if EmptyString(input.value) {
          return;
        }
        isValid := true;
        if input.value[0] == '{' || input.value[0] == '[' || parsesAsJson(Trim(input.value)) {
          isJson := true;
        }
      }
    }

    /** `getParameterizedGet` */
    function GetParameterizedGet(): (h: ParameterHelper)
      reads this
      ensures h.Valid() && (h.isValid <==> |get| >= 1)
      ensures h.isValid ==> h.parameters == get
    {
      New(Some(get))
    }

    /** `getRequestType` */
    function GetRequestType(): (r: Result<RequestType>)
      reads this
      ensures r.Failure? <==> !isValid
      ensures r.Success? ==> r.value == requestType
    {
      if !isValid then Failure("Can't get request type on an invalid request.") else Success(requestType)
    }

    /** `getRequestTypeName` */
    function GetRequestTypeName(): (r: Result<Option<string>>)
      reads this
      ensures r.Failure? <==> !isValid
      ensures r.Success? ==> r.value == requestTypeName
    {
      if !isValid then Failure("Can't get request type on an invalid request.") else Success(requestTypeName)
    }

    /** `getRawInput` */
    function GetRawInput(): (r: Result<Option<string>>)
      reads this
      ensures r.Failure? <==> !isValid
      ensures r.Success? ==> r.value == input
    {
      if !isValid then Failure("Can't get input on an invalid request.") else Success(input)
    }

    /** `getParameterizedInput` */
    function GetParameterizedInput(decode: string -> Decoded): (r: Result<ParameterHelper>)
      reads this
      ensures r == ParameterizedInput(Snapshot(), get, decode)
      ensures !isValid ==> r.Failure?
      ensures isValid && requestType == GET ==> r == Success(New(Some(get)))
      ensures isValid && requestType != GET && !isJson ==> r.Failure?
      ensures r.Success? ==> r.value.Valid()
    {
      ParameterizedInput(Snapshot(), get, decode)
    }
  }

  /**
   * What `getParameterizedInput` gives for a classified request: `$_GET` for
   * a GET request, the decoded body for a JSON request. `decode` is
   * `json_decode($input, true)`; a scalar result cannot be passed to the
   * helper's array parameter and throws as well.
   */
  function ParameterizedInput(c: Classified, get: Params, decode: string -> Decoded): (r: Result<ParameterHelper>)
    ensures r.Success? ==> r.value.Valid()
    ensures !c.isValid ==> r == Failure("Can't get input on an invalid request.")
    ensures c.isValid && c.requestType == GET ==> r == Success(New(Some(get)))
    ensures c.isValid && c.requestType != GET && !c.isJson ==> r.Failure?
    ensures c.isValid && c.requestType != GET && c.isJson ==>
      (r.Success? <==> !decode(c.input.GetOr("")).DecodedScalar?)
  {
    if !c.isValid then Failure("Can't get input on an invalid request.")
    else if c.requestType == GET then Success(New(Some(get)))
    else if !c.isJson then Failure("Can't get parameterized input for non-json payload.")
    else
      match decode(c.input.GetOr(""))
      case DecodedNull => Success(New(None))
      case DecodedArray(entries) => Success(New(Some(entries)))
      case DecodedScalar => Failure("Argument #1 ($params) must be of type ?array")
  }

  /** Every getter fails on a request whose verb was not recognised, so the
      name "ERROR" is never handed to the route table. */
  lemma ErrorNameNeverReturned(server: Params, body: Option<string>, parsesAsJson: string -> bool)
    ensures var c := Classify(server, body, parsesAsJson);
      c.isValid ==> c.requestTypeName.Some? && c.requestTypeName.value in {"DELETE", "GET", "HEAD", "OPTIONS", "POST", "PUT"}
  {
  }
}

=== FILE: backend_menu_helper.dfy ===
/**
 * The backend menu registry: an ordered map of top-level elements, each with
 * an ordered map of sub-elements. PHP's ordered arrays are sequences here,
 * keyed by the element's own `key` (the registry always stores an element
 * under its key). `preg_match` is an oracle: `matches(pattern, path)` says
 * whether it returned 1.
 */
module BackendMenu {
  import opened Wrappers

  /** `activeMatch`: a list of patterns or a single one. */
  datatype ActiveMatch = Patterns(patterns: seq<string>) | Pattern(pattern: string)

  /** `BackendMenuElement` */
  datatype MenuElement = MenuElement(key: string, title: string, href: string, activeMatch: ActiveMatch, icon: Option<string>)

  /** One entry of `$elements`: the element and its sub-elements. */
  datatype Slot = Slot(element: MenuElement, subs: seq<MenuElement>)

  /** Whether some pattern of `patterns` matches `path`. */
  function AnyMatches(patterns: seq<string>, matches: (string, string) -> bool, path: string): (r: bool)
    ensures r <==> exists i :: 0 <= i < |patterns| && matches(patterns[i], path)
  {
    if patterns == [] then false
    else if matches(patterns[0], path) then true
    else
      var r := AnyMatches(patterns[1..], matches, path);
      assert r ==> exists i :: 0 <= i < |patterns| && matches(patterns[i], path) by {
        if r {
          var i :| 0 <= i < |patterns[1..]| && matches(patterns[1..][i], path);
          assert matches(patterns[i + 1], path);
        }
      }
      r
  }

  /** `BackendMenuElement::isActive` */
  function IsActive(e: MenuElement, matches: (string, string) -> bool, path: string): (r: bool)
    ensures e.activeMatch.Pattern? ==> (r <==> matches(e.activeMatch.pattern, path))
    ensures e.activeMatch.Patterns? ==>
      (r <==> exists i :: 0 <= i < |e.activeMatch.patterns| && matches(e.activeMatch.patterns[i], path))
  {
    match e.activeMatch
    case Patterns(ps) => AnyMatches(ps, matches, path)
    case Pattern(p) => matches(p, path)
  }

  function Keys(es: seq<MenuElement>): seq<string> {
    seq(|es|, i requires 0 <= i < |es| => es[i].key)
  }

  function TopKeys(slots: seq<Slot>): seq<string> {
    seq(|slots|, i requires 0 <= i < |slots| => slots[i].element.key)
  }

  predicate Distinct(ks: seq<string>) {
    forall i, j :: 0 <= i < j < |ks| ==> ks[i] != ks[j]
  }

  /** Keys are unique at the top level and under each parent. */
  predicate WellFormed(slots: seq<Slot>) {
    Distinct(TopKeys(slots)) && forall i :: 0 <= i < |slots| ==> Distinct(Keys(slots[i].subs))
  }

  /** Where `key` sits among the top-level elements. */
  function Find(slots: seq<Slot>, key: string): (r: Option<nat>)
    ensures r.None? <==> key !in TopKeys(slots)
    ensures r.Some? ==> r.value < |slots| && slots[r.value].element.key == key
  {
    if slots == [] then None
    else if slots[0].element.key == key then
      assert TopKeys(slots)[0] == key;
      Some(0)
    else
      assert TopKeys(slots) == [slots[0].element.key] + TopKeys(slots[1..]);
      match Find(slots[1..], key)
      case None => None
      case Some(i) => Some(i + 1)
  }

  function DuplicateKey(key: string): string { "Duplicate menu key registered: '" + key + "'" }
  function InvalidParent(key: string): string { "Invalid parent menu key: '" + key + "'" }
  function DuplicateSubKey(key: string): string { "Duplicate sub-menu key registered: '" + key + "'" }

  /** The menu after `addElement(e)`, or the exception it throws. */
  function Inserted(slots: seq<Slot>, e: MenuElement): Result<seq<Slot>> {
    if e.key in TopKeys(slots) then Failure(DuplicateKey(e.key))
    else Success(slots + [Slot(e, [])])
  }

  /** The menu after `addSubElement(parentKey, e)`, or the exception it throws. */
  function SubInserted(slots: seq<Slot>, parentKey: string, e: MenuElement): Result<seq<Slot>> {
    match Find(slots, parentKey)
    case None => Failure(InvalidParent(parentKey))
    case Some(i) =>
      if e.key in Keys(slots[i].subs) then Failure(DuplicateSubKey(e.key))
      else Success(slots[i := slots[i].(subs := slots[i].subs + [e])])
  }

  /** `BackendMenuHelper` */
  class BackendMenuHelper {
    var elements: seq<Slot>

    constructor()
      ensures elements == []
    {
      elements := [];
    }

    /** `addElement`: a failure leaves the menu as it was. */
    method AddElement(key: string, title: string, href: string, activeMatch: ActiveMatch, icon: Option<string>)
      returns (r: Result<()>)
      modifies this
      ensures var res := Inserted(old(elements), MenuElement(key, title, href, activeMatch, icon));
        && (res.Success? ==> r == Success(()) && elements == res.value)
        && (res.Failure? ==> r == Failure(res.error) && elements == old(elements))
    {
      if key in TopKeys(elements) {
        return Failure(DuplicateKey(key));
      }
      elements := elements + [Slot(MenuElement(key, title, href, activeMatch, icon), [])];
      r := Success(());
    }

    /** `addSubElement`: a failure leaves the menu as it was. */
    method AddSubElement(parentKey: string, key: string, title: string, href: string, activeMatch: ActiveMatch, icon: Option<string>)
      returns (r: Result<()>)
      modifies this
      ensures var res := SubInserted(old(elements), parentKey, MenuElement(key, title, href, activeMatch, icon));
        && (res.Success? ==> r == Success(()) && elements == res.value)
        && (res.Failure? ==> r == Failure(res.error) && elements == old(elements))
    {
      var at := Find(elements, parentKey);
      if at.None? {
        return Failure(InvalidParent(parentKey));
      }
      var i := at.value;
      if key in Keys(elements[i].subs) {
        return Failure(DuplicateSubKey(key));
      }
      var e := MenuElement(key, title, href, activeMatch, icon);
      elements := elements[i := elements[i].(subs := elements[i].subs + [e])];
      r := Success(());
    }

    /** `getElements`: the menu as built, top-level elements in insertion
        order, each with its sub-elements. */
    function GetElements(): (r: seq<Slot>)
      reads this
      ensures r == elements
    {
      elements
    }
  }

  // =========================================================================
  // Properties

  /** `addElement` throws exactly on a key already present; otherwise the new
      element goes last, with no sub-elements, after the untouched old ones,
      and keys stay unique. */
  lemma InsertedSpec(slots: seq<Slot>, e: MenuElement)
    requires WellFormed(slots)
    ensures Inserted(slots, e).Failure? <==> e.key in TopKeys(slots)
    ensures Inserted(slots, e).Failure? ==> Inserted(slots, e).error == DuplicateKey(e.key)
    ensures Inserted(slots, e).Success? ==>
      var s := Inserted(slots, e).value;
      && WellFormed(s)
      && TopKeys(s) == TopKeys(slots) + [e.key]
      && s[..|slots|] == slots
      && s[|slots|] == Slot(e, [])
  {
    if e.key !in TopKeys(slots) {
      var s := slots + [Slot(e, [])];
      assert s[..|slots|] == slots;
      assert TopKeys(s) == TopKeys(slots) + [e.key];
      forall i | 0 <= i < |s|
        ensures Distinct(Keys(s[i].subs))
      {
        if i < |slots| { assert s[i] == slots[i]; }
      }
    }
  }

  /** `addSubElement` throws for an unknown parent, then for a key already
      under that parent; otherwise it appends to that parent's sub-elements
      alone and keeps keys unique. */
  lemma SubInsertedSpec(slots: seq<Slot>, parentKey: string, e: MenuElement)
    requires WellFormed(slots)
    ensures parentKey !in TopKeys(slots) ==> SubInserted(slots, parentKey, e) == Failure(InvalidParent(parentKey))
    ensures forall i :: 0 <= i < |slots| && slots[i].element.key == parentKey ==>
      if e.key in Keys(slots[i].subs) then SubInserted(slots, parentKey, e) == Failure(DuplicateSubKey(e.key))
      else
        && SubInserted(slots, parentKey, e).Success?
        && var s := SubInserted(slots, parentKey, e).value;
        && WellFormed(s)
        && |s| == |slots|
        && s[i] == Slot(slots[i].element, slots[i].subs + [e])
        && forall j :: 0 <= j < |slots| && j != i ==> s[j] == slots[j]
  {
    forall i | 0 <= i < |slots| && slots[i].element.key == parentKey
      ensures Find(slots, parentKey) == Some(i)
    {
      var f := Find(slots, parentKey);
      assert TopKeys(slots)[i] == parentKey;
      assert f.Some? && TopKeys(slots)[f.value] == parentKey;
    }
    match Find(slots, parentKey)
    case None =>
    case Some(i) =>
      if e.key !in Keys(slots[i].subs) {
        var s := slots[i := slots[i].(subs := slots[i].subs + [e])];
        assert TopKeys(s) == TopKeys(slots);
        assert Keys(s[i].subs) == Keys(slots[i].subs) + [e.key];
      }
  }

  /** The menu that a run of `addElement` calls builds from an empty one. */
  function Build(es: seq<MenuElement>): Result<seq<Slot>> {
    if es == [] then Success([])
    else match Build(es[..|es| - 1])
      case Failure(m) => Failure(m)
      case Success(s) => Inserted(s, es[|es| - 1])
  }

  /** Elements added under distinct keys come back from `getElements` in the
      order they were added, each with no sub-elements. */
  lemma {:induction false} InsertionOrder(es: seq<MenuElement>)
    requires Distinct(Keys(es))
    ensures Build(es).Success?
    ensures WellFormed(Build(es).value)
    ensures |Build(es).value| == |es|
    ensures forall i :: 0 <= i < |es| ==> Build(es).value[i] == Slot(es[i], [])
  {
    if es != [] {
      var init := es[..|es| - 1];
      var last := es[|es| - 1];
      assert Distinct(Keys(init)) by {
        forall i, j | 0 <= i < j < |init|
          ensures Keys(init)[i] != Keys(init)[j]
        {
          assert Keys(es)[i] != Keys(es)[j];
        }
      }
      InsertionOrder(init);
      var s := Build(init).value;
      assert last.key !in TopKeys(s) by {
        forall i | 0 <= i < |s|
          ensures TopKeys(s)[i] != last.key
        {
          assert Keys(es)[i] != Keys(es)[|es| - 1];
        }
      }
      InsertedSpec(s, last);
    }
  }

  /** Adding a key that is already present fails, whatever came before. */
  lemma {:induction false} RepeatedKeyFails(es: seq<MenuElement>, e: MenuElement)
    requires Distinct(Keys(es))
    requires exists i :: 0 <= i < |es| && es[i].key == e.key
    ensures Build(es + [e]) == Failure(DuplicateKey(e.key))
  {
    InsertionOrder(es);
    var i :| 0 <= i < |es| && es[i].key == e.key;
    assert (es + [e])[..|es|] == es;
    assert TopKeys(Build(es).value)[i] == e.key;
  }
}

=== FILE: base_class.dfy ===
/**
 * `BaseClass`: populating a data-layer object from an array, and the
 * identifier assertion. The class's property list (what `get_class_vars`
 * returns, in declaration order, including the `db` and `log` properties
 * every subclass inherits) is a parameter; the populated object is the map
 * of the properties `fromArray` assigns.
 */
module BaseClasses {
  import opened Wrappers
  import opened Php
  import Logging

  /** `strtolower($prop) == strtolower($key)` */
  predicate Matches(prop: string, key: string) {
    ToLower(prop) == ToLower(key)
  }

  /** The first property that matches `key`, ignoring case. */
  function FirstMatch(properties: seq<string>, key: string): (r: Option<nat>)
    ensures r.Some? ==> r.value < |properties|
  {
    if properties == [] then None
    else if Matches(properties[0], key) then Some(0)
    else match FirstMatch(properties[1..], key)
      case None => None
      case Some(i) => Some(i + 1)
  }

  /** `FirstMatch` finds a match exactly when there is one, and then the
      first. */
  lemma {:induction false} FirstMatchSpec(properties: seq<string>, key: string)
    ensures FirstMatch(properties, key).None? <==> forall k :: 0 <= k < |properties| ==> !Matches(properties[k], key)
    ensures FirstMatch(properties, key).Some? ==>
      && Matches(properties[FirstMatch(properties, key).value], key)
      && forall k :: 0 <= k < FirstMatch(properties, key).value ==> !Matches(properties[k], key)
  {
    if properties != [] && !Matches(properties[0], key) {
      FirstMatchSpec(properties[1..], key);
      assert forall k :: 1 <= k < |properties| ==> properties[k] == properties[1..][k - 1];
    }
  }

  function EmptySource(className: string): string {
    "Cannot populate " + className + " from empty or non-existent array"
  }

  function CountMismatch(className: string, properties: nat, entries: nat): string {
    "Cannot populate " + className + " from array, variable count mismatch (" + Decimal(properties) + " vs " + Decimal(entries) + ")"
  }

  function NoMatch(key: string, className: string): string {
    "Couldn't find match for " + key + " index while populating " + className
  }

  /** The assignments of `fromArray`'s loop over `entries`, in order, or the
      exception for the first key that matches no property. */
  function Assigned(className: string, properties: seq<string>, entries: seq<(string, Value)>): Result<map<string, Value>>
    decreases |entries|
  {
    if entries == [] then Success(map[])
    else match Assigned(className, properties, entries[..|entries| - 1])
      case Failure(e) => Failure(e)
      case Success(values) =>
        var (key, val) := entries[|entries| - 1];
        match FirstMatch(properties, key)
        case None => Failure(NoMatch(key, className))
        case Some(p) => Success(values[properties[p] := val])
  }

  /** What `fromArray` returns or throws. */
  function Populated(className: string, properties: seq<string>, source: seq<(string, Value)>): Result<map<string, Value>> {
    if |source| < 1 then Failure(EmptySource(className))
    else if |properties| - 2 != |source| then Failure(CountMismatch(className, |properties|, |source|))
    else Assigned(className, properties, source)
  }

  /** `fromArray`, with its nested loops. */
  method FromArray(className: string, properties: seq<string>, source: seq<(string, Value)>) returns (r: Result<map<string, Value>>)
    ensures r == Populated(className, properties, source)
  {
    if |source| < 1 {
      return Failure(EmptySource(className));
    }
    if |properties| - 2 != |source| {
      return Failure(CountMismatch(className, |properties|, |source|));
    }
    var values: map<string, Value> := map[];
    var i := 0;
    while i < |source|
      invariant 0 <= i <= |source|
      invariant Assigned(className, properties, source[..i]) == Success(values)
    {
      var (key, val) := source[i];
      assert source[..i + 1][..i] == source[..i];
      var keyFound;
      keyFound, values := AssignFirstMatch(properties, key, val, values);
      if !keyFound {
        FailurePersists(className, properties, source, i + 1);
        return Failure(NoMatch(key, className));
      }
      i := i + 1;
    }
    assert source[..i] == source;
    r := Success(values);
  }

  /** The inner loop of `fromArray`: assign `val` to the first matching
      property and stop. */
  method AssignFirstMatch(properties: seq<string>, key: string, val: Value, values: map<string, Value>)
    returns (keyFound: bool, updated: map<string, Value>)
    ensures keyFound <==> FirstMatch(properties, key).Some?
    ensures keyFound ==> updated == values[properties[FirstMatch(properties, key).value] := val]
    ensures !keyFound ==> updated == values
  {
    FirstMatchSpec(properties, key);
    keyFound := false;
    updated := values;
    var j := 0;
    while j < |properties|
      invariant 0 <= j <= |properties|
      invariant forall k :: 0 <= k < j ==> !Matches(properties[k], key)
      invariant !keyFound && updated == values
    {
      if ToLower(properties[j]) == ToLower(key) {
        keyFound := true;
        updated := values[properties[j] := val];
        assert FirstMatch(properties, key) == Some(j);
        return;
      }
      j := j + 1;
    }
  }

  /** A `BaseClass` object, as far as `assertIdentifier` uses it: its
      injected logger. */
  class BaseObject {
    const log: Logging.Logger

    constructor(log: Logging.Logger)
      ensures this.log == log
    {
      this.log := log;
    }

    /** `assertIdentifier`: returns only on a strict `true`; otherwise logs an
        error and throws. */
    method AssertIdentifier(evaluatesTo: Value, calledClass: string, methodName: string, identifierName: string)
      returns (r: Result<()>)
      requires log.Valid()
      modifies log
      ensures log.Valid() && log.config == old(log.config)
      ensures evaluatesTo == Bool(true) ==> r == Success(()) && log.logs == old(log.logs)
      ensures evaluatesTo != Bool(true) ==>
        && r == Failure(IdentifierError(calledClass, methodName, identifierName))
        && log.logs == Logging.Filed(old(log.logs), Logging.ERROR, IdentifierLog(calledClass, methodName, identifierName))
    {
      if evaluatesTo == Bool(true) {
        return Success(());
      }
      log.Log(Logging.IntLevel(Logging.ERROR), IdentifierLog(calledClass, methodName, identifierName), []);
      r := Failure(IdentifierError(calledClass, methodName, identifierName));
    }
  }

  function IdentifierLog(calledClass: string, methodName: string, identifierName: string): string {
    "Error in " + calledClass + "::" + methodName + ": Called without a valid " + identifierName + " identifier"
  }

  function IdentifierError(calledClass: string, methodName: string, identifierName: string): string {
    "Cannot call " + calledClass + "::" + methodName + " without valid " + identifierName + " identifier"
  }

  // =========================================================================
  // Properties

  /** An empty source, and then a source whose size is not the property
      count less two, are refused before any property is assigned. */
  lemma PopulatedGuards(className: string, properties: seq<string>, source: seq<(string, Value)>)
    ensures source == [] ==> Populated(className, properties, source) == Failure(EmptySource(className))
    ensures source != [] && |properties| - 2 != |source| ==>
      Populated(className, properties, source) == Failure(CountMismatch(className, |properties|, |source|))
    ensures Populated(className, properties, source).Success? ==> |properties| == |source| + 2
  {
  }

  /** Keys that differ even ignoring case, as PHP property names do. */
  predicate DistinctIgnoringCase(entries: seq<(string, Value)>) {
    forall i, j :: 0 <= i < j < |entries| ==> ToLower(entries[i].0) != ToLower(entries[j].0)
  }

  /** The property a key is assigned to. */
  function Target(properties: seq<string>, key: string): string
    requires FirstMatch(properties, key).Some?
  {
    properties[FirstMatch(properties, key).value]
  }

  /** When every key matches some property, the assigned properties are
      exactly the first matches of the keys. */
  lemma {:induction false} AssignedProperties(className: string, properties: seq<string>, entries: seq<(string, Value)>)
    requires forall i :: 0 <= i < |entries| ==> FirstMatch(properties, entries[i].0).Some?
    ensures Assigned(className, properties, entries).Success?
    ensures forall p :: p in Assigned(className, properties, entries).value <==>
      exists i :: 0 <= i < |entries| && p == Target(properties, entries[i].0)
    decreases |entries|
  {
    if entries != [] {
      var n := |entries| - 1;
      var init := entries[..n];
      assert forall i :: 0 <= i < n ==> init[i] == entries[i];
      AssignedProperties(className, properties, init);
      var values := Assigned(className, properties, init).value;
      var result := values[Target(properties, entries[n].0) := entries[n].1];
      assert Assigned(className, properties, entries) == Success(result);
      forall x | x in result
        ensures exists i :: 0 <= i < |entries| && x == Target(properties, entries[i].0)
      {
        if x != Target(properties, entries[n].0) {
          var i :| 0 <= i < n && x == Target(properties, init[i].0);
          assert init[i] == entries[i];
        }
      }
    }
  }

  /** When every key matches some property and no two keys are equal ignoring
      case, each value lands in the first property that matches its key. */
  lemma {:induction false} AssignedToFirstMatch(className: string, properties: seq<string>, entries: seq<(string, Value)>)
    requires forall i :: 0 <= i < |entries| ==> FirstMatch(properties, entries[i].0).Some?
    requires DistinctIgnoringCase(entries)
    ensures Assigned(className, properties, entries).Success?
    ensures forall i :: 0 <= i < |entries| ==>
      && Target(properties, entries[i].0) in Assigned(className, properties, entries).value
      && Assigned(className, properties, entries).value[Target(properties, entries[i].0)] == entries[i].1
    decreases |entries|
  {
    if entries != [] {
      var n := |entries| - 1;
      var init := entries[..n];
      assert forall i :: 0 <= i < n ==> init[i] == entries[i];
      AssignedToFirstMatch(className, properties, init);
      var values := Assigned(className, properties, init).value;
      var key := entries[n].0;
      var result := values[Target(properties, key) := entries[n].1];
      assert Assigned(className, properties, entries) == Success(result);
      FirstMatchSpec(properties, key);
      forall i | 0 <= i < n
        ensures Target(properties, entries[i].0) != Target(properties, key)
      {
        FirstMatchSpec(properties, entries[i].0);
        assert ToLower(entries[i].0) != ToLower(key);
      }
    }
  }

  /** Once a prefix of the entries fails, so does the whole loop, with the
      same exception. */
  lemma {:induction false} FailurePersists(className: string, properties: seq<string>, entries: seq<(string, Value)>, n: nat)
    requires n <= |entries|
    requires Assigned(className, properties, entries[..n]).Failure?
    ensures Assigned(className, properties, entries) == Assigned(className, properties, entries[..n])
    decreases |entries|
  {
    if n < |entries| {
      var init := entries[..|entries| - 1];
      assert init[..n] == entries[..n];
      FailurePersists(className, properties, init, n);
    } else {
      assert entries[..n] == entries;
    }
  }

  /** The first key that matches no property is the one the exception names,
      whatever follows it. */
  lemma UnmatchedKeyNamed(className: string, properties: seq<string>, entries: seq<(string, Value)>, j: nat)
    requires j < |entries|
    requires forall i :: 0 <= i < j ==> FirstMatch(properties, entries[i].0).Some?
    requires FirstMatch(properties, entries[j].0).None?
    ensures Assigned(className, properties, entries) == Failure(NoMatch(entries[j].0, className))
  {
    var prefix := entries[..j + 1];
    assert prefix[..j] == entries[..j];
    assert forall i :: 0 <= i < j ==> entries[..j][i] == entries[i];
    AssignedProperties(className, properties, entries[..j]);
    FailurePersists(className, properties, entries, j + 1);
  }
}

=== FILE: class_field.dfy ===
/**
 * `ClassFields`: a list of field descriptions (PHP property, SQL column, SQL
 * parameter and PDO type) and the three lookup tables built from it. PHP's
 * ordered arrays become maps here: the order of their keys is not modelled.
 */
module ClassFieldLists {
  import opened Wrappers

  /** `ClassField` */
  datatype ClassField = ClassField(classField: string, dbColumn: string, dbParameter: string, dbType: int)

  /** PHP 8's `count(null)`. */
  const CountOfNull := "count(): Argument #1 ($value) must be of type Countable|array, null given"

  /** The table a `foreach` over `fields` builds by `$ret[key(f)] = val(f)`:
      a later field overwrites an earlier one with the same key. */
  function Indexed<V>(fields: seq<ClassField>, key: ClassField -> string, val: ClassField -> V): map<string, V>
    decreases |fields|
  {
    if fields == [] then map[]
    else
      var last := fields[|fields| - 1];
      Indexed(fields[..|fields| - 1], key, val)[key(last) := val(last)]
  }

  /** The loop shared by the three getters. */
  method Collect<V>(fields: seq<ClassField>, key: ClassField -> string, val: ClassField -> V) returns (ret: map<string, V>)
    ensures ret == Indexed(fields, key, val)
  {
    ret := map[];
    var i := 0;
    while i < |fields|
      invariant 0 <= i <= |fields|
      invariant ret == Indexed(fields[..i], key, val)
    {
      assert fields[..i + 1][..i] == fields[..i];
      ret := ret[key(fields[i]) := val(fields[i])];
      i := i + 1;
    }
    assert fields[..i] == fields;
  }

  function Column(f: ClassField): string { f.dbColumn }
  function Parameter(f: ClassField): string { f.dbParameter }
  function Property(f: ClassField): string { f.classField }
  function Present(f: ClassField): bool { true }
  function PdoType(f: ClassField): int { f.dbType }

  /** `ClassFields` */
  class ClassFields {
    /** Null when constructed without an array. */
    var fields: Option<seq<ClassField>>

    constructor(fields: Option<seq<ClassField>>)
      ensures this.fields == fields
    {
      this.fields := fields;
    }

    /** `addField`: appends; a null list becomes a one-element list, as
        `$null[] = $x` does in PHP. */
    method AddField(field: ClassField)
      modifies this
      ensures fields == Some(old(fields).GetOr([]) + [field])
    {
      fields := Some(fields.GetOr([]) + [field]);
    }

    /** `getSqlColumns` */
    method GetSqlColumns() returns (r: Result<map<string, bool>>)
      ensures fields.None? ==> r == Failure(CountOfNull)
      ensures fields.Some? ==> r == Success(Indexed(fields.value, Column, Present))
    {
      if fields.None? {
        return Failure(CountOfNull);
      }
      var ret := Collect(fields.value, Column, Present);
      r := Success(ret);
    }

    /** `getSqlParameters` */
    method GetSqlParameters() returns (r: Result<map<string, int>>)
      ensures fields.None? ==> r == Failure(CountOfNull)
      ensures fields.Some? ==> r == Success(Indexed(fields.value, Parameter, PdoType))
    {
      if fields.None? {
        return Failure(CountOfNull);
      }
      var ret := Collect(fields.value, Parameter, PdoType);
      r := Success(ret);
    }

    /** `getClassFields` */
    method GetClassFields() returns (r: Result<map<string, bool>>)
      ensures fields.None? ==> r == Failure(CountOfNull)
      ensures fields.Some? ==> r == Success(Indexed(fields.value, Property, Present))
    {
      if fields.None? {
        return Failure(CountOfNull);
      }
      var ret := Collect(fields.value, Property, Present);
      r := Success(ret);
    }
  }

  // =========================================================================
  // Properties

  /** The table's keys are exactly the fields' keys; an empty list gives an
      empty table. */
  lemma {:induction false} IndexedKeys<V>(fields: seq<ClassField>, key: ClassField -> string, val: ClassField -> V)
    ensures Indexed(fields, key, val).Keys == set i | 0 <= i < |fields| :: key(fields[i])
    ensures fields == [] ==> Indexed(fields, key, val) == map[]
    decreases |fields|
  {
    if fields != [] {
      var n := |fields| - 1;
      IndexedKeys(fields[..n], key, val);
      var before := set i | 0 <= i < n :: key(fields[..n][i]);
      var after := set i | 0 <= i < |fields| :: key(fields[i]);
      assert before + {key(fields[n])} == after by {
        forall x | x in after ensures x in before + {key(fields[n])} {
          var i :| 0 <= i < |fields| && x == key(fields[i]);
          if i < n { assert fields[..n][i] == fields[i]; }
        }
        forall x | x in before ensures x in after {
          var i :| 0 <= i < n && x == key(fields[..n][i]);
          assert fields[..n][i] == fields[i];
        }
      }
    }
  }

  /** Each key holds the value of the last field with that key. */
  lemma {:induction false} IndexedLastWriter<V>(fields: seq<ClassField>, key: ClassField -> string, val: ClassField -> V, i: nat)
    requires i < |fields|
    requires forall j :: i < j < |fields| ==> key(fields[j]) != key(fields[i])
    ensures key(fields[i]) in Indexed(fields, key, val)
    ensures Indexed(fields, key, val)[key(fields[i])] == val(fields[i])
    decreases |fields|
  {
    var n := |fields| - 1;
    if i < n {
      assert forall j :: i < j < n ==> fields[..n][j] == fields[j];
      IndexedLastWriter(fields[..n], key, val, i);
    }
  }

  /** `getSqlColumns` and `getClassFields` map exactly the columns (the
      properties) to true. */
  lemma PresenceTables(fields: seq<ClassField>)
    ensures Indexed(fields, Column, Present).Keys == set i | 0 <= i < |fields| :: fields[i].dbColumn
    ensures Indexed(fields, Property, Present).Keys == set i | 0 <= i < |fields| :: fields[i].classField
    ensures forall c :: c in Indexed(fields, Column, Present) ==> Indexed(fields, Column, Present)[c]
    ensures forall p :: p in Indexed(fields, Property, Present) ==> Indexed(fields, Property, Present)[p]
  {
    IndexedKeys(fields, Column, Present);
    IndexedKeys(fields, Property, Present);
    forall c | c in Indexed(fields, Column, Present) ensures Indexed(fields, Column, Present)[c] {
      var i :| 0 <= i < |fields| && c == fields[i].dbColumn;
      LastWith(fields, Column, Present, i);
    }
    forall p | p in Indexed(fields, Property, Present) ensures Indexed(fields, Property, Present)[p] {
      var i :| 0 <= i < |fields| && p == fields[i].classField;
      LastWith(fields, Property, Present, i);
    }
  }

  /** A field's key holds the value of some field at or after it with the
      same key. */
  lemma {:induction false} LastWith<V>(fields: seq<ClassField>, key: ClassField -> string, val: ClassField -> V, i: nat)
    requires i < |fields|
    ensures key(fields[i]) in Indexed(fields, key, val)
    ensures exists k :: i <= k < |fields| && Indexed(fields, key, val)[key(fields[i])] == val(fields[k])
    decreases |fields| - i
  {
    if forall j :: i < j < |fields| ==> key(fields[j]) != key(fields[i]) {
      IndexedLastWriter(fields, key, val, i);
    } else {
      var j :| i < j < |fields| && key(fields[j]) == key(fields[i]);
      LastWith(fields, key, val, j);
    }
  }

  /** `getSqlParameters` maps exactly the parameters, each to the type of the
      last field that uses it. */
  lemma ParameterTypes(fields: seq<ClassField>, i: nat)
    requires i < |fields|
    requires forall j :: i < j < |fields| ==> fields[j].dbParameter != fields[i].dbParameter
    ensures Indexed(fields, Parameter, PdoType).Keys == set k | 0 <= k < |fields| :: fields[k].dbParameter
    ensures Indexed(fields, Parameter, PdoType)[fields[i].dbParameter] == fields[i].dbType
  {
    IndexedKeys(fields, Parameter, PdoType);
    IndexedLastWriter(fields, Parameter, PdoType, i);
  }
}

=== FILE: console_helper.dfy ===
/**
 * The command-line helper: argument set-up, lookups over the parsed
 * arguments, and the bounded prompt-and-retry loop. Standard input is the
 * sequence of values `getLine()` returns (each already trimmed); a read past
 * the end gives the empty string, as `trim(fgets(STDIN))` does at end of file.
 */
module ConsoleHelpers {
  import opened Wrappers
  import opened Php
  import opened ReturnHelpers
  import opened Functions

  /** `$argInfo` once set: the raw count and vector, and the parsed arguments
      (null when there is at most one argument). */
  datatype ArgInfo = ArgInfo(argc: int, argv: seq<string>, arga: Option<map<string, ArgValue>>)

  function Rest(argv: seq<string>): seq<string> {
    if |argv| > 0 then argv[1..] else []
  }

  function First(argv: seq<string>): Option<string> {
    if |argv| > 0 then Some(argv[0]) else None
  }

  /** The TypeError PHP raises when a lookup runs over null parsed arguments. */
  const NullArgs := "Argument #2 ($array) must be of type array, null given"

  class ConsoleHelper {
    var argInfo: Option<ArgInfo>
    var self: Option<string>
    var forceCli: bool

    constructor (argc: Option<int>, argv: Option<seq<string>>, forceCli: bool)
      ensures argc.None? || argv.None? ==> argInfo.None? && self.None?
      ensures argc.Some? && argv.Some? && argc.value > 1 ==>
        argInfo == Some(ArgInfo(argc.value, argv.value, Some(AssignAll(map[], EntriesFrom(Rest(argv.value), 0), false))))
      ensures argc.Some? && argv.Some? && argc.value <= 1 ==> argInfo == Some(ArgInfo(argc.value, argv.value, None))
      ensures argc.Some? && argv.Some? ==> self == First(argv.value)
      ensures this.forceCli == forceCli
    {
      this.forceCli := forceCli;
      if argc.None? || argv.None? {
        argInfo := None;
        self := None;
      } else if argc.value > 1 {
        self := First(argv.value);
        var arga := ParseParams(Rest(argv.value), false);
        argInfo := Some(ArgInfo(argc.value, argv.value, Some(arga)));
      } else {
        self := First(argv.value);
        argInfo := Some(ArgInfo(argc.value, argv.value, None));
      }
    }

    /** `getParameterWithDefault($short, $long, $default)` */
    function GetParameterWithDefault(short: string, long: string, default: Option<ArgValue>): (r: Result<Option<ArgValue>>)
      reads this
      ensures r.Failure? <==> argInfo.Some? && argInfo.value.arga.None?
      ensures r.Success? && argInfo.Some? ==>
        var a := argInfo.value.arga.value;
        r.value == if short in a then Some(a[short]) else if long in a then Some(a[long]) else default
      ensures argInfo.None? ==> r == Success(default)
    {
      match argInfo
      case None => Success(default)
      case Some(info) =>
        match info.arga
        case None => Failure(NullArgs)
        case Some(a) =>
          if short in a || long in a then Success(if short in a then Some(a[short]) else Some(a[long]))
          else Success(default)
    }

    /** `hasShortLongArg($short, $long, $caseInsensitive)`; string keys are
        compared as strings. */
    function HasShortLongArg(short: string, long: string, caseInsensitive: bool): (r: Result<bool>)
      reads this
      ensures argInfo.None? || argInfo.value.argc < 1 ==> r == Success(false)
      ensures r.Failure? <==> argInfo.Some? && argInfo.value.argc >= 1 && argInfo.value.arga.None?
      ensures r.Success? && argInfo.Some? && argInfo.value.argc >= 1 ==>
        var a := argInfo.value.arga.value;
        (r.value <==> if caseInsensitive then exists k :: k in a && (ToLower(k) == ToLower(short) || ToLower(k) == ToLower(long))
                      else short in a || long in a)
    {
      if argInfo.None? || argInfo.value.argc < 1 then Success(false)
      else match argInfo.value.arga
        case None => Failure(NullArgs)
        case Some(a) =>
          if caseInsensitive then
            var ls := ToLower(short);
            var ll := ToLower(long);
            Success(exists k :: k in a && (ToLower(k) == ls || ToLower(k) == ll))
          else Success(short in a || long in a)
    }
  }

  /** A case-sensitive hit is also a case-insensitive hit. */
  lemma CaseSensitiveHitIsCaseInsensitiveHit(h: ConsoleHelper, short: string, long: string)
    requires h.HasShortLongArg(short, long, false) == Success(true)
    ensures h.HasShortLongArg(short, long, true) == Success(true)
  {
    var a := h.argInfo.value.arga.value;
    if short in a {
      assert ToLower(short) == ToLower(short);
    } else {
      assert long in a;
    }
  }

  /** A helper built from at least two arguments looks a long option up in
      what the argument parser stored for it; one built from one argument
      cannot look anything up. */
  lemma {:induction false} ConstructedLookups(h: ConsoleHelper, argc: int, argv: seq<string>, long: string, default: Option<ArgValue>)
    requires h.argInfo.Some? && h.argInfo.value.argc == argc && h.argInfo.value.argv == argv
    requires argc > 1 ==> h.argInfo.value.arga == Some(AssignAll(map[], EntriesFrom(Rest(argv), 0), false))
    requires argc <= 1 ==> h.argInfo.value.arga.None?
    ensures argc <= 1 ==> h.GetParameterWithDefault("", long, default).Failure?
    ensures argc > 1 && (forall j :: 0 <= j < |EntriesFrom(Rest(argv), 0)| ==> EntriesFrom(Rest(argv), 0)[j].0 != "") ==>
      var es := EntriesFrom(Rest(argv), 0);
      (forall j :: 0 <= j < |es| && es[j].0 == long && (forall j' :: j < j' < |es| ==> es[j'].0 != long) ==>
        h.GetParameterWithDefault("", long, default) == Success(Some(es[j].1))) &&
      ((forall j :: 0 <= j < |es| ==> es[j].0 != long) ==> h.GetParameterWithDefault("", long, default) == Success(default))
  {
    if argc > 1 {
      var es := EntriesFrom(Rest(argv), 0);
      LastAssignmentWins(map[], es, false, long);
      LastAssignmentWins(map[], es, false, "");
    }
  }

  // =========================================================================
  // getQueriedInput

  /** What a validator returns: a plain boolean or a ReturnHelper. */
  datatype Verdict = Plain(ok: bool) | Helper(outcome: Outcome<string>)

  /** What a sanitiser returns: a value, or a ReturnHelper that replaces the result. */
  datatype Sanitized = Value(s: string) | Replaced(outcome: Outcome<string>)

  /** How `getQueriedInput` ends: it returns a ReturnHelper, dies on calling
      `isGood()` on a boolean, or keeps prompting forever. */
  datatype QueryEnd = Returned(outcome: Outcome<string>) | Crashed | Endless

  const Exceeded := "Exceeded maximum number of attempts."

  function Prompt(query: string, default: Option<string>): (p: string)
    ensures default.None? ==> p == query + ": "
    ensures default.Some? ==> p == query + " [" + default.value + "]: "
  {
    query + (if default.Some? then " [" + default.value + "]" else "") + ": "
  }

  /** The default validator: the trimmed value is not `empty()`. */
  function DefaultValidation(v: string): Verdict {
    Plain(!EmptyString(Trim(v)))
  }

  function DefaultSanitation(v: string): Sanitized {
    Value(Trim(v))
  }

  /** The `k`-th value `getLine()` returns; past the end of input it is "". */
  function Read(lines: seq<string>, k: nat): string {
    if k < |lines| then lines[k] else ""
  }

  /** Read `k` ends the loop with a value: empty with a default, or valid. */
  predicate Accepts(lines: seq<string>, k: nat, default: Option<string>, validation: string -> Verdict) {
    (EmptyString(Read(lines, k)) && default.Some?) ||
    validation(Read(lines, k)) == Plain(true) ||
    (validation(Read(lines, k)).Helper? && validation(Read(lines, k)).outcome.IsGood())
  }

  /** Read `k` ends the loop one way or the other. */
  predicate Stops(lines: seq<string>, k: nat, default: Option<string>, validation: string -> Verdict) {
    Accepts(lines, k, default, validation) || validation(Read(lines, k)) == Plain(false)
  }

  /** Read `j` is the first to stop the loop. */
  predicate FirstStop(lines: seq<string>, j: nat, default: Option<string>, validation: string -> Verdict) {
    Stops(lines, j, default, validation) && forall k: nat :: k < j ==> !Stops(lines, k, default, validation)
  }

  lemma FirstStopUnique(lines: seq<string>, j: nat, j': nat, default: Option<string>, validation: string -> Verdict)
    requires FirstStop(lines, j, default, validation) && FirstStop(lines, j', default, validation)
    ensures j == j'
  {
  }

  /** Every read past the end of input is the same empty line. */
  lemma StopsPastEnd(lines: seq<string>, k: nat, default: Option<string>, validation: string -> Verdict)
    ensures k >= |lines| ==> (Stops(lines, k, default, validation) <==> Stops(lines, |lines|, default, validation))
  {
  }

  /** What read `k` returns when it stops the loop. */
  function StopAt(lines: seq<string>, k: nat, default: Option<string>, validation: string -> Verdict, sanitation: string -> Sanitized): QueryEnd {
    var v := Read(lines, k);
    if EmptyString(v) && default.Some? then Returned(Fresh<string>().(status := GUD, results := [default.value]))
    else if !Accepts(lines, k, default, validation) then Crashed
    else match sanitation(v)
      case Value(s) => Returned(Fresh<string>().(status := GUD, results := [s]))
      case Replaced(o) => Returned(o)
  }

  /** The line printed after a rejected read. */
  function ErrorLine(errorMessage: string, verdict: Verdict): string {
    if verdict.Helper? && |verdict.outcome.messages| >= 1 then errorMessage + " (" + verdict.outcome.messages[0] + ")\n"
    else errorMessage + "\n"
  }

  /** Everything written for the first `n` reads, all rejected: prompt, then error line. */
  function Transcript(lines: seq<string>, n: nat, prompt: string, errorMessage: string, validation: string -> Verdict): seq<string>
  {
    if n == 0 then []
    else Transcript(lines, n - 1, prompt, errorMessage, validation) + [prompt, ErrorLine(errorMessage, validation(Read(lines, n - 1)))]
  }

  /** How many reads the loop can make: `maxTries`, or, without a usable
      limit, up to and including the first read at end of input. */
  function Bound(lines: seq<string>, maxTries: int): nat {
    if maxTries >= 1 then maxTries else |lines| + 1
  }

  /** The fixed inputs of one `getQueriedInput` call, the null validator and
      sanitiser already replaced by the defaults. */
  datatype Asking = Asking(lines: seq<string>, default: Option<string>, maxTries: int, validation: string -> Verdict,
                           sanitation: string -> Sanitized, prompt: string, errorMessage: string)
  {
    predicate StopsAt(k: nat) { Stops(lines, k, default, validation) }
    function Tries(): nat { Bound(lines, maxTries) }
    function Rejection(k: nat): seq<string> { [prompt, ErrorLine(errorMessage, validation(Read(lines, k)))] }
    function Echoed(n: nat): seq<string> { Transcript(lines, n, prompt, errorMessage, validation) }
  }

  /** The loop from read `k` on, having written `written`: how it ends and
      everything it writes. Once a read at end of input is rejected with no
      limit, every later read is the same and is rejected too: the loop is
      endless. */
  function QueryFrom(a: Asking, k: nat, written: seq<string>): (QueryEnd, seq<string>)
    requires k < a.Tries()
    decreases a.Tries() - k
  {
    if a.StopsAt(k) then (StopAt(a.lines, k, a.default, a.validation, a.sanitation), written + [a.prompt])
    else if k + 1 == a.maxTries then (Returned(BadWith(Exceeded)), written + a.Rejection(k))
    else if k + 1 == a.Tries() then (Endless, written + a.Rejection(k))
    else QueryFrom(a, k + 1, written + a.Rejection(k))
  }

  function AskingOf(lines: seq<string>, query: string, default: Option<string>, errorMessage: string, maxTries: int,
                    validation: Option<string -> Verdict>, sanitation: Option<string -> Sanitized>): Asking
  {
    Asking(lines, default, maxTries, validation.GetOr(DefaultValidation), sanitation.GetOr(DefaultSanitation),
           Prompt(query, default), errorMessage)
  }

  function Query(lines: seq<string>, query: string, default: Option<string>, errorMessage: string, maxTries: int,
                 validation: Option<string -> Verdict>, sanitation: Option<string -> Sanitized>): (QueryEnd, seq<string>)
  {
    QueryFrom(AskingOf(lines, query, default, errorMessage, maxTries, validation, sanitation), 0, [])
  }

  /**
   * `getQueriedInput($query, $defaultValue, $errorMessage, $maxTries, $validation, $sanitation)`
   * over the input lines; `written` is what it echoes.
   */
  method GetQueriedInput(lines: seq<string>, query: string, default: Option<string>, errorMessage: string, maxTries: int,
                         validation: Option<string -> Verdict>, sanitation: Option<string -> Sanitized>)
    returns (end: QueryEnd, written: seq<string>)
    ensures (end, written) == Query(lines, query, default, errorMessage, maxTries, validation, sanitation)
  {
    var valid := validation.GetOr(DefaultValidation);
    var sanitize := sanitation.GetOr(DefaultSanitation);
    var prompt := query;
    if default.Some? {
      prompt := prompt + " [" + default.value + "]";
    }
    prompt := prompt + ": ";
    ghost var a := AskingOf(lines, query, default, errorMessage, maxTries, validation, sanitation);
    assert prompt == a.prompt && valid == a.validation && sanitize == a.sanitation;
    ghost var whole := QueryFrom(a, 0, []);
    written := [];
    var attempts := 0;
    var bound := if maxTries >= 1 then maxTries else |lines| + 1;
    while true
      invariant 0 <= attempts < bound == a.Tries()
      invariant QueryFrom(a, attempts, written) == whole
      decreases bound - attempts
    {
      ghost var before := written;
      written := written + [prompt];
      var v := Read(lines, attempts);
      if EmptyString(v) && default.Some? {
        assert a.StopsAt(attempts);
        end := StopAt(lines, attempts, default, valid, sanitize);
        return;
      }
      var verdict := valid(v);
      if verdict == Plain(false) {
        assert a.StopsAt(attempts);
        end := Crashed;
        return;
      }
      if verdict == Plain(true) || verdict.outcome.IsGood() {
        assert a.StopsAt(attempts);
        var s := sanitize(v);
        if s.Replaced? {
          end := Returned(s.outcome);
        } else {
          end := Returned(Fresh<string>().(status := GUD, results := [s.s]));
        }
        return;
      }
      assert !a.StopsAt(attempts);
      written := written + [ErrorLine(errorMessage, verdict)];
      assert written == before + a.Rejection(attempts);
      attempts := attempts + 1;
      if attempts == maxTries {
        end := Returned(BadWith(Exceeded));
        return;
      }
      if attempts == bound {
        end := Endless;
        return;
      }
    }
  }

  /** Up to the first read that stops the loop, the run is the same from any
      earlier read. */
  lemma {:induction false} QueryUntilFirstStop(a: Asking, k: nat, j: nat)
    requires k <= j < a.Tries()
    requires FirstStop(a.lines, j, a.default, a.validation)
    ensures QueryFrom(a, k, a.Echoed(k)) == (StopAt(a.lines, j, a.default, a.validation, a.sanitation), a.Echoed(j) + [a.prompt])
    decreases j - k
  {
    if k < j {
      assert !a.StopsAt(k);
      assert a.Echoed(k + 1) == a.Echoed(k) + a.Rejection(k);
      QueryUntilFirstStop(a, k + 1, j);
    }
  }

  /** The first read that stops the loop, within the allowed tries, decides
      how it ends; before it the loop prompts and prints an error per
      rejected read. Empty input with a default returns GUD with the default
      without consulting the validator. */
  lemma FirstStopDecides(lines: seq<string>, query: string, default: Option<string>, errorMessage: string, maxTries: int,
                         validation: Option<string -> Verdict>, sanitation: Option<string -> Sanitized>, j: nat)
    requires maxTries <= 0 || j < maxTries
    requires FirstStop(lines, j, default, validation.GetOr(DefaultValidation))
    ensures var (end, written) := Query(lines, query, default, errorMessage, maxTries, validation, sanitation);
      end == StopAt(lines, j, default, validation.GetOr(DefaultValidation), sanitation.GetOr(DefaultSanitation)) &&
      written == Transcript(lines, j, Prompt(query, default), errorMessage, validation.GetOr(DefaultValidation)) + [Prompt(query, default)]
  {
    StopsPastEnd(lines, j, default, validation.GetOr(DefaultValidation));
    QueryUntilFirstStop(AskingOf(lines, query, default, errorMessage, maxTries, validation, sanitation), 0, j);
  }

  /** With all reads rejected from `k` on, the loop prints a prompt and an
      error per read and then gives up. */
  lemma {:induction false} QueryRejectsFrom(a: Asking, k: nat)
    requires k < a.Tries()
    requires forall i: nat :: k <= i < a.Tries() ==> !a.StopsAt(i)
    ensures QueryFrom(a, k, a.Echoed(k)) ==
      (if a.maxTries >= 1 then Returned(BadWith(Exceeded)) else Endless, a.Echoed(a.Tries()))
    decreases a.Tries() - k
  {
    assert !a.StopsAt(k);
    assert a.Echoed(k + 1) == a.Echoed(k) + a.Rejection(k);
    if k + 1 < a.Tries() {
      QueryRejectsFrom(a, k + 1);
    }
  }

  /** After exactly `maxTries` rejected reads the result is BAD with the single
      message "Exceeded maximum number of attempts.". */
  lemma GivesUpAfterMaxTries(lines: seq<string>, query: string, default: Option<string>, errorMessage: string, maxTries: int,
                             validation: Option<string -> Verdict>, sanitation: Option<string -> Sanitized>)
    requires maxTries >= 1
    requires forall k: nat :: k < maxTries ==> !Stops(lines, k, default, validation.GetOr(DefaultValidation))
    ensures var (end, written) := Query(lines, query, default, errorMessage, maxTries, validation, sanitation);
      end == Returned(BadWith(Exceeded)) && end.outcome.IsBad() &&
      written == Transcript(lines, maxTries, Prompt(query, default), errorMessage, validation.GetOr(DefaultValidation))
  {
    QueryRejectsFrom(AskingOf(lines, query, default, errorMessage, maxTries, validation, sanitation), 0);
  }

  /** Without a positive limit the loop is endless exactly when every read up
      to and including the first one at end of input is rejected. */
  lemma EndlessWithoutLimit(lines: seq<string>, query: string, default: Option<string>, errorMessage: string, maxTries: int,
                            validation: Option<string -> Verdict>, sanitation: Option<string -> Sanitized>)
    ensures Query(lines, query, default, errorMessage, maxTries, validation, sanitation).0 == Endless <==>
      maxTries <= 0 && forall k: nat :: k <= |lines| ==> !Stops(lines, k, default, validation.GetOr(DefaultValidation))
  {
    var a := AskingOf(lines, query, default, errorMessage, maxTries, validation, sanitation);
    if maxTries <= 0 && forall k: nat :: k <= |lines| ==> !Stops(lines, k, default, a.validation) {
      QueryRejectsFrom(a, 0);
    } else if maxTries >= 1 && forall k: nat :: k < maxTries ==> !Stops(lines, k, default, a.validation) {
      GivesUpAfterMaxTries(lines, query, default, errorMessage, maxTries, validation, sanitation);
    } else {
      var j: nat :| j < a.Tries() && Stops(lines, j, default, a.validation);
      var first := FirstStopBelow(lines, j, default, a.validation);
      FirstStopDecides(lines, query, default, errorMessage, maxTries, validation, sanitation, first);
    }
  }

  /** Some read up to `j` is the first to stop. */
  lemma {:induction false} FirstStopBelow(lines: seq<string>, j: nat, default: Option<string>, validation: string -> Verdict) returns (first: nat)
    requires Stops(lines, j, default, validation)
    ensures first <= j && FirstStop(lines, first, default, validation)
    decreases j
  {
    if forall k: nat :: k < j ==> !Stops(lines, k, default, validation) {
      first := j;
    } else {
      var k: nat :| k < j && Stops(lines, k, default, validation);
      first := FirstStopBelow(lines, k, default, validation);
    }
  }
}

=== FILE: functions.dfy ===
/**
 * Two string routines from the global function library: the HTML-aware word
 * wrapper and the command-line argument parser.
 */
module Functions {
  import opened Wrappers
  import opened Php

  // =========================================================================
  // wordWrapIgnoreHTML

  /** A piece of the wrapped output: copied text, or an inserted wrap string. */
  datatype Piece = Chars(text: string) | Break

  /** When a pending word is flushed before an angle bracket. The source
      tests `!empty($word)` before `'<'`, which skips the word "0", and never
      flushes before `'>'`; the intended rule flushes any non-empty word
      before either bracket. */
  datatype FlushRule = PhpEmpty | NonBlank

  predicate Flushes(rule: FlushRule, word: string) {
    match rule
    case PhpEmpty => !EmptyString(word)
    case NonBlank => word != ""
  }

  predicate FlushesAtClose(rule: FlushRule, word: string) {
    rule == NonBlank && word != ""
  }

  /** The loop's variables: output so far, the pending word, inside a tag or not. */
  datatype WrapState = WrapState(out: seq<Piece>, word: string, html: bool)

  predicate IsBreakingSpace(c: char) {
    c == ' ' || c == '\t' || c == '\n'
  }

  /** One iteration of the loop. */
  function Step(st: WrapState, c: char, length: int, rule: FlushRule): WrapState {
    if c == '<' then
      if Flushes(rule, st.word) then WrapState(st.out + [Chars(st.word), Chars("<")], "", true)
      else WrapState(st.out + [Chars("<")], st.word, true)
    else if c == '>' then
      if FlushesAtClose(rule, st.word) then WrapState(st.out + [Chars(st.word), Chars(">")], "", false)
      else WrapState(st.out + [Chars(">")], st.word, false)
    else if st.html then WrapState(st.out + [Chars([c])], st.word, true)
    else if IsBreakingSpace(c) then WrapState(st.out + [Chars(st.word + [c])], "", false)
    else
      var w := st.word + [c];
      if |w| > length then WrapState(st.out + [Chars(w), Break], "", false)
      else WrapState(st.out, w, false)
  }

  /** The loop run over a whole prefix. */
  function Run(s: string, length: int, rule: FlushRule): WrapState
    decreases |s|
  {
    if s == [] then WrapState([], "", false)
    else Step(Run(s[..|s| - 1], length, rule), s[|s| - 1], length, rule)
  }

  /** The pieces `wordWrapIgnoreHTML` emits, the final word flushed. */
  function WrapPieces(s: string, length: int, rule: FlushRule): seq<Piece> {
    var st := Run(s, length, rule);
    if st.word != "" then st.out + [Chars(st.word)] else st.out
  }

  function PieceText(p: Piece, wrapString: string): string {
    match p
    case Chars(t) => t
    case Break => wrapString
  }

  /** The output text, with each wrap point spelt as `wrapString`. */
  function Render(ps: seq<Piece>, wrapString: string): string
    decreases |ps|
  {
    if ps == [] then ""
    else Render(ps[..|ps| - 1], wrapString) + PieceText(ps[|ps| - 1], wrapString)
  }

  /** The output text with the inserted wrap strings removed. */
  function Plain(ps: seq<Piece>): string {
    Render(ps, "")
  }

  /** Rendering is piecewise; the loop of `WordWrapIgnoreHtml` and `PlainStep`
      use it to follow the output one piece at a time. */
  lemma RenderAppend(ps: seq<Piece>, p: Piece, wrapString: string)
    ensures Render(ps + [p], wrapString) == Render(ps, wrapString) + PieceText(p, wrapString)
  {
    assert (ps + [p])[..|ps|] == ps;
  }

  lemma RenderAppend2(ps: seq<Piece>, p: Piece, p': Piece, wrapString: string)
    ensures Render(ps + [p, p'], wrapString) == Render(ps, wrapString) + PieceText(p, wrapString) + PieceText(p', wrapString)
  {
    RenderAppend(ps, p, wrapString);
    RenderAppend(ps + [p], p', wrapString);
    assert ps + [p] + [p'] == ps + [p, p'];
  }

  /**
   * `wordWrapIgnoreHTML($s, $length, $wrapString)` as the source writes it.
   */
  method WordWrapIgnoreHtml(s: string, length: int, wrapString: string) returns (wrapped: string)
    ensures wrapped == Render(WrapPieces(s, length, PhpEmpty), wrapString)
  {
    wrapped := "";
    var word := "";
    var html := false;
    var i := 0;
    while i < |s|
      invariant 0 <= i <= |s|
      invariant Run(s[..i], length, PhpEmpty) == WrapState(Run(s[..i], length, PhpEmpty).out, word, html)
      invariant wrapped == Render(Run(s[..i], length, PhpEmpty).out, wrapString)
    {
      ghost var before := Run(s[..i], length, PhpEmpty);
      assert s[..i + 1][..i] == s[..i];
      var c := s[i];
      ghost var after := Step(before, c, length, PhpEmpty);
      assert Run(s[..i + 1], length, PhpEmpty) == after;
      if c == '<' {
        if !EmptyString(word) {
          RenderAppend2(before.out, Chars(word), Chars("<"), wrapString);
          wrapped := wrapped + word;
          word := "";
        } else {
          RenderAppend(before.out, Chars("<"), wrapString);
        }
        html := true;
        wrapped := wrapped + [c];
      } else if c == '>' {
        RenderAppend(before.out, Chars(">"), wrapString);
        html := false;
        wrapped := wrapped + [c];
      } else if html {
        RenderAppend(before.out, Chars([c]), wrapString);
        wrapped := wrapped + [c];
      } else if c == ' ' || c == '\t' || c == '\n' {
        RenderAppend(before.out, Chars(word + [c]), wrapString);
        wrapped := wrapped + word + [c];
        word := "";
      } else {
        word := word + [c];
        if |word| > length {
          RenderAppend2(before.out, Chars(word), Break, wrapString);
          wrapped := wrapped + word + wrapString;
          word := "";
        }
      }
      assert wrapped == Render(after.out, wrapString);
      i := i + 1;
    }
    assert s[..i] == s;
    if word != "" {
      RenderAppend(Run(s, length, PhpEmpty).out, Chars(word), wrapString);
      wrapped := wrapped + word;
    }
  }

  /** Whether a prefix ends inside a tag: its last angle bracket is `'<'`. */
  predicate InTag(p: string)
    decreases |p|
  {
    if p == [] then false
    else if p[|p| - 1] == '<' then true
    else if p[|p| - 1] == '>' then false
    else InTag(p[..|p| - 1])
  }

  /** Every `'>'` closes a tag that a `'<'` opened. */
  predicate ClosesOnlyTags(s: string) {
    forall k :: 0 <= k < |s| && s[k] == '>' ==> InTag(s[..k])
  }

  /** The loop's `$html` flag is exactly "inside a tag", and with the intended
      flush rule no word is pending inside a tag. */
  lemma {:induction false} RunInvariant(p: string, length: int, rule: FlushRule)
    ensures Run(p, length, rule).html == InTag(p)
    ensures rule == NonBlank && InTag(p) ==> Run(p, length, rule).word == ""
    decreases |p|
  {
    if p != [] {
      RunInvariant(p[..|p| - 1], length, rule);
    }
  }

  /** One step keeps "emitted text plus pending word is the text read". */
  lemma PlainStep(st: WrapState, c: char, length: int, q: string)
    requires Plain(st.out) + st.word == q
    requires st.html ==> st.word == ""
    ensures Plain(Step(st, c, length, NonBlank).out) + Step(st, c, length, NonBlank).word == q + [c]
  {
    var st' := Step(st, c, length, NonBlank);
    if (c == '<' || c == '>') && st.word != "" {
      assert st'.out == st.out + [Chars(st.word), Chars([c])] && st'.word == "";
      RenderAppend2(st.out, Chars(st.word), Chars([c]), "");
    } else if c == '<' || c == '>' || st.html {
      assert st'.out == st.out + [Chars([c])] && st'.word == st.word == "";
      RenderAppend(st.out, Chars([c]), "");
    } else if IsBreakingSpace(c) {
      assert st'.out == st.out + [Chars(st.word + [c])] && st'.word == "";
      RenderAppend(st.out, Chars(st.word + [c]), "");
    } else if |st.word + [c]| > length {
      assert st'.out == st.out + [Chars(st.word + [c]), Break] && st'.word == "";
      RenderAppend2(st.out, Chars(st.word + [c]), Break, "");
    } else {
      assert st'.out == st.out && st'.word == st.word + [c];
    }
  }

  /** Without the inserted wrap strings, what is emitted plus the pending word
      is the text read so far. */
  lemma {:induction false} PlainPrefix(p: string, length: int)
    ensures Plain(Run(p, length, NonBlank).out) + Run(p, length, NonBlank).word == p
    decreases |p|
  {
    if p != [] {
      var q := p[..|p| - 1];
      var c := p[|p| - 1];
      PlainPrefix(q, length);
      RunInvariant(q, length, NonBlank);
      var st := Run(q, length, NonBlank);
      assert Run(p, length, NonBlank) == Step(st, c, length, NonBlank);
      PlainStep(st, c, length, q);
      assert p == q + [c];
    }
  }

  /** With the intended flush rule, removing the inserted wrap strings gives the
      input back, whatever the angle brackets in it. */
  lemma WrapKeepsText(s: string, length: int)
    ensures Plain(WrapPieces(s, length, NonBlank)) == s
  {
    PlainPrefix(s, length);
    var st := Run(s, length, NonBlank);
    if st.word != "" {
      RenderAppend(st.out, Chars(st.word), "");
    }
  }

  /** The source's `!empty($word)` test keeps a pending "0" across a tag, so
      "0<b>" comes out as "<b>0". */
  lemma ZeroWordMovesPastTag()
    ensures Render(WrapPieces("0<b>", 55, PhpEmpty), "\n") == "<b>0"
    ensures ClosesOnlyTags("0<b>")
  {
    var s := "0<b>";
    assert s[..0] == [];
    assert s[..1] == "0";
    assert s[..2] == "0<";
    assert s[..3] == "0<b";
    assert s[..4] == s;
    assert Run("0", 55, PhpEmpty) == WrapState([], "0", false);
    assert Run("0<", 55, PhpEmpty) == WrapState([Chars("<")], "0", true);
    assert Run("0<b", 55, PhpEmpty) == WrapState([Chars("<"), Chars("b")], "0", true);
    assert Run(s, 55, PhpEmpty) == WrapState([Chars("<"), Chars("b"), Chars(">")], "0", false);
    var ps := [Chars("<"), Chars("b"), Chars(">"), Chars("0")];
    assert WrapPieces(s, 55, PhpEmpty) == ps;
    assert ps[..3][..2][..1][..0] == [];
    assert InTag(s[..3]);
  }

  /** The source never flushes before `'>'`, so a `'>'` outside any tag jumps
      ahead of the pending word: "a->b" comes out as ">a-b". */
  lemma StrayCloseMovesPastWord()
    ensures Render(WrapPieces("a->b", 55, PhpEmpty), "\n") == ">a-b"
    ensures !ClosesOnlyTags("a->b")
  {
    var s := "a->b";
    assert s[..0] == [];
    assert s[..1] == "a";
    assert s[..2] == "a-";
    assert s[..3] == "a->";
    assert s[..4] == s;
    assert Run("a", 55, PhpEmpty) == WrapState([], "a", false);
    assert Run("a-", 55, PhpEmpty) == WrapState([], "a-", false);
    assert Run("a->", 55, PhpEmpty) == WrapState([Chars(">")], "a-", false);
    assert Run(s, 55, PhpEmpty) == WrapState([Chars(">")], "a-b", false);
    var ps := [Chars(">"), Chars("a-b")];
    assert WrapPieces(s, 55, PhpEmpty) == ps;
    assert ps[..1][..0] == [];
    assert !InTag(s[..2]);
  }

  /** Each wrap string follows a word of exactly `length` + 1 characters (one
      character when `length` is negative), and the pending word stays shorter. */
  lemma {:induction false} BreaksFollowFullWords(p: string, length: int, rule: FlushRule)
    ensures var st := Run(p, length, rule);
      (forall k :: 0 <= k < |st.out| && st.out[k] == Break ==>
        k > 0 && st.out[k - 1].Chars? && |st.out[k - 1].text| == (if length >= 0 then length + 1 else 1)) &&
      |st.word| <= (if length >= 0 then length else 0)
    decreases |p|
  {
    if p != [] {
      BreaksFollowFullWords(p[..|p| - 1], length, rule);
      StepKeepsFullWords(Run(p[..|p| - 1], length, rule), p[|p| - 1], length, rule);
    }
  }

  /** Every wrap point follows a word one longer than the limit, and the
      pending word is within it. */
  predicate FullWordsBroken(st: WrapState, length: int) {
    (forall k :: 0 <= k < |st.out| && st.out[k] == Break ==>
      k > 0 && st.out[k - 1].Chars? && |st.out[k - 1].text| == (if length >= 0 then length + 1 else 1)) &&
    |st.word| <= (if length >= 0 then length else 0)
  }

  lemma StepKeepsFullWords(st: WrapState, c: char, length: int, rule: FlushRule)
    requires FullWordsBroken(st, length)
    ensures FullWordsBroken(Step(st, c, length, rule), length)
  {
    var next := Step(st, c, length, rule);
    assert next.out[..|st.out|] == st.out;
    forall k | 0 <= k < |next.out| && next.out[k] == Break
      ensures k > 0 && next.out[k - 1].Chars? && |next.out[k - 1].text| == (if length >= 0 then length + 1 else 1)
    {
      if k < |st.out| {
        assert next.out[k] == st.out[k] && next.out[k - 1] == st.out[k - 1];
      }
    }
  }

  // =========================================================================
  // env_parse_params

  /** A parsed argument's value: a string, or `true` for a bare switch. */
  datatype ArgValue = Text(s: string) | Flag

  /** The first index of `c` in `s`, which must occur. */
  function FirstIndex(s: string, c: char): (i: nat)
    requires c in s
    ensures i < |s| && s[i] == c && c !in s[..i]
  {
    IndexOf(s, c).value
  }

  /** `'-'` or `'='` occurs, and not only as the last character. */
  predicate UsableSeparator(key: string, c: char) {
    c in key && FirstIndex(key, c) != |key| - 1
  }

  predicate DashLed(a: string) {
    |a| > 1 && a[0] == '-'
  }

  /** `substr($arg, $arg[1] == '-' ? 2 : 1)` */
  function StripDashes(a: string): string
    requires DashLed(a)
  {
    if a[1] == '-' then a[2..] else a[1..]
  }

  /** The assignment the loop makes for argument `i`, and where it goes on:
      a dash-led key with no usable separator may consume the next argument. */
  function NextEntry(args: seq<string>, i: nat): (r: ((string, ArgValue), nat))
    requires i < |args|
    ensures i < r.1 <= |args|
  {
    var a := args[i];
    if DashLed(a) then
      var key := StripDashes(a);
      if UsableSeparator(key, '=') then
        var (k, v) := SplitOnce(key, '=');
        ((k, Text(v)), i + 1)
      else if UsableSeparator(key, '-') then
        var (k, v) := SplitOnce(key, '-');
        ((k, Text(v)), i + 1)
      else if i + 1 < |args| && (args[i + 1] == "" || args[i + 1][0] != '-') then
        ((key, Text(args[i + 1])), i + 2)
      else ((key, Flag), i + 1)
    else if '=' in a then
      var (k, v) := SplitOnce(a, '=');
      ((k, Text(v)), i + 1)
    else ((a, Flag), i + 1)
  }

  /** The assignments the loop makes, in order, from argument `i` on. */
  function EntriesFrom(args: seq<string>, i: nat): seq<(string, ArgValue)>
    decreases |args| - i
  {
    if i >= |args| then []
    else [NextEntry(args, i).0] + EntriesFrom(args, NextEntry(args, i).1)
  }

  function KeyOf(k: string, caseInsensitive: bool): string {
    if caseInsensitive then ToLower(k) else k
  }

  /** Storing the assignments in order into `$assoc`. */
  function AssignAll(assoc: map<string, ArgValue>, es: seq<(string, ArgValue)>, caseInsensitive: bool): map<string, ArgValue>
    decreases |es|
  {
    if es == [] then assoc
    else AssignAll(assoc[KeyOf(es[0].0, caseInsensitive) := es[0].1], es[1..], caseInsensitive)
  }

  /** Assigning the entries from argument `i` on is assigning the next entry,
      then the entries after it. */
  lemma AssignAllFrom(assoc: map<string, ArgValue>, args: seq<string>, i: nat, caseInsensitive: bool)
    requires i < |args|
    ensures var next := NextEntry(args, i);
      AssignAll(assoc, EntriesFrom(args, i), caseInsensitive)
        == AssignAll(assoc[KeyOf(next.0.0, caseInsensitive) := next.0.1], EntriesFrom(args, next.1), caseInsensitive)
  {
    var es := EntriesFrom(args, i);
    assert es[0] == NextEntry(args, i).0;
    assert es[1..] == EntriesFrom(args, NextEntry(args, i).1);
  }

  /** `env_parse_params($args, $caseInsensitive)` */
  method ParseParams(args: seq<string>, caseInsensitive: bool) returns (assoc: map<string, ArgValue>)
    ensures assoc == AssignAll(map[], EntriesFrom(args, 0), caseInsensitive)
  {
    assoc := map[];
    var i := 0;
    while i < |args|
      invariant 0 <= i <= |args|
      invariant AssignAll(assoc, EntriesFrom(args, i), caseInsensitive) == AssignAll(map[], EntriesFrom(args, 0), caseInsensitive)
      decreases |args| - i
    {
      AssignAllFrom(assoc, args, i, caseInsensitive);
      var key, value, next := ReadEntry(args, i);
      assoc := assoc[KeyOf(key, caseInsensitive) := value];
      i := next;
    }
  }

  /** One turn of `env_parse_params`'s loop: the key and value it stores for
      argument `i`, and the argument after the ones it consumed. */
  method ReadEntry(args: seq<string>, i: nat) returns (key: string, value: ArgValue, next: nat)
    requires i < |args|
    ensures ((key, value), next) == NextEntry(args, i)
  {
    var a := args[i];
    next := i + 1;
    if |a| > 0 && a[0] == '-' && |a| > 1 {
      var stripped := if a[1] == '-' then a[2..] else a[1..];
      if '=' in stripped && FirstIndex(stripped, '=') != |stripped| - 1 {
        var (k, v) := SplitOnce(stripped, '=');
        key, value := k, Text(v);
      } else if '-' in stripped && FirstIndex(stripped, '-') != |stripped| - 1 {
        var (k, v) := SplitOnce(stripped, '-');
        key, value := k, Text(v);
      } else if i + 1 < |args| && (args[i + 1] == "" || args[i + 1][0] != '-') {
        key, value, next := stripped, Text(args[i + 1]), i + 2;
      } else {
        key, value := stripped, Flag;
      }
    } else if '=' in a {
      var (k, v) := SplitOnce(a, '=');
      key, value := k, Text(v);
    } else {
      key, value := a, Flag;
    }
  }

  /** A key's value is the one its last assignment gave; keys nobody assigns
      keep their earlier value. */
  lemma {:induction false} LastAssignmentWins(assoc: map<string, ArgValue>, es: seq<(string, ArgValue)>, ci: bool, k: string)
    ensures var r := AssignAll(assoc, es, ci);
      (k in r <==> k in assoc || exists j :: 0 <= j < |es| && KeyOf(es[j].0, ci) == k) &&
      (forall j :: (0 <= j < |es| && KeyOf(es[j].0, ci) == k &&
          (forall j' :: j < j' < |es| ==> KeyOf(es[j'].0, ci) != k)) ==> r[k] == es[j].1) &&
      ((forall j :: 0 <= j < |es| ==> KeyOf(es[j].0, ci) != k) && k in assoc ==> r[k] == assoc[k])
    decreases |es|
  {
    if es != [] {
      var assoc' := assoc[KeyOf(es[0].0, ci) := es[0].1];
      LastAssignmentWins(assoc', es[1..], ci, k);
      var r := AssignAll(assoc, es, ci);
      forall j | 0 <= j < |es| && KeyOf(es[j].0, ci) == k && (forall j' :: j < j' < |es| ==> KeyOf(es[j'].0, ci) != k)
        ensures r[k] == es[j].1
      {
        if j > 0 {
          assert es[1..][j - 1] == es[j];
          forall j' | j - 1 < j' < |es[1..]| ensures KeyOf(es[1..][j'].0, ci) != k {
            assert es[1..][j'] == es[j' + 1];
          }
        } else {
          forall j' | 0 <= j' < |es[1..]| ensures KeyOf(es[1..][j'].0, ci) != k {
            assert es[1..][j'] == es[j' + 1];
          }
        }
      }
      if exists j :: 0 <= j < |es[1..]| && KeyOf(es[1..][j].0, ci) == k {
        var j :| 0 <= j < |es[1..]| && KeyOf(es[1..][j].0, ci) == k;
        assert es[j + 1] == es[1..][j];
      }
      if (forall j :: 0 <= j < |es| ==> KeyOf(es[j].0, ci) != k) {
        assert KeyOf(es[0].0, ci) != k;
        forall j' | 0 <= j' < |es[1..]| ensures KeyOf(es[1..][j'].0, ci) != k {
          assert es[1..][j'] == es[j' + 1];
        }
      }
    }
  }

  /** Case-insensitive parsing lower-cases the keys and nothing else: it stores
      the same values as case-sensitive parsing of the lower-cased keys. */
  lemma {:induction false} CaseInsensitiveLowersKeysOnly(assoc: map<string, ArgValue>, es: seq<(string, ArgValue)>)
    ensures AssignAll(assoc, es, true) == AssignAll(assoc, seq(|es|, j requires 0 <= j < |es| => (ToLower(es[j].0), es[j].1)), false)
    decreases |es|
  {
    var lowered := seq(|es|, j requires 0 <= j < |es| => (ToLower(es[j].0), es[j].1));
    if es != [] {
      var tail := seq(|es| - 1, j requires 0 <= j < |es| - 1 => (ToLower(es[1..][j].0), es[1..][j].1));
      assert lowered[1..] == tail;
      CaseInsensitiveLowersKeysOnly(assoc[ToLower(es[0].0) := es[0].1], es[1..]);
    }
  }

  /** `-k=v` and `--k=v`, with `'='` not last, assign the text after the first `'='` to `k`. */
  lemma KeyEqualsValue(args: seq<string>, i: nat, dashes: string, k: string, v: string)
    requires i < |args| && args[i] == dashes + k + "=" + v
    requires dashes == "-" || dashes == "--"
    requires '=' !in k && v != ""
    requires k == [] || k[0] != '-'
    ensures NextEntry(args, i) == ((k, Text(v)), i + 1)
  {
    var a := args[i];
    var key := k + "=" + v;
    assert DashLed(a);
    assert StripDashes(a) == key by {
      if dashes == "-" {
        assert a[1..] == key;
        if k == [] { assert a[1] == '='; } else { assert a[1] == k[0]; }
      } else {
        assert a[1] == '-';
        assert a[2..] == key;
      }
    }
    FirstOccurrence(k, '=', v);
    assert UsableSeparator(key, '=');
  }

  /** A dash-led key with no `'='` but an interior `'-'` splits at the first
      `'-'`: `--make-admin` assigns "admin" to `make`. */
  lemma KeyDashValue(args: seq<string>, i: nat, dashes: string, k: string, v: string)
    requires i < |args| && args[i] == dashes + k + "-" + v
    requires dashes == "-" || dashes == "--"
    requires k != "" && '-' !in k && '=' !in k && '=' !in v && v != ""
    ensures NextEntry(args, i) == ((k, Text(v)), i + 1)
  {
    var a := args[i];
    var key := k + "-" + v;
    assert DashLed(a);
    assert StripDashes(a) == key by {
      if dashes == "-" {
        assert a[1..] == key;
        assert a[1] == k[0];
      } else {
        assert a[1] == '-';
        assert a[2..] == key;
      }
    }
    assert '=' !in key by {
      forall t | 0 <= t < |key| ensures key[t] != '=' {
        if t < |k| { assert key[t] == k[t]; }
        else if t > |k| { assert key[t] == v[t - |k| - 1]; }
      }
    }
    FirstOccurrence(k, '-', v);
    assert UsableSeparator(key, '-');
  }

  /** A dash-led switch with no separator takes the next argument as its value
      unless that starts with `'-'`; otherwise, and at the end, it is `true`. */
  lemma SwitchTakesNextArgument(args: seq<string>, i: nat)
    requires i < |args| && DashLed(args[i])
    requires !UsableSeparator(StripDashes(args[i]), '=') && !UsableSeparator(StripDashes(args[i]), '-')
    ensures i + 1 < |args| && (args[i + 1] == "" || args[i + 1][0] != '-') ==>
      NextEntry(args, i) == ((StripDashes(args[i]), Text(args[i + 1])), i + 2)
    ensures i + 1 == |args| || (args[i + 1] != "" && args[i + 1][0] == '-') ==>
      NextEntry(args, i) == ((StripDashes(args[i]), Flag), i + 1)
  {
  }
}

=== FILE: io_helper.dfy ===
/**
 * `IoHelper`: `~` expansion of paths against the core path, the argument
 * checks of `copyFile` and `makeFolder`, and the guard against loading a file
 * twice. The filesystem is a snapshot of which paths exist and which are
 * directories; whether `copy` and `mkdir` succeed is an oracle answer.
 */
module IoHelpers {
  import opened Wrappers
  import opened Php

  /** The filesystem as `file_exists` and `is_dir` see it. */
  datatype FileSystem = FileSystem(files: set<string>, dirs: set<string>) {
    predicate Exists(p: string) { p in files || p in dirs }
    predicate IsDir(p: string) { p in dirs }
  }

  /** `processRoot`: a leading `~` becomes the core path; `~/` drops its slash
      when the core path already ends in one. Out-of-range offsets read as
      the empty string, as PHP does. */
  function ProcessRoot(corePath: string, path: Option<string>): (r: Option<string>)
    ensures r.None? <==> path.None?
    ensures path.Some? && (path.value == [] || path.value[0] != '~') ==> r == path
    ensures path.Some? && path.value != [] && path.value[0] == '~' ==>
      && corePath <= r.value
      && |r.value| >= |corePath| + |path.value| - 2
  {
    match path
    case None => None
    case Some(p) =>
      if |p| > 0 && p[0] == '~' then
        var slashes := |p| > 1 && p[1] == '/' && |corePath| > 0 && corePath[|corePath| - 1] == '/';
        Some(corePath + p[if slashes then 2 else 1..])
      else path
  }

  /** `fileExists`: never for an empty path; a path without `~` is looked up as given. */
  predicate FileExists(corePath: string, fs: FileSystem, path: string)
    ensures FileExists(corePath, fs, path) ==> !EmptyString(path)
    ensures !EmptyString(path) && path[0] != '~' ==> (FileExists(corePath, fs, path) <==> fs.Exists(path))
  {
    !EmptyString(path) && fs.Exists(ProcessRoot(corePath, Some(path)).value)
  }

  /** `folderExists`: never for an empty path; an existing folder is an existing file. */
  predicate FolderExists(corePath: string, fs: FileSystem, path: string)
    ensures FolderExists(corePath, fs, path) ==> !EmptyString(path) && FileExists(corePath, fs, path)
    ensures !EmptyString(path) && path[0] != '~' ==> (FolderExists(corePath, fs, path) <==> fs.IsDir(path))
  {
    !EmptyString(path) && fs.IsDir(ProcessRoot(corePath, Some(path)).value)
  }

  /** `substr($s, -1) == '/'` */
  predicate EndsWithSlash(s: string) {
    |s| > 0 && s[|s| - 1] == '/'
  }

  function InvalidPaths(source: string, dest: string): string {
    "Invalid source or destination path provided to IoHelper::copyFile() -> " + source + ", " + dest
  }

  function NotFiles(source: string, dest: string): string {
    "Neither source nor destination to IoHelper::copyFile() can be directories -> " + source + ", " + dest
  }

  function MissingOrPresent(source: string, dest: string): string {
    "Source file didn't exist or destination already exists in IoHelper::copyFile() -> " + source + ", " + dest
  }

  function CopyFailed(source: string): string {
    "Failed to copy source file, check PHP logs for more information -> " + source
  }

  /** `copyFile`, with `copied` the answer of `copy`. */
  function CopyFile(corePath: string, fs: FileSystem, source: string, dest: string, copied: bool): (r: Result<()>)
    ensures EmptyString(source) || EmptyString(dest) ==> r == Failure(InvalidPaths(source, dest))
    ensures r.Success? ==> copied && FileExists(corePath, fs, source) && !FileExists(corePath, fs, dest)
    ensures !copied ==> r.Failure?
  {
    if EmptyString(source) || EmptyString(dest) then Failure(InvalidPaths(source, dest))
    else if EndsWithSlash(source) || EndsWithSlash(dest) then Failure(NotFiles(source, dest))
    else if !FileExists(corePath, fs, source) || FileExists(corePath, fs, dest) then Failure(MissingOrPresent(source, dest))
    else if !copied then Failure(CopyFailed(source))
    else Success(())
  }

  /** `makeFolder`, with `made` the answer of `mkdir`. The existence check
      expands the already expanded path a second time, as the source does. */
  function MakeFolder(corePath: string, fs: FileSystem, path: string, made: bool): (ok: bool)
    ensures ok ==> made && !EmptyString(path)
  {
    if EmptyString(path) || FolderExists(corePath, fs, ProcessRoot(corePath, Some(path)).value) then false
    else made
  }

  function InvalidLoad(path: string): string { "Invalid file provided for IoHelper::load() -> " + path }
  function AlreadyLoaded(path: string): string { "File has already been loaded -> " + path }

  /** The static `$included` cache, shared by every `IoHelper`. */
  class LoadCache {
    var included: set<string>

    constructor()
      ensures included == {}
    {
      included := {};
    }
  }

  /** The cache after `load(path)`, or the exception it throws. */
  function Loaded(corePath: string, fs: FileSystem, included: set<string>, path: string, allowReload: bool): Result<set<string>> {
    if !FileExists(corePath, fs, path) then Failure(InvalidLoad(path))
    else if path in included && !allowReload then Failure(AlreadyLoaded(path))
    else Success(included + {path})
  }

  /** `IoHelper` */
  class IoHelper {
    const corePath: string

    constructor(corePath: string)
      ensures this.corePath == corePath
    {
      this.corePath := corePath;
    }

    /** `load`: records the raw path, then requires the file (not modelled),
        and returns the path. */
    method Load(cache: LoadCache, fs: FileSystem, path: string, allowReload: bool) returns (r: Result<string>)
      modifies cache
      ensures var res := Loaded(corePath, fs, old(cache.included), path, allowReload);
        && (res.Success? ==> r == Success(path) && cache.included == res.value)
        && (res.Failure? ==> r == Failure(res.error) && cache.included == old(cache.included))
    {
      if !FileExists(corePath, fs, path) {
        return Failure(InvalidLoad(path));
      }
      if path in cache.included && !allowReload {
        return Failure(AlreadyLoaded(path));
      }
      cache.included := cache.included + {path};
      r := Success(path);
    }
  }

  /** The `IoHelper` constructor's check: a null core path, or one that is
      not a directory, is refused. */
  method NewIoHelper(corePath: Option<string>, fs: FileSystem) returns (r: Result<IoHelper>)
    ensures r.Failure? <==> corePath.None? || !fs.IsDir(corePath.value)
    ensures r.Failure? ==> r.error == "Invalid core path provided for IoHelper instance."
    ensures r.Success? ==> fresh(r.value) && r.value.corePath == corePath.value
  {
    if corePath.None? || !fs.IsDir(corePath.value) {
      return Failure("Invalid core path provided for IoHelper instance.");
    }
    var io := new IoHelper(corePath.value);
    r := Success(io);
  }

  // =========================================================================
  // Properties

  /** Null and paths not starting with `~` pass through untouched. */
  lemma ProcessRootKeeps(corePath: string, path: Option<string>)
    requires path.None? || path.value == [] || path.value[0] != '~'
    ensures ProcessRoot(corePath, path) == path
  {
  }

  /** `~/rest` with a core path ending in `/` becomes the core path and `rest`;
      any other `~x` becomes the core path and `x`. */
  lemma ProcessRootExpands(corePath: string, rest: string)
    ensures EndsWithSlash(corePath) ==> ProcessRoot(corePath, Some("~/" + rest)) == Some(corePath + rest)
    ensures !EndsWithSlash(corePath) ==> ProcessRoot(corePath, Some("~/" + rest)) == Some(corePath + "/" + rest)
    ensures rest == [] || rest[0] != '/' ==> ProcessRoot(corePath, Some("~" + rest)) == Some(corePath + rest)
  {
    assert ("~/" + rest)[2..] == rest;
    assert ("~/" + rest)[1..] == "/" + rest;
    assert corePath + ("/" + rest) == corePath + "/" + rest;
    assert ("~" + rest)[1..] == rest;
  }

  /** Expanding twice is expanding once, unless the core path itself is
      empty or starts with `~`; so `makeFolder`'s second expansion only
      matters then. */
  lemma ProcessRootIdempotent(corePath: string, path: Option<string>)
    requires |corePath| > 0 && corePath[0] != '~'
    ensures ProcessRoot(corePath, ProcessRoot(corePath, path)) == ProcessRoot(corePath, path)
  {
  }

  /** `copyFile` checks its arguments before looking at the filesystem: an
      empty path, then a trailing `/`, fails the same way whatever exists. */
  lemma CopyFileChecksArgumentsFirst(corePath: string, fs1: FileSystem, fs2: FileSystem, source: string, dest: string, c1: bool, c2: bool)
    requires EmptyString(source) || EmptyString(dest) || EndsWithSlash(source) || EndsWithSlash(dest)
    ensures CopyFile(corePath, fs1, source, dest, c1) == CopyFile(corePath, fs2, source, dest, c2)
    ensures CopyFile(corePath, fs1, source, dest, c1).Failure?
    ensures EmptyString(source) || EmptyString(dest) ==> CopyFile(corePath, fs1, source, dest, c1).error == InvalidPaths(source, dest)
    ensures !(EmptyString(source) || EmptyString(dest)) ==> CopyFile(corePath, fs1, source, dest, c1).error == NotFiles(source, dest)
  {
  }

  /** `copyFile` succeeds exactly when both paths are non-empty files, the
      source exists, the destination does not, and `copy` succeeds. */
  lemma CopyFileSucceeds(corePath: string, fs: FileSystem, source: string, dest: string, copied: bool)
    ensures CopyFile(corePath, fs, source, dest, copied).Success? <==>
      && !EmptyString(source) && !EmptyString(dest)
      && !EndsWithSlash(source) && !EndsWithSlash(dest)
      && FileExists(corePath, fs, source) && !FileExists(corePath, fs, dest)
      && copied
  {
  }

  /** `makeFolder` of an empty path is false without calling `mkdir`. */
  lemma MakeFolderEmpty(corePath: string, fs: FileSystem, path: string, made: bool)
    requires EmptyString(path)
    ensures !MakeFolder(corePath, fs, path, made)
  {
  }

  /** With a usable core path the second expansion changes nothing:
      `makeFolder` of a non-empty path gives `mkdir`'s answer exactly when
      no folder is at that path. */
  lemma MakeFolderUnlessFolder(corePath: string, fs: FileSystem, path: string, made: bool)
    requires !EmptyString(corePath) && corePath[0] != '~'
    requires !EmptyString(path)
    ensures MakeFolder(corePath, fs, path, made) <==> made && !FolderExists(corePath, fs, path)
  {
    var expanded := ProcessRoot(corePath, Some(path)).value;
    ProcessRootIdempotent(corePath, Some(path));
    if path[0] == '~' {
      assert expanded[0] == corePath[0];
      assert expanded != "0" by {
        if |expanded| == 1 {
          assert expanded == corePath;
        }
      }
    }
    assert FolderExists(corePath, fs, expanded) <==> FolderExists(corePath, fs, path);
  }

  /** Without reloads a path loads once; with them it always loads while the
      file exists; a missing file never loads. */
  lemma LoadGuard(corePath: string, fs: FileSystem, included: set<string>, path: string, allowReload: bool)
    ensures !FileExists(corePath, fs, path) ==> Loaded(corePath, fs, included, path, allowReload) == Failure(InvalidLoad(path))
    ensures FileExists(corePath, fs, path) ==>
      (Loaded(corePath, fs, included, path, allowReload).Failure? <==> path in included && !allowReload)
    ensures Loaded(corePath, fs, included, path, allowReload).Success? ==>
      Loaded(corePath, fs, included, path, allowReload).value == included + {path}
  {
  }

  /** The cache is keyed by the raw path: after loading `~/x`, its expansion
      is a different key and loads again, though both name the same file. */
  lemma CacheKeyedByRawPath(corePath: string, fs: FileSystem, included: set<string>, x: string)
    requires |corePath| > 0 && corePath[0] != '~'
    requires FileExists(corePath, fs, "~/" + x)
    requires "~/" + x !in included
    requires ProcessRoot(corePath, Some("~/" + x)).value !in included
    ensures var expanded := ProcessRoot(corePath, Some("~/" + x)).value;
      && expanded != "~/" + x
      && Loaded(corePath, fs, included, "~/" + x, false) == Success(included + {"~/" + x})
      && Loaded(corePath, fs, included + {"~/" + x}, expanded, false) == Success(included + {"~/" + x, expanded})
  {
    var expanded := ProcessRoot(corePath, Some("~/" + x)).value;
    ProcessRootIdempotent(corePath, Some("~/" + x));
    var p := "~/" + x;
    assert p[0] == '~' && p[1] == '/';
    if EndsWithSlash(corePath) {
      assert expanded == corePath + p[2..];
      assert expanded[|corePath| - 1] == '/';
    } else {
      assert expanded == corePath + p[1..];
      assert expanded[|corePath|] == '/';
    }
    assert expanded[0] == corePath[0];
    assert ProcessRoot(corePath, Some(expanded)) == Some(expanded);
    assert expanded != "0" by {
      if |expanded| == 1 {
        assert expanded[0] == '/';
      }
    }
    assert FileExists(corePath, fs, expanded);
    assert expanded !in included + {p};
    assert included + {p} + {expanded} == included + {p, expanded};
  }
}

=== FILE: logger.dfy ===
/**
 * The logger: bit-flag log levels, their names, parsing `'A | B'` level
 * strings, the validity checks, and the eight buckets entries are filed in.
 * Timestamps are not part of this model; an entry keeps its message and level.
 */
module Logging {
  import opened Wrappers
  import opened Php

  // =========================================================================
  // Bits of non-negative integers

  function Pow2(i: nat): (p: nat)
    ensures p >= 1
  {
    if i == 0 then 1 else 2 * Pow2(i - 1)
  }

  /** Bit `i` of `n` is set. */
  predicate Bit(n: nat, i: nat) {
    if i == 0 then n % 2 == 1 else Bit(n / 2, i - 1)
  }

  /** PHP's `|` on non-negative integers. */
  function Or(a: nat, b: nat): nat
    decreases a + b
  {
    if a == 0 then b
    else if b == 0 then a
    else 2 * Or(a / 2, b / 2) + (if a % 2 == 1 || b % 2 == 1 then 1 else 0)
  }

  /** PHP's `&` on non-negative integers. */
  function And(a: nat, b: nat): nat {
    if a == 0 || b == 0 then 0
    else 2 * And(a / 2, b / 2) + (if a % 2 == 1 && b % 2 == 1 then 1 else 0)
  }

  lemma {:induction false} BitOr(a: nat, b: nat, i: nat)
    ensures Bit(Or(a, b), i) <==> Bit(a, i) || Bit(b, i)
    decreases a + b
  {
    if a == 0 || b == 0 {
      ZeroHasNoBits(i);
    } else if i != 0 {
      BitOr(a / 2, b / 2, i - 1);
    }
  }

  lemma {:induction false} BitAnd(a: nat, b: nat, i: nat)
    ensures Bit(And(a, b), i) <==> Bit(a, i) && Bit(b, i)
    decreases a
  {
    if a == 0 || b == 0 {
      ZeroHasNoBits(i);
    } else if i != 0 {
      BitAnd(a / 2, b / 2, i - 1);
    }
  }

  lemma {:induction false} ZeroHasNoBits(i: nat)
    ensures !Bit(0, i)
  {
    if i != 0 {
      ZeroHasNoBits(i - 1);
    }
  }

  /** The only bit of 2^i is bit i. */
  lemma {:induction false} BitOfPow2(i: nat, j: nat)
    ensures Bit(Pow2(i), j) <==> i == j
  {
    if i == 0 {
      if j != 0 {
        ZeroHasNoBits(j - 1);
      }
    } else if j != 0 {
      BitOfPow2(i - 1, j - 1);
    }
  }

  /** Numbers are equal when all their bits are. */
  lemma {:induction false} BitsDecide(a: nat, b: nat)
    requires forall i: nat :: Bit(a, i) <==> Bit(b, i)
    ensures a == b
    decreases a + b
  {
    assert Bit(a, 0) <==> Bit(b, 0);
    if a != 0 || b != 0 {
      forall i: nat ensures Bit(a / 2, i) <==> Bit(b / 2, i) {
        assert Bit(a, i + 1) <==> Bit(b, i + 1);
      }
      BitsDecide(a / 2, b / 2);
    }
  }

  /** A bound of 2^k survives `|`. */
  lemma {:induction false} OrBelow(a: nat, b: nat, k: nat)
    requires a < Pow2(k) && b < Pow2(k)
    ensures Or(a, b) < Pow2(k)
    decreases k
  {
    if a != 0 && b != 0 {
      OrBelow(a / 2, b / 2, k - 1);
    }
  }

  lemma {:induction false} AndBelow(a: nat, b: nat)
    ensures And(a, b) <= a && And(a, b) <= b
  {
    if a != 0 && b != 0 {
      AndBelow(a / 2, b / 2);
    }
  }

  /** `n & 2^i` is 2^i when bit i of n is set and 0 otherwise. */
  lemma AndPow2(n: nat, i: nat)
    ensures And(n, Pow2(i)) == if Bit(n, i) then Pow2(i) else 0
  {
    forall j: nat ensures Bit(And(n, Pow2(i)), j) <==> Bit(if Bit(n, i) then Pow2(i) else 0, j) {
      BitAnd(n, Pow2(i), j);
      BitOfPow2(i, j);
      ZeroHasNoBits(j);
    }
    BitsDecide(And(n, Pow2(i)), if Bit(n, i) then Pow2(i) else 0);
  }

  // =========================================================================
  // PHP's 64-bit integers and `&` on them

  type Int64 = x: int | IntMin <= x <= IntMax

  /** The two's-complement bit pattern of a 64-bit integer. */
  function Unsigned(x: Int64): (u: nat)
    ensures u < 0x1_0000_0000_0000_0000
  {
    if x < 0 then x + 0x1_0000_0000_0000_0000 else x
  }

  /** `a & b` on PHP integers, bit by bit on the two's-complement patterns. */
  function And64(a: Int64, b: Int64): (r: Int64)
    ensures b >= 0 ==> r == And(Unsigned(a), b)
  {
    AndBelow(Unsigned(a), Unsigned(b));
    var u := And(Unsigned(a), Unsigned(b));
    if u > IntMax then u - 0x1_0000_0000_0000_0000 else u
  }

  // =========================================================================
  // Levels and their names

  const NONE: nat := 0
  const DEBUG: nat := 1
  const ERROR: nat := 16
  const ALL: nat := 255

  /** Level 2^j is filed in bucket j; these are its constant name, its long
      and short display names and its bucket name. */
  const FlagNames: seq<string> := ["N2F_LOG_DEBUG", "N2F_LOG_INFO", "N2F_LOG_NOTICE", "N2F_LOG_WARNING",
                                   "N2F_LOG_ERROR", "N2F_LOG_CRITICAL", "N2F_LOG_ALERT", "N2F_LOG_EMERGENCY"]
  const LongNames: seq<string> := ["DEBUG", "INFO", "NOTICE", "WARNING", "ERROR", "CRITICAL", "ALERT", "EMERGENCY"]
  const ShortNames: seq<string> := ["DBG", "INF", "NOT", "WAR", "ERR", "CRT", "ALR", "EMR"]
  const Buckets: seq<string> := ["Debug", "Info", "Notice", "Warning", "Error", "Critical", "Alert", "Emergency"]

  const BucketKeys: set<string> := set j | 0 <= j < 8 :: Buckets[j]

  /** Every name the validity checks accept. */
  const KnownNames: seq<string> := ["N2F_LOG_NONE"] + FlagNames + ["N2F_LOG_ALL"]

  /** A level as PHP code passes it: an integer, a string of names, or null. */
  datatype LevelArg = IntLevel(n: Int64) | StrLevel(s: string) | NullLevel

  /** The integer `switch` of `convertLevelToString`: which of the eight
      flags a level is. */
  function FlagIndex(level: int): (j: Option<nat>)
    ensures j.Some? ==> j.value < 8 && level == Pow2(j.value)
  {
    if level == 1 then Some(0)
    else if level == 2 then Some(1)
    else if level == 4 then Some(2)
    else if level == 8 then Some(3)
    else if level == 16 then Some(4)
    else if level == 32 then Some(5)
    else if level == 64 then Some(6)
    else if level == 128 then Some(7)
    else None
  }

  lemma FlagIndexOfPow2(j: nat)
    requires j < 8
    ensures FlagIndex(Pow2(j)) == Some(j)
  {
    if j > 0 {
      FlagIndexOfPow2(j - 1);
    }
  }

  /** `convertLevelToString`: the display name of one of the eight flags,
      and "N/A" for anything else (NONE and ALL included). */
  function ConvertLevelToString(level: int, short: bool): (r: string)
    ensures r == "N/A" <==> FlagIndex(level).None?
    ensures FlagIndex(level).Some? && short ==> |r| == 3 && r == ShortNames[FlagIndex(level).value]
    ensures FlagIndex(level).Some? && !short ==> "N2F_LOG_" + r == FlagNames[FlagIndex(level).value]
  {
    match FlagIndex(level)
    case None => "N/A"
    case Some(j) => if short then ShortNames[j] else LongNames[j]
  }

  /** The `switch` of `levelFromString`: which flag name a trimmed part is. */
  function NameIndex(p: string): (j: Option<nat>)
    ensures j.Some? ==> j.value < 8 && p == FlagNames[j.value]
  {
    if p == "N2F_LOG_DEBUG" then Some(0)
    else if p == "N2F_LOG_INFO" then Some(1)
    else if p == "N2F_LOG_NOTICE" then Some(2)
    else if p == "N2F_LOG_WARNING" then Some(3)
    else if p == "N2F_LOG_ERROR" then Some(4)
    else if p == "N2F_LOG_CRITICAL" then Some(5)
    else if p == "N2F_LOG_ALERT" then Some(6)
    else if p == "N2F_LOG_EMERGENCY" then Some(7)
    else None
  }

  /** The flag a part ORs in: 2^j for the j-th name, nothing (0) otherwise. */
  function PartFlag(p: string): nat {
    match NameIndex(p)
    case Some(j) => Pow2(j)
    case None => 0
  }

  /** The flag of the j-th name is 2^j. */
  lemma PartFlagOfName(j: nat)
    requires j < 8
    ensures PartFlag(FlagNames[j]) == Pow2(j)
  {
  }

  /** A part sets bit j exactly when it is the j-th name. */
  lemma PartFlagBits(p: string, j: nat)
    ensures Bit(PartFlag(p), j) <==> j < 8 && p == FlagNames[j]
  {
    match NameIndex(p)
    case None =>
      ZeroHasNoBits(j);
      if j < 8 && p == FlagNames[j] {
        PartFlagOfName(j);
      }
    case Some(i) =>
      BitOfPow2(i, j);
      if j < 8 && p == FlagNames[j] {
        PartFlagOfName(j);
      }
  }

  /** `levelFromString` over the parts from the first on: each trimmed part
      ORs in its flag, and `N2F_LOG_ALL` gives 255 at once. */
  function FoldParts(parts: seq<string>, acc: nat): nat
    decreases |parts|
  {
    if parts == [] then acc
    else
      var p := Trim(parts[0]);
      if p == "N2F_LOG_ALL" then ALL else FoldParts(parts[1..], Or(acc, PartFlag(p)))
  }

  /** `levelFromString`: null and `empty()` strings give NONE; otherwise the
      parts between `'|'` are folded. */
  function LevelOf(level: Option<string>): nat {
    if level.None? || EmptyString(level.value) then NONE else FoldParts(Split(level.value, '|'), 0)
  }

  lemma {:induction false} FoldBelow(parts: seq<string>, acc: nat)
    requires acc <= ALL
    ensures FoldParts(parts, acc) <= ALL
    decreases |parts|
  {
    if parts != [] {
      var p := Trim(parts[0]);
      if p != "N2F_LOG_ALL" {
        var f := PartFlag(p);
        if NameIndex(p).Some? {
          PowMonotone(NameIndex(p).value, 8);
        }
        assert Pow2(8) == 256;
        OrBelow(acc, f, 8);
        FoldBelow(parts[1..], Or(acc, f));
      }
    }
  }

  lemma {:induction false} PowMonotone(i: nat, k: nat)
    requires i < k
    ensures Pow2(i) < Pow2(k)
    decreases k
  {
    if i < k - 1 {
      PowMonotone(i, k - 1);
    }
  }

  /** A part naming ALL makes the whole level ALL. */
  lemma {:induction false} FoldAll(parts: seq<string>, acc: nat, k: nat)
    requires k < |parts| && Trim(parts[k]) == "N2F_LOG_ALL"
    ensures FoldParts(parts, acc) == ALL
    decreases |parts|
  {
    if Trim(parts[0]) != "N2F_LOG_ALL" {
      FoldAll(parts[1..], Or(acc, PartFlag(Trim(parts[0]))), k - 1);
    }
  }

  /** Without ALL, bit j is set exactly when it was already or some part is
      the j-th name; unknown parts change nothing. */
  lemma {:induction false} FoldBits(parts: seq<string>, acc: nat, j: nat)
    requires forall k :: 0 <= k < |parts| ==> Trim(parts[k]) != "N2F_LOG_ALL"
    ensures Bit(FoldParts(parts, acc), j) <==>
      Bit(acc, j) || (j < 8 && exists k :: 0 <= k < |parts| && Trim(parts[k]) == FlagNames[j])
    decreases |parts|
  {
    if parts != [] {
      var p := Trim(parts[0]);
      assert p != "N2F_LOG_ALL";
      FoldBits(parts[1..], Or(acc, PartFlag(p)), j);
      BitOr(acc, PartFlag(p), j);
      PartFlagBits(p, j);
      if j < 8 && exists k :: 1 <= k < |parts| && Trim(parts[k]) == FlagNames[j] {
        var k :| 1 <= k < |parts| && Trim(parts[k]) == FlagNames[j];
        assert parts[1..][k - 1] == parts[k];
      }
      if j < 8 && exists k :: 0 <= k < |parts| - 1 && Trim(parts[1..][k]) == FlagNames[j] {
        var k :| 0 <= k < |parts| - 1 && Trim(parts[1..][k]) == FlagNames[j];
        assert parts[k + 1] == parts[1..][k];
      }
    }
  }

  /** `levelFromString` always yields a level `validLevel` accepts. */
  lemma LevelOfIsValid(level: Option<string>)
    ensures LevelOf(level) <= ALL && IsValidLevel(IntLevel(LevelOf(level)))
  {
    if !(level.None? || EmptyString(level.value)) {
      FoldBelow(Split(level.value, '|'), 0);
    }
  }

  /** `N2F_LOG_ALL` anywhere in a non-empty string gives ALL. */
  lemma LevelOfAll(s: string, k: nat)
    requires k < |Split(s, '|')| && Trim(Split(s, '|')[k]) == "N2F_LOG_ALL"
    ensures LevelOf(Some(s)) == ALL
  {
    EmptySplit(s);
    FoldAll(Split(s, '|'), 0, k);
  }

  /** Otherwise bit j of the level is set exactly when some part, trimmed, is
      the j-th flag name. */
  lemma LevelOfBits(s: string, j: nat)
    requires !EmptyString(s)
    requires forall k :: 0 <= k < |Split(s, '|')| ==> Trim(Split(s, '|')[k]) != "N2F_LOG_ALL"
    ensures Bit(LevelOf(Some(s)), j) <==>
      j < 8 && exists k :: 0 <= k < |Split(s, '|')| && Trim(Split(s, '|')[k]) == FlagNames[j]
  {
    var parts := Split(s, '|');
    assert LevelOf(Some(s)) == FoldParts(parts, 0);
    FoldBits(parts, 0, j);
    ZeroHasNoBits(j);
    if j < 8 && exists k :: 0 <= k < |parts| && Trim(parts[k]) == FlagNames[j] {
      var k :| 0 <= k < |parts| && Trim(parts[k]) == FlagNames[j];
      assert Trim(Split(s, '|')[k]) == FlagNames[j];
    }
  }

  /** A flag's constant name parses back to the flag: `levelFromString` and
      `convertLevelToString` agree. */
  lemma NameRoundTrip(j: nat)
    requires j < 8
    ensures LevelOf(Some("N2F_LOG_" + ConvertLevelToString(Pow2(j), false))) == Pow2(j)
  {
    FlagIndexOfPow2(j);
    NameLevel(j);
  }

  /** The j-th constant name, alone, is level 2^j. */
  lemma NameLevel(j: nat)
    requires j < 8
    ensures LevelOf(Some(FlagNames[j])) == Pow2(j)
  {
    FlagNameShape(j);
    SinglePart(FlagNames[j]);
    PartFlagOfName(j);
  }

  /** A string of one name: its level is that name's flag. */
  lemma SinglePart(p: string)
    requires p != [] && '|' !in p && !IsTrimmed(p[0]) && !IsTrimmed(p[|p| - 1])
    requires p != "0" && p != "N2F_LOG_ALL"
    ensures LevelOf(Some(p)) == PartFlag(p)
  {
    TrimUnchanged(p);
    assert Split(p, '|') == [p];
    assert FoldParts([p], 0) == Or(0, PartFlag(p));
  }

  lemma FlagNameShape(j: nat)
    requires j < 8
    ensures var p := FlagNames[j];
      p != [] && '|' !in p && !IsTrimmed(p[0]) && !IsTrimmed(p[|p| - 1]) && p != "0" && p != "N2F_LOG_ALL"
  {
  }

  /** `explode` of "" or "0" is that string alone. */
  lemma EmptySplit(s: string)
    ensures EmptyString(s) ==> Split(s, '|') == [s]
  {
  }

  lemma TrimUnchanged(s: string)
    requires s != [] && !IsTrimmed(s[0]) && !IsTrimmed(s[|s| - 1])
    ensures Trim(s) == s
  {
  }

  // =========================================================================
  // Validity

  /** `validLevel`: an integer in 0..255, or a string whose every `'|'` part,
      trimmed, is a known name. Anything else is invalid. */
  predicate IsValidLevel(level: LevelArg) {
    match level
    case IntLevel(n) => 0 <= n <= ALL
    case StrLevel(s) => forall k :: 0 <= k < |Split(s, '|')| ==> Trim(Split(s, '|')[k]) in KnownNames
    case NullLevel => false
  }

  /** `validSingleLevel`: NONE, one flag or ALL, as an integer or as its name
      (trimmed). */
  predicate IsValidSingleLevel(level: LevelArg) {
    match level
    case IntLevel(n) => IsSingleLevel(n)
    case StrLevel(s) => Trim(s) in KnownNames
    case NullLevel => false
  }

  predicate IsSingleLevel(n: int) {
    n == NONE || FlagIndex(n).Some? || n == ALL
  }

  /** `validLevel` with its loop over the parts. */
  method ValidLevel(level: LevelArg) returns (valid: bool)
    ensures valid == IsValidLevel(level)
  {
    match level {
      case IntLevel(n) =>
        return 0 <= n <= ALL;
      case NullLevel =>
        return false;
      case StrLevel(s) =>
        var parts := Split(s, '|');
        var i := 0;
        while i < |parts|
          invariant 0 <= i <= |parts|
          invariant forall k :: 0 <= k < i ==> Trim(parts[k]) in KnownNames
        {
          if Trim(parts[i]) !in KnownNames {
            return false;
          }
          i := i + 1;
        }
        return true;
    }
  }

  /** Every single level is a valid level. */
  lemma SingleLevelIsValid(level: LevelArg)
    requires IsValidSingleLevel(level)
    ensures IsValidLevel(level)
  {
    if level.StrLevel? {
      var s := level.s;
      TrimDropsOnlyBlanks(s);
      NoBarInNames(Trim(s));
      assert '|' !in s;
      assert Split(s, '|') == [s];
    }
  }

  /** No level name contains the separator `|`. */
  lemma NoBarInNames(name: string)
    requires name in KnownNames
    ensures '|' !in name
  {
    var i :| 0 <= i < |KnownNames| && KnownNames[i] == name;
  }

  /** `trim` removes blanks only: any other character of the string survives. */
  lemma TrimDropsOnlyBlanks(s: string)
    ensures forall c :: c in s && !IsTrimmed(c) ==> c in Trim(s)
  {
    TrimLeftDrops(s);
    TrimRightDrops(TrimLeft(s));
  }

  lemma {:induction false} TrimLeftDrops(s: string)
    ensures forall c :: c in s && !IsTrimmed(c) ==> c in TrimLeft(s)
    decreases |s|
  {
    if s != [] && IsTrimmed(s[0]) {
      TrimLeftDrops(s[1..]);
      forall c | c in s && !IsTrimmed(c) ensures c in s[1..] {
        var k :| 0 <= k < |s| && s[k] == c;
        assert s[1..][k - 1] == c;
      }
    }
  }

  lemma {:induction false} TrimRightDrops(s: string)
    ensures forall c :: c in s && !IsTrimmed(c) ==> c in TrimRight(s)
    decreases |s|
  {
    if s != [] && IsTrimmed(s[|s| - 1]) {
      TrimRightDrops(s[..|s| - 1]);
      forall c | c in s && !IsTrimmed(c) ensures c in s[..|s| - 1] {
        var k :| 0 <= k < |s| && s[k] == c;
        assert s[..|s| - 1][k] == c;
      }
    }
  }

  // =========================================================================
  // Configuration

  /** A configuration value as it arrives in the settings array. */
  datatype Setting = NullSetting | BoolSetting(b: bool) | IntSetting(n: Int64) | StrSetting(s: string)

  /** PHP truthiness of a setting. */
  predicate Truthy(v: Setting) {
    match v
    case NullSetting => false
    case BoolSetting(b) => b
    case IntSetting(n) => n != 0
    case StrSetting(s) => !EmptyString(s)
  }

  /** `LoggerConfig`: whether logs are dumped and the configured level. */
  datatype LoggerConfig = LoggerConfig(dumpLogs: bool, logLevel: Setting)

  /** The `LoggerConfig` constructor on a settings array or null. */
  function NewConfig(config: Option<map<string, Setting>>): (c: LoggerConfig)
    ensures config.None? || config.value == map[] ==> c == LoggerConfig(false, IntSetting(ERROR))
    ensures c.dumpLogs ==> config.Some? && "dump_logs" in config.value && Truthy(config.value["dump_logs"])
    ensures config.Some? && config.value != map[] && "dump_logs" in config.value && Truthy(config.value["dump_logs"]) ==> c.dumpLogs
    ensures config.Some? && "log_level" in config.value ==> c.logLevel == config.value["log_level"]
    ensures config.None? || "log_level" !in config.value ==> c.logLevel == IntSetting(ERROR)
  {
    if config.None? || |config.value| < 1 then LoggerConfig(false, IntSetting(ERROR))
    else
      var m := config.value;
      LoggerConfig("dump_logs" in m && Truthy(m["dump_logs"]),
                   if "log_level" in m then m["log_level"] else IntSetting(ERROR))
  }

  /** What the `Logger` constructor is given. */
  datatype ConfigArg = NoConfig | ArrayConfig(settings: map<string, Setting>) | ConfigObject(config: LoggerConfig) | OtherConfig

  function ConfigOf(arg: ConfigArg): (c: LoggerConfig)
    ensures arg.ConfigObject? ==> c == arg.config
    ensures arg.ArrayConfig? ==> c == NewConfig(Some(arg.settings))
    ensures arg.NoConfig? || arg.OtherConfig? ==> c == NewConfig(None)
  {
    match arg
    case ArrayConfig(m) => NewConfig(Some(m))
    case ConfigObject(c) => c
    case _ => NewConfig(None)
  }

  // =========================================================================
  // Entries and buckets

  /** A log entry; its time and formatted timestamp are not modelled. */
  datatype Entry = Entry(message: string, level: int)

  /** The bucket `log` files a level in: the first of the eight flags, in
      increasing order, that the level has in common. */
  function LowestFrom(level: nat, i: nat): (j: Option<nat>)
    ensures j.Some? ==> i <= j.value < 8 && And(level, Pow2(j.value)) != 0
    decreases 8 - i
  {
    if i >= 8 then None
    else if And(level, Pow2(i)) != 0 then Some(i)
    else LowestFrom(level, i + 1)
  }

  /** The buckets after `log` of a level (already converted to an integer)
      and an interpolated message: one entry more in the bucket of the lowest
      set bit of a valid single level, nothing otherwise. */
  function Filed(logs: map<string, seq<Entry>>, level: int, message: string): map<string, seq<Entry>>
    requires forall j :: 0 <= j < 8 ==> Buckets[j] in logs
  {
    if !IsSingleLevel(level) then logs
    else match LowestFrom(level, 0)
      case None => logs
      case Some(j) => logs[Buckets[j] := logs[Buckets[j]] + [Entry(message, level)]]
  }

  lemma {:induction false} LowestOfPow2(j: nat, i: nat)
    requires i <= j < 8
    ensures LowestFrom(Pow2(j), i) == Some(j)
    decreases j - i
  {
    AndPow2(Pow2(j), i);
    BitOfPow2(j, i);
    if i < j {
      LowestOfPow2(j, i + 1);
    }
  }

  lemma {:induction false} LowestOfNone(i: nat)
    ensures LowestFrom(NONE, i) == None
    decreases 8 - i
  {
    if i < 8 {
      LowestOfNone(i + 1);
    }
  }

  /** A flag is filed in its own bucket, ALL in Debug, NONE nowhere, and a
      combination of flags (not a single level) nowhere. */
  lemma FiledBuckets(logs: map<string, seq<Entry>>, message: string, j: nat, level: int)
    requires forall j :: 0 <= j < 8 ==> Buckets[j] in logs
    requires j < 8
    ensures Filed(logs, Pow2(j), message) == logs[Buckets[j] := logs[Buckets[j]] + [Entry(message, Pow2(j))]]
    ensures Filed(logs, ALL, message) == logs[Buckets[0] := logs[Buckets[0]] + [Entry(message, ALL)]]
    ensures Filed(logs, NONE, message) == logs
    ensures !IsSingleLevel(level) ==> Filed(logs, level, message) == logs
  {
    FlagIndexOfPow2(j);
    LowestOfPow2(j, 0);
    LowestOfNone(0);
    AllBits(0);
    LowestOfFull(ALL);
  }

  /** A level with its lowest bit set files in the first bucket. */
  lemma LowestOfFull(level: nat)
    requires Bit(level, 0)
    ensures LowestFrom(level, 0) == Some(0)
  {
    AndPow2(level, 0);
  }

  // =========================================================================
  // Message interpolation

  /** `str_replace` of one search string: every occurrence, left to right,
      without overlaps. */
  function ReplaceAll(s: string, search: string, replace: string): string
    requires search != []
    decreases |s|
  {
    if |s| < |search| then s
    else if s[..|search|] == search then replace + ReplaceAll(s[|search|..], search, replace)
    else [s[0]] + ReplaceAll(s[1..], search, replace)
  }

  function Placeholder(key: string): string {
    "{" + key + "}"
  }

  /** The context's `{key}` placeholders replaced in order, as `str_replace`
      does with arrays of searches and replacements. */
  function Interpolate(message: string, context: seq<(string, string)>): string
    decreases |context|
  {
    if context == [] then message
    else
      var last := context[|context| - 1];
      ReplaceAll(Interpolate(message, context[..|context| - 1]), Placeholder(last.0), last.1)
  }

  /** The loop of `log` that builds the placeholders, and the replacement. */
  method ReplaceContext(message: string, context: seq<(string, string)>) returns (text: string)
    ensures text == Interpolate(message, context)
  {
    text := message;
    var i := 0;
    while i < |context|
      invariant 0 <= i <= |context|
      invariant text == Interpolate(message, context[..i])
    {
      assert context[..i + 1][..i] == context[..i];
      text := ReplaceAll(text, Placeholder(context[i].0), context[i].1);
      i := i + 1;
    }
    assert context[..i] == context;
  }

  /** A string without the search's first character is left alone. */
  lemma {:induction false} ReplaceAbsent(s: string, search: string, replace: string)
    requires search != [] && search[0] !in s
    ensures ReplaceAll(s, search, replace) == s
    decreases |s|
  {
    if |s| >= |search| {
      assert s[0] != search[0];
      ReplaceAbsent(s[1..], search, replace);
    }
  }

  /** The one occurrence of the search string is replaced and nothing else
      changes. */
  lemma {:induction false} ReplaceOne(a: string, search: string, b: string, replace: string)
    requires search != [] && search[0] !in a && search[0] !in b
    ensures ReplaceAll(a + search + b, search, replace) == a + replace + b
    decreases |a|
  {
    var s := a + search + b;
    if a == [] {
      assert s == search + b;
      assert s[..|search|] == search && s[|search|..] == b;
      ReplaceAbsent(b, search, replace);
    } else {
      assert s[..|search|][0] == a[0];
      assert s[1..] == a[1..] + search + b;
      ReplaceOne(a[1..], search, b, replace);
      calc {
        ReplaceAll(s, search, replace);
        [a[0]] + ReplaceAll(s[1..], search, replace);
        [a[0]] + (a[1..] + replace + b);
        { assert a == [a[0]] + a[1..]; }
        a + replace + b;
      }
    }
  }

  /** A message without `{` is logged as it is, whatever the context. */
  lemma {:induction false} InterpolateNoBraces(message: string, context: seq<(string, string)>)
    requires '{' !in message
    ensures Interpolate(message, context) == message
    decreases |context|
  {
    if context != [] {
      InterpolateNoBraces(message, context[..|context| - 1]);
      ReplaceAbsent(message, Placeholder(context[|context| - 1].0), context[|context| - 1].1);
    }
  }

  /** A message with one placeholder and no other `{` gets the value in its
      place. */
  lemma InterpolateOne(a: string, key: string, b: string, value: string)
    requires '{' !in a && '{' !in b
    ensures Interpolate(a + Placeholder(key) + b, [(key, value)]) == a + value + b
  {
    var c := [(key, value)];
    assert c[..0] == [];
    ReplaceOne(a, Placeholder(key), b, value);
  }

  // =========================================================================
  // The logger

  /** `str & int` with a non-numeric string throws in PHP 8. */
  const NonNumericOperand := "Unsupported operand types: string & int"

  class Logger {
    var config: LoggerConfig
    var logs: map<string, seq<Entry>>

    /** The eight buckets, and nothing else. */
    predicate Valid()
      reads this
    {
      logs.Keys == BucketKeys
    }

    constructor (config: ConfigArg)
      ensures Valid()
      ensures this.config == ConfigOf(config)
      ensures forall j :: 0 <= j < 8 ==> logs[Buckets[j]] == []
    {
      this.config := ConfigOf(config);
      logs := map b | b in Buckets :: [];
    }

    /** `levelFromString`, with its loop over the parts. */
    method LevelFromString(level: Option<string>) returns (r: nat)
      ensures r == LevelOf(level)
    {
      if level.None? || EmptyString(level.value) {
        return NONE;
      }
      var parts := Split(level.value, '|');
      r := 0;
      var i := 0;
      while i < |parts|
        invariant 0 <= i <= |parts|
        invariant FoldParts(parts[i..], r) == FoldParts(parts, 0)
      {
        var part := Trim(parts[i]);
        assert parts[i..] == [parts[i]] + parts[i + 1..];
        if part == "N2F_LOG_ALL" {
          r := ALL;
          break;
        }
        match NameIndex(part) {
          case Some(j) => r := Or(r, Pow2(j));
          case None =>
        }
        i := i + 1;
      }
    }

    /** `isLevelLogged`: the configured level `&` the given one, after
        converting a string level. */
    function IsLevelLogged(level: LevelArg): (r: Result<Int64>)
      reads this
      ensures config.logLevel.StrSetting? <==> r.Failure?
    {
      var l := LevelValue(level);
      match config.logLevel
      case IntSetting(n) => Success(And64(n, l))
      case BoolSetting(b) => Success(And64(if b then 1 else 0, l))
      case NullSetting => Success(0)
      case StrSetting(_) => Failure(NonNumericOperand)
    }

    /** `log`: interpolate the context, convert a string level, and file
        the entry. */
    method Log(level: LevelArg, message: string, context: seq<(string, string)>)
      requires Valid()
      modifies this
      ensures Valid() && config == old(config)
      ensures logs == Filed(old(logs), LevelValue(level), Interpolate(message, context))
    {
      var l: int;
      match level {
        case IntLevel(n) => l := n;
        case StrLevel(s) => l := LevelFromString(Some(s));
        case NullLevel => l := LevelFromString(None);
      }
      assert l == LevelValue(level);
      var text := ReplaceContext(message, context);
      FileEntry(l, text);
    }

    /** The filing loop of `log`: the entry goes to the bucket of the lowest
        flag of a single level. */
    method FileEntry(l: int, text: string)
      requires Valid()
      modifies this
      ensures Valid() && config == old(config)
      ensures logs == Filed(old(logs), l, text)
    {
      if IsSingleLevel(l) {
        var j := 0;
        while j < 8
          invariant 0 <= j <= 8
          invariant LowestFrom(l, j) == LowestFrom(l, 0)
          invariant logs == old(logs)
        {
          if And(l, Pow2(j)) != 0 {
            assert LowestFrom(l, 0) == Some(j);
            logs := logs[Buckets[j] := logs[Buckets[j]] + [Entry(text, l)]];
            assert logs.Keys == old(logs).Keys;
            break;
          }
          j := j + 1;
        }
      }
    }

    /** `getLogs`: everything for null, the buckets a valid single level has
        bits for, null for anything else. */
    method GetLogs(level: LevelArg) returns (r: Result<Option<map<string, seq<Entry>>>>)
      requires Valid()
      ensures r == LogsAt(logs, level)
    {
      match level {
        case NullLevel =>
          return Success(Some(logs));
        case StrLevel(s) =>
          if IsValidSingleLevel(level) {
            return Failure(NonNumericOperand);
          }
          return Success(None);
        case IntLevel(n) =>
          if !IsSingleLevel(n) {
            return Success(None);
          }
          var selected := map[];
          var j := 0;
          while j < 8
            invariant 0 <= j <= 8
            invariant selected == Selection(logs, n, j)
          {
            if And(n, Pow2(j)) != 0 {
              selected := selected[Buckets[j] := logs[Buckets[j]]];
            }
            j := j + 1;
          }
          return Success(Some(selected));
      }
    }
  }

  /** The level `log` files under: integers as given, strings and null through
      `levelFromString`. */
  function LevelValue(level: LevelArg): Int64 {
    match level
    case IntLevel(n) => n
    case StrLevel(s) => LevelOfIsValid(Some(s)); LevelOf(Some(s))
    case NullLevel => LevelOfIsValid(None); LevelOf(None)
  }

  /** The buckets among the first `j` whose flag the level has. */
  function Selection(logs: map<string, seq<Entry>>, level: nat, j: nat): map<string, seq<Entry>>
    requires j <= 8 && forall i :: 0 <= i < 8 ==> Buckets[i] in logs
  {
    if j == 0 then map[]
    else
      var prev := Selection(logs, level, j - 1);
      if And(level, Pow2(j - 1)) != 0 then prev[Buckets[j - 1] := logs[Buckets[j - 1]]] else prev
  }

  function LogsAt(logs: map<string, seq<Entry>>, level: LevelArg): Result<Option<map<string, seq<Entry>>>>
    requires forall i :: 0 <= i < 8 ==> Buckets[i] in logs
  {
    match level
    case NullLevel => Success(Some(logs))
    case StrLevel(_) => if IsValidSingleLevel(level) then Failure(NonNumericOperand) else Success(None)
    case IntLevel(n) => if IsSingleLevel(n) then Success(Some(Selection(logs, n, 8))) else Success(None)
  }

  /** The j-th flag, 2^j, as a PHP integer. */
  function Flag(j: nat): (f: Int64)
    requires j < 8
    ensures f == Pow2(j) && f < 256
  {
    PowMonotone(j, 8);
    assert Pow2(8) == 256;
    Pow2(j)
  }

  /** 2^k - 1 has exactly the bits below k. */
  lemma {:induction false} LowOnes(k: nat, i: nat)
    ensures Bit(Pow2(k) - 1, i) <==> i < k
    decreases k
  {
    if k == 0 {
      ZeroHasNoBits(i);
    } else if i > 0 {
      LowOnes(k - 1, i - 1);
    }
  }

  lemma BucketsDistinct()
    ensures forall i, k :: 0 <= i < k < 8 ==> Buckets[i] != Buckets[k]
  {
  }

  /** The selection holds the logs of exactly the buckets below j whose bit
      the level has. */
  lemma {:induction false} SelectionContents(logs: map<string, seq<Entry>>, level: nat, j: nat)
    requires j <= 8 && forall i :: 0 <= i < 8 ==> Buckets[i] in logs
    ensures forall b :: b in Selection(logs, level, j) ==> b in Buckets && Selection(logs, level, j)[b] == logs[b]
    ensures forall i :: 0 <= i < 8 ==> (Buckets[i] in Selection(logs, level, j) <==> i < j && Bit(level, i))
  {
    if j > 0 {
      var prev := Selection(logs, level, j - 1);
      SelectionContents(logs, level, j - 1);
      AndPow2(level, j - 1);
      BucketsDistinct();
      forall i | 0 <= i < 8 && i != j - 1 ensures Buckets[i] in Selection(logs, level, j) <==> Buckets[i] in prev {
        assert Buckets[i] != Buckets[j - 1];
      }
    }
  }

  /** `getLogs` of one flag gives that bucket alone. */
  lemma LogsAtFlag(logs: map<string, seq<Entry>>, j: nat)
    requires forall i :: 0 <= i < 8 ==> Buckets[i] in logs
    requires j < 8
    ensures LogsAt(logs, IntLevel(Flag(j))) == Success(Some(map[Buckets[j] := logs[Buckets[j]]]))
  {
    FlagIndexOfPow2(j);
    var one := Selection(logs, Pow2(j), 8);
    SelectionContents(logs, Pow2(j), 8);
    forall b | b in one ensures b == Buckets[j] {
      var i :| 0 <= i < 8 && Buckets[i] == b;
      BitOfPow2(j, i);
    }
    BitOfPow2(j, j);
    assert one == map[Buckets[j] := logs[Buckets[j]]];
  }

  /** `getLogs` of NONE gives no bucket, and of a combination of flags null. */
  lemma LogsAtNone(logs: map<string, seq<Entry>>)
    requires forall i :: 0 <= i < 8 ==> Buckets[i] in logs
    ensures LogsAt(logs, IntLevel(NONE)) == Success(Some(map[]))
    ensures LogsAt(logs, IntLevel(DEBUG + ERROR)) == Success(None)
  {
    var none := Selection(logs, NONE, 8);
    SelectionContents(logs, NONE, 8);
    forall b | b in none ensures false {
      var i :| 0 <= i < 8 && Buckets[i] == b;
      ZeroHasNoBits(i);
    }
    assert none == map[];
  }

  /** `getLogs` of ALL gives every bucket. */
  lemma LogsAtAll(logs: map<string, seq<Entry>>)
    requires (forall i :: 0 <= i < 8 ==> Buckets[i] in logs) && (forall b :: b in logs ==> b in Buckets)
    ensures LogsAt(logs, IntLevel(ALL)) == Success(Some(logs))
  {
    forall i | 0 <= i < 8 ensures Bit(ALL, i) {
      AllBits(i);
    }
    SelectionOfAll(logs, ALL);
    assert IsSingleLevel(ALL);
  }

  /** A level with all eight flag bits selects every bucket. */
  lemma SelectionOfAll(logs: map<string, seq<Entry>>, level: nat)
    requires (forall i :: 0 <= i < 8 ==> Buckets[i] in logs) && (forall b :: b in logs ==> b in Buckets)
    requires forall i :: 0 <= i < 8 ==> Bit(level, i)
    ensures Selection(logs, level, 8) == logs
  {
    var all := Selection(logs, level, 8);
    SelectionContents(logs, level, 8);
    forall b | b in logs ensures b in all && all[b] == logs[b] {
      var i :| 0 <= i < 8 && Buckets[i] == b;
    }
    assert all.Keys == logs.Keys;
  }

  /** ALL has each of the eight flag bits. */
  lemma AllBits(i: nat)
    requires i < 8
    ensures Bit(ALL, i)
  {
    LowOnes(8, i);
    assert Pow2(8) - 1 == ALL;
  }

  /** A flag is logged exactly when the configured level (as a two's
      complement pattern) has its bit. */
  lemma FlagLogged(logger: Logger, j: nat)
    requires j < 8 && logger.config.logLevel.IntSetting?
    ensures logger.IsLevelLogged(IntLevel(Flag(j))) ==
      Success(if Bit(Unsigned(logger.config.logLevel.n), j) then Flag(j) else 0)
  {
    AndPow2(Unsigned(logger.config.logLevel.n), j);
  }

  /** Naming a flag by its constant name gives the same answer as the flag. */
  lemma FlagNameLogged(logger: Logger, j: nat)
    requires j < 8
    ensures logger.IsLevelLogged(StrLevel(FlagNames[j])) == logger.IsLevelLogged(IntLevel(Flag(j)))
  {
    NameLevel(j);
    assert LevelValue(StrLevel(FlagNames[j])) == LevelValue(IntLevel(Flag(j)));
  }
}

=== FILE: page.dfy ===
/**
 * The page model: named content blocks captured from the output buffer, the
 * page title and its meta elements. What `ob_get_contents` returns is a
 * parameter of `EndBlock`; what `echo` prints is appended to a `Stdout`.
 */
module Pages {
  import opened Wrappers
  import opened Php

  /** Standard output, as far as the page writes to it. */
  class Stdout {
    var written: string

    constructor()
      ensures written == []
    {
      written := [];
    }

    method Echo(s: string)
      modifies this
      ensures written == old(written) + s
    {
      written := written + s;
    }
  }

  /** `implode($glue, $parts)` with a string glue. */
  function Implode(glue: string, parts: seq<string>): string {
    if |parts| == 0 then ""
    else if |parts| == 1 then parts[0]
    else parts[0] + glue + Implode(glue, parts[1..])
  }

  /** What `renderBlock` produces for a block's chunks. */
  function Rendered(indent: string, chunks: seq<string>): string {
    indent + Implode("\n" + indent, chunks)
  }

  /** `PageMetaElement` */
  datatype MetaElement = MetaElement(name: string, content: string) {
    /** The HTML of `render`. */
    function Html(): string {
      "<meta name=\"" + name + "\" content=\"" + content + "\" />"
    }

    /** `render`: returned when asked for, echoed otherwise. */
    method Render(ret: bool, out: Stdout) returns (r: string)
      modifies out
      ensures ret ==> r == Html() && out.written == old(out.written)
      ensures !ret ==> r == "" && out.written == old(out.written) + Html()
    {
      var rendered := Html();
      if ret {
        return rendered;
      }
      out.Echo(rendered);
      r := "";
    }
  }

  const NotStarted := "Cannot end a block that hasn't been started"
  const NoSuchBlock := "Cannot display a block that doesn't exist"

  /** The chunks stored under `key` so far. */
  function Chunks(blocks: map<string, seq<string>>, key: string): seq<string> {
    if key in blocks then blocks[key] else []
  }

  /** The blocks after `startBlock(key)`. */
  function Started(blocks: map<string, seq<string>>, key: string): map<string, seq<string>> {
    if key in blocks then blocks else blocks[key := []]
  }

  /** The blocks after `endBlock(key)` with `captured` in the buffer, or the
      exception it throws. */
  function Ended(blocks: map<string, seq<string>>, key: string, captured: string): Result<map<string, seq<string>>> {
    if key !in blocks then Failure(NotStarted)
    else Success(blocks[key := blocks[key] + [captured]])
  }

  /** The title's text as `"{$this->title}"` interpolates it: null is empty. */
  function TitleText(title: Option<string>): string {
    title.GetOr("")
  }

  /** `Page` */
  class Page {
    var blocks: map<string, seq<string>>
    var title: Option<string>
    var meta: seq<MetaElement>

    constructor()
      ensures blocks == map[] && title == None && meta == []
    {
      blocks := map[];
      title := None;
      meta := [];
    }

    /** `addMeta`: appends the element. */
    method AddMeta(elem: MetaElement)
      modifies this
      ensures meta == old(meta) + [elem]
      ensures blocks == old(blocks) && title == old(title)
    {
      meta := meta + [elem];
    }

    /** `getMeta`: the meta elements in the order they were added. */
    function GetMeta(): (r: seq<MetaElement>)
      reads this
      ensures r == meta
    {
      meta
    }

    /** `startBlock`: the buffer it opens is not modelled. */
    method StartBlock(key: string)
      modifies this
      ensures blocks == Started(old(blocks), key)
      ensures title == old(title) && meta == old(meta)
    {
      if key !in blocks {
        blocks := blocks[key := []];
      }
    }

    /** `endBlock`, given what the output buffer holds. */
    method EndBlock(key: string, captured: string) returns (r: Result<()>)
      modifies this
      ensures var res := Ended(old(blocks), key, captured);
        && (res.Success? ==> r == Success(()) && blocks == res.value)
        && (res.Failure? ==> r == Failure(res.error) && blocks == old(blocks))
      ensures title == old(title) && meta == old(meta)
    {
      if key !in blocks {
        return Failure(NotStarted);
      }
      blocks := blocks[key := blocks[key] + [captured]];
      r := Success(());
    }

    /** `renderBlock`: the block is returned when asked for, echoed otherwise. */
    method RenderBlock(key: string, ret: bool, indent: string, out: Stdout) returns (r: Result<string>)
      modifies out
      ensures key !in blocks ==> r == Failure(NoSuchBlock) && out.written == old(out.written)
      ensures key in blocks && ret ==> r == Success(Rendered(indent, blocks[key])) && out.written == old(out.written)
      ensures key in blocks && !ret ==> r == Success("") && out.written == old(out.written) + Rendered(indent, blocks[key])
    {
      if key !in blocks {
        return Failure(NoSuchBlock);
      }
      var glue := "\n" + indent;
      var content := indent + Implode(glue, blocks[key]);
      if ret {
        return Success(content);
      }
      out.Echo(content);
      r := Success("");
    }

    /** `setTitle` */
    method SetTitle(t: Option<string>)
      modifies this
      ensures title == t && blocks == old(blocks) && meta == old(meta)
    {
      title := t;
    }

    /** `renderTitle`: the title element, returned or echoed. */
    method RenderTitle(ret: bool, out: Stdout) returns (r: string)
      modifies out
      ensures ret ==> r == "<title>" + TitleText(title) + "</title>" && out.written == old(out.written)
      ensures !ret ==> r == "" && out.written == old(out.written) + "<title>" + TitleText(title) + "</title>"
    {
      var t := "<title>" + TitleText(title) + "</title>";
      if ret {
        return t;
      }
      out.Echo(t);
      r := "";
    }
  }

  // =========================================================================
  // Properties

  /** Starting a block never loses chunks: an existing block is kept as it is,
      a new one starts empty, and no other block changes. */
  lemma StartKeepsChunks(blocks: map<string, seq<string>>, key: string)
    ensures key in Started(blocks, key)
    ensures Started(blocks, key)[key] == Chunks(blocks, key)
    ensures forall k :: k != key ==> (k in Started(blocks, key) <==> k in blocks)
    ensures forall k :: k != key && k in blocks ==> Started(blocks, key)[k] == blocks[k]
  {
  }

  /** Ending a block fails exactly when it was never started; otherwise the
      captured text becomes its last chunk and nothing else changes. */
  lemma EndAppendsChunk(blocks: map<string, seq<string>>, key: string, captured: string)
    ensures Ended(blocks, key, captured).Failure? <==> key !in blocks
    ensures Ended(blocks, key, captured).Success? ==>
      && Ended(blocks, key, captured).value.Keys == blocks.Keys
      && Ended(blocks, key, captured).value[key] == blocks[key] + [captured]
      && forall k :: k in blocks && k != key ==> Ended(blocks, key, captured).value[k] == blocks[k]
  {
  }

  /** The blocks after one `startBlock`/`endBlock` pair per captured text. */
  function Captured(blocks: map<string, seq<string>>, key: string, texts: seq<string>): map<string, seq<string>>
    decreases |texts|
  {
    if texts == [] then blocks
    else
      var started := Started(blocks, key);
      Captured(started[key := started[key] + [texts[0]]], key, texts[1..])
  }

  /** Repeated start/end pairs on one key accumulate its chunks in call order
      and leave every other block alone. */
  lemma {:induction false} CapturesAccumulate(blocks: map<string, seq<string>>, key: string, texts: seq<string>)
    requires texts != []
    ensures key in Captured(blocks, key, texts)
    ensures Captured(blocks, key, texts)[key] == Chunks(blocks, key) + texts
    ensures forall k :: k != key ==> (k in Captured(blocks, key, texts) <==> k in blocks)
    ensures forall k :: k != key && k in blocks ==> Captured(blocks, key, texts)[k] == blocks[k]
    decreases |texts|
  {
    var started := Started(blocks, key);
    var next := started[key := started[key] + [texts[0]]];
    if |texts| > 1 {
      CapturesAccumulate(next, key, texts[1..]);
      assert Chunks(next, key) == Chunks(blocks, key) + [texts[0]];
      assert [texts[0]] + texts[1..] == texts;
    }
  }

  /** A rendered block is the indent followed by its chunks, each later one on
      a new line after the indent: no chunk, one chunk, and one more chunk. */
  lemma {:induction false} RenderedLines(indent: string, chunks: seq<string>, c: string)
    ensures Rendered(indent, []) == indent
    ensures Rendered(indent, [c]) == indent + c
    ensures chunks != [] ==> Rendered(indent, chunks + [c]) == Rendered(indent, chunks) + "\n" + indent + c
  {
    if chunks != [] {
      ImplodeSnoc("\n" + indent, chunks, c);
    }
  }

  lemma {:induction false} ImplodeSnoc(glue: string, parts: seq<string>, c: string)
    requires parts != []
    ensures Implode(glue, parts + [c]) == Implode(glue, parts) + glue + c
    decreases |parts|
  {
    if |parts| > 1 {
      assert (parts + [c])[1..] == parts[1..] + [c];
      ImplodeSnoc(glue, parts[1..], c);
    }
  }

  /** A meta element's HTML names it first: with no `"` in the name, the name
      is exactly the text between `name="` and the next quote. */
  lemma MetaNameRecoverable(e: MetaElement)
    requires '"' !in e.name
    ensures |e.Html()| >= 12 + |e.name|
    ensures e.Html()[..12] == "<meta name=\""
    ensures IndexOf(e.Html()[12..], '"') == Some(|e.name|)
    ensures e.Html()[12..12 + |e.name|] == e.name
  {
    var rest := " content=\"" + e.content + "\" />";
    var tail := e.name + ['"'] + rest;
    assert e.Html() == "<meta name=\"" + tail;
    FirstOccurrence(e.name, '"', rest);
  }
}

=== FILE: paging.dfy ===
/**
 * The pagination arithmetic of the backend's Bootstrap-style table pager:
 * which page the table shows and how many pages there are (`fnPagingInfo`),
 * which five page links `fnUpdate` lists, which of them is active, where a
 * click on one moves the table, and when Prev and Next are disabled. Pages
 * are counted from 0 in `page` and labelled from 1 on the links.
 */
module Paging {

  /** `Math.ceil(a / b)` for a positive divisor. */
  function CeilDiv(a: int, b: int): (r: int)
    requires b > 0
    ensures (r - 1) * b < a <= r * b
  {
    var q := -((-a) / b);
    assert (-a) / b * b <= -a < ((-a) / b + 1) * b;
    q
  }

  /** The fields of `fnPagingInfo` that the pager uses. */
  datatype PagingInfo = PagingInfo(start: int, length: int, page: int, totalPages: int)

  /** `fnPagingInfo`: the display start and length, the current page and
      the number of pages of the filtered records. */
  function PagingInfoOf(displayStart: nat, displayLength: int, recordsDisplay: nat): (info: PagingInfo)
    requires displayLength > 0
    ensures info.page >= 0 && info.totalPages >= 0
  {
    PagingInfo(displayStart, displayLength, CeilDiv(displayStart, displayLength), CeilDiv(recordsDisplay, displayLength))
  }

  const ListLength := 5
  const Half := 2

  /** The first and last page number `fnUpdate` lists. */
  function Window(page: int, totalPages: int): (int, int) {
    if totalPages < ListLength then (1, totalPages)
    else if page <= Half then (1, ListLength)
    else if page >= totalPages - Half then (totalPages - ListLength + 1, totalPages)
    else
      var first := page - Half + 1;
      (first, first + ListLength - 1)
  }

  /** One page link: its number and whether it carries `class="active"`. */
  datatype Link = Link(number: int, active: bool)

  /** The links from `first` to `last`, the one labelled `page + 1` active. */
  function Links(first: int, last: int, page: int): (links: seq<Link>)
    ensures |links| == if last >= first then last - first + 1 else 0
    ensures forall k :: 0 <= k < |links| ==> links[k] == Link(first + k, first + k == page + 1)
    decreases last - first
  {
    if last < first then [] else [Link(first, first == page + 1)] + Links(first + 1, last, page)
  }

  /** The display start a click on the link labelled `number` sets. */
  function StartFor(number: int, length: int): int {
    (number - 1) * length
  }

  /** Whether Prev is disabled. */
  predicate PrevDisabled(info: PagingInfo) {
    info.page == 0
  }

  /** Whether Next is disabled. */
  predicate NextDisabled(info: PagingInfo) {
    info.page == info.totalPages - 1 || info.totalPages == 0
  }

  // =========================================================================
  // Properties

  /** Fewer than five pages are all listed; otherwise the window pins to the
      start, pins to the end, or runs from the page before the current one. */
  lemma WindowCases(page: int, totalPages: int)
    ensures totalPages < 5 ==> Window(page, totalPages) == (1, totalPages)
    ensures totalPages >= 5 && page <= 2 ==> Window(page, totalPages) == (1, 5)
    ensures totalPages >= 5 && 2 < page && page >= totalPages - 2 ==> Window(page, totalPages) == (totalPages - 4, totalPages)
    ensures totalPages >= 5 && 2 < page < totalPages - 2 ==> Window(page, totalPages) == (page - 1, page + 3)
  {
  }

  /** The window lies within the pages and lists min(5, pages) of them. */
  lemma WindowBounds(page: int, totalPages: int)
    requires page >= 0 && totalPages >= 0
    ensures var (first, last) := Window(page, totalPages);
      && (totalPages > 0 ==> 1 <= first <= last <= totalPages)
      && |PageLinks(page, totalPages)| == if totalPages < 5 then totalPages else 5
  {
  }

  /** The links `fnUpdate` lists. */
  function PageLinks(page: int, totalPages: int): seq<Link> {
    Links(Window(page, totalPages).0, Window(page, totalPages).1, page)
  }

  /** While the current page exists, exactly the link for it is active. */
  lemma ActiveLinkIsCurrentPage(page: int, totalPages: int)
    requires 0 <= page < totalPages
    ensures exists k :: 0 <= k < |PageLinks(page, totalPages)| && PageLinks(page, totalPages)[k].active
    ensures forall k :: 0 <= k < |PageLinks(page, totalPages)| ==>
      (PageLinks(page, totalPages)[k].active <==> PageLinks(page, totalPages)[k].number == page + 1)
  {
    var first := Window(page, totalPages).0;
    assert first <= page + 1 <= Window(page, totalPages).1;
    assert PageLinks(page, totalPages)[page + 1 - first].active;
  }

  /** Scaling by a positive length keeps the order. */
  lemma Scaled(a: int, b: int, c: int)
    requires c > 0
    ensures a <= b <==> a * c <= b * c
  {
    assert b * c - a * c == (b - a) * c;
    if a <= b {
      assert (b - a) * c >= 0;
    } else {
      assert (a - b) * c > 0;
    }
  }

  /** The only page whose span of `length` rows ends at or after `n * length`
      and starts before it is page `n`. */
  lemma PageOfMultiple(n: int, p: int, length: int)
    requires length > 0
    requires (p - 1) * length < n * length <= p * length
    ensures p == n
  {
    Scaled(n, p, length);
    Scaled(n, p - 1, length);
  }

  /** A click on a page link moves the table to that page. */
  lemma ClickShowsPage(number: int, length: int, recordsDisplay: nat)
    requires number >= 1 && length > 0
    ensures StartFor(number, length) >= 0
    ensures PagingInfoOf(StartFor(number, length), length, recordsDisplay).page == number - 1
  {
    Scaled(0, number - 1, length);
    PageOfMultiple(number - 1, CeilDiv(StartFor(number, length), length), length);
  }

  /** Prev is disabled exactly on the first page. */
  lemma PrevOnFirstPage(displayStart: nat, length: int, recordsDisplay: nat)
    requires length > 0
    ensures PrevDisabled(PagingInfoOf(displayStart, length, recordsDisplay)) <==> displayStart == 0
  {
    var p := CeilDiv(displayStart, length);
    Scaled(p, 0, length);
  }

  /** On a page boundary inside the records, Next is disabled exactly when no
      records follow the page shown. */
  lemma NextOnLastPage(p: nat, length: int, recordsDisplay: nat)
    requires length > 0
    requires p * length < recordsDisplay || recordsDisplay == 0
    ensures NextDisabled(PagingInfoOf(p * length, length, recordsDisplay)) <==> recordsDisplay <= p * length + length
  {
    ClickShowsPage(p + 1, length, recordsDisplay);
    var t := CeilDiv(recordsDisplay, length);
    assert (p + 1) * length == p * length + length;
    Scaled(t, 0, length);
    Scaled(0, t - 1, length);
    Scaled(p, t - 1, length);
    Scaled(t, p + 1, length);
    Scaled(p + 1, t - 1, length);
  }
}

=== FILE: parameter_helper.dfy ===
/**
 * `ParameterHelper`: a read-only map of request parameters with typed getters
 * that fall back to a caller-given default.
 */
module ParameterHelpers {
  import opened Wrappers
  import opened Php

  /** The raw parameter array; PHP's array keys are modelled as strings. */
  type Params = map<string, Value>

  /** `getRaw`'s answer: the whole array (key null) or one value. */
  datatype Raw = Whole(all: Params) | Single(value: Value)

  datatype ParameterHelper = ParameterHelper(isValid: bool, parameters: Params)
  {
    /** The helper is valid exactly when it holds at least one entry. */
    ghost predicate Valid() {
      isValid <==> |parameters| >= 1
    }

    /** `numValues` */
    function NumValues(): (n: nat)
      requires Valid()
      ensures n == 0 <==> !isValid
      ensures n == |parameters|
    {
      |parameters|
    }

    /** `hasValue($key, $canBeEmpty)` */
    predicate HasValue(key: string, canBeEmpty: bool) {
      key in parameters && (canBeEmpty || !IsEmpty(parameters[key]))
    }

    /** Whether the typed getters read `key` instead of returning the default. */
    predicate Readable(key: string) {
      isValid && key in parameters
    }

    /** `getInt`: `intval` of the stored value, or the default unconverted. */
    function GetInt(key: string, default: Value): (r: Value)
      ensures Readable(key) ==> r.Int? && (parameters[key].Int? ==> r == parameters[key])
      ensures !Readable(key) ==> r == default
    {
      if !isValid || key !in parameters then default else Int(IntVal(parameters[key]))
    }

    /** `getBool`: `boolval` of the stored value, or the default. */
    function GetBool(key: string, default: Value): (r: Value)
      ensures Readable(key) ==> r == Bool(!IsEmpty(parameters[key]))
      ensures !Readable(key) ==> r == default
    {
      if !isValid || key !in parameters then default else Bool(BoolVal(parameters[key]))
    }

    /** `getString`: `strval` of the stored value, or the default. */
    function GetString(key: string, default: Value): (r: Value)
      ensures Readable(key) ==> r == Str(StrVal(parameters[key]))
      ensures Readable(key) && parameters[key].Str? ==> r == parameters[key]
      ensures !Readable(key) ==> r == default
    {
      if !isValid || key !in parameters then default else Str(StrVal(parameters[key]))
    }

    /** `getRaw`: with no key the whole array, else the stored value; an invalid
        helper or a missing key gives the default. */
    function GetRaw(key: Option<string>, default: Value): (r: Raw)
      ensures !isValid ==> r == Single(default)
      ensures isValid && key.None? ==> r == Whole(parameters)
      ensures isValid && key.Some? ==> r == Single(if key.value in parameters then parameters[key.value] else default)
    {
      if !isValid || (key.Some? && key.value !in parameters) then Single(default)
      else if key.None? then Whole(parameters)
      else Single(parameters[key.value])
    }
  }

  /** The constructor: null or an empty array gives an invalid helper with no
      entries, anything else is stored as given. */
  function New(params: Option<Params>): (h: ParameterHelper)
    ensures h.Valid()
    ensures h.isValid ==> params == Some(h.parameters)
    ensures params.Some? && |params.value| >= 1 ==> h.isValid
  {
    if params.None? || |params.value| < 1 then ParameterHelper(false, map[])
    else ParameterHelper(true, params.value)
  }

  /** On a helper built by the constructor, a key is present exactly when the
      typed getters read it, so `hasValue` is a sound guard for them. */
  lemma HasValueGuardsGetters(params: Option<Params>, key: string, default: Value)
    ensures New(params).HasValue(key, true) <==> New(params).Readable(key)
    ensures New(params).HasValue(key, false) ==> New(params).GetBool(key, default) == Bool(true)
  {
  }

  /** An integer sent as its decimal string (a query-string or form value) is
      read back unchanged by `getInt`. */
  lemma GetIntOfDecimalString(params: Params, key: string, n: int, default: Value)
    requires key in params && params[key] == Str(StrVal(Int(n)))
    requires IntMin <= n <= IntMax
    ensures New(Some(params)).GetInt(key, default) == Int(n)
  {
    IntValOfStrVal(n);
  }

  /** `getString` of a value that is not a string: null and false read as "",
      true as "1", and an integer as a decimal that `intval` reads back. */
  lemma GetStringOfScalar(h: ParameterHelper, key: string, default: Value)
    requires h.Readable(key)
    requires h.parameters[key].Int? ==> IntMin <= h.parameters[key].i <= IntMax
    ensures h.parameters[key] == Null || h.parameters[key] == Bool(false) ==> h.GetString(key, default) == Str("")
    ensures h.parameters[key] == Bool(true) ==> h.GetString(key, default) == Str("1")
    ensures h.parameters[key].Int? ==> h.GetString(key, default).Str? && IntVal(h.GetString(key, default)) == h.parameters[key].i
  {
    if h.parameters[key].Int? {
      IntValOfStrVal(h.parameters[key].i);
    }
  }

  /** `getInt` agrees with `intval` of `getString` on every stored value an
      HTTP client can send (integers within PHP's range, strings, booleans, null). */
  lemma {:induction false} GetIntIsIntValOfGetString(h: ParameterHelper, key: string, default: Value)
    requires h.Readable(key)
    requires h.parameters[key].Int? ==> IntMin <= h.parameters[key].i <= IntMax
    ensures h.GetInt(key, default) == Int(IntVal(h.GetString(key, default)))
  {
    var v := h.parameters[key];
    if !v.Str? {
      IntValOfStrValScalar(v);
    }
  }
}

=== FILE: php.dfy ===
/**
 * The slice of PHP's value semantics the modelled code relies on: `empty()`,
 * `strval`/`intval` on scalars, ASCII `strtolower`/`strtoupper`, `trim`,
 * `explode` on a one-character delimiter, `stripos`/`strpos` for one
 * character and `str_pad` on the right.
 */
module Php {
  import opened Wrappers

  /** A PHP scalar or null. Floats and arrays are not part of this model. */
  datatype Value = Null | Bool(b: bool) | Int(i: int) | Str(s: string)

  /** Bounds of PHP's 64-bit integer. */
  const IntMax: int := 0x7FFF_FFFF_FFFF_FFFF
  const IntMin: int := -0x8000_0000_0000_0000

  /** PHP's `empty()` on a string: only "" and "0" are empty. */
  predicate EmptyString(s: string) {
    s == "" || s == "0"
  }

  /** PHP's `empty()`: null, false, 0, "" and "0" are empty. */
  predicate IsEmpty(v: Value) {
    match v
    case Null => true
    case Bool(b) => !b
    case Int(i) => i == 0
    case Str(s) => EmptyString(s)
  }

  /** `empty()` on a value that may be PHP's null. */
  predicate EmptyOpt(s: Option<string>) {
    s.None? || EmptyString(s.value)
  }

  // ---------------------------------------------------------------------
  // Decimal digits

  predicate IsDigit(c: char) {
    '0' <= c <= '9'
  }

  function DigitChar(d: nat): (c: char)
    requires d < 10
    ensures IsDigit(c)
  {
    ('0' as int + d) as char
  }

  function DigitValue(c: char): (d: nat)
    requires IsDigit(c)
    ensures d < 10
  {
    c as int - '0' as int
  }

  predicate AllDigits(s: string) {
    forall k :: 0 <= k < |s| ==> IsDigit(s[k])
  }

  /** The decimal spelling of a natural number, most significant digit first. */
  function Decimal(n: nat): (r: string)
    ensures |r| >= 1 && AllDigits(r)
    ensures n > 0 ==> r[0] != '0'
    decreases n
  {
    if n < 10 then [DigitChar(n)] else Decimal(n / 10) + [DigitChar(n % 10)]
  }

  /** The number a string of decimal digits spells. */
  function DigitsValue(ds: string): nat
    requires AllDigits(ds)
  {
    if ds == [] then 0 else DigitsValue(ds[..|ds| - 1]) * 10 + DigitValue(ds[|ds| - 1])
  }

  lemma {:induction false} DecimalValue(n: nat)
    ensures DigitsValue(Decimal(n)) == n
    decreases n
  {
    if n >= 10 {
      var ds := Decimal(n);
      assert ds[..|ds| - 1] == Decimal(n / 10);
      DecimalValue(n / 10);
    }
  }

  /** The longest prefix of `s` made of decimal digits. */
  function LeadingDigits(s: string): (r: string)
    ensures AllDigits(r) && r <= s
    ensures |r| < |s| ==> !IsDigit(s[|r|])
  {
    if s == [] || !IsDigit(s[0]) then [] else [s[0]] + LeadingDigits(s[1..])
  }

  lemma {:induction false} LeadingDigitsOfDigits(s: string)
    requires AllDigits(s)
    ensures LeadingDigits(s) == s
  {
    if s != [] {
      LeadingDigitsOfDigits(s[1..]);
    }
  }

  /** The whitespace PHP skips in front of a numeric string. */
  predicate IsNumericSpace(c: char) {
    c == ' ' || c == '\t' || c == '\n' || c == '\r' || c == 11 as char || c == 12 as char
  }

  function SkipNumericSpace(s: string): (r: string)
    ensures |r| <= |s| && r == s[|s| - |r|..]
    ensures r == [] || !IsNumericSpace(r[0])
  {
    if s != [] && IsNumericSpace(s[0]) then SkipNumericSpace(s[1..]) else s
  }

  /** Saturation of an out-of-range integer string to PHP's integer bounds. */
  function Clamp(n: int): (r: int)
    ensures IntMin <= r <= IntMax
    ensures IntMin <= n <= IntMax ==> r == n
  {
    if n > IntMax then IntMax else if n < IntMin then IntMin else n
  }

  /** `intval` of a string: leading whitespace, an optional sign, then the
      longest run of digits; no digits gives 0. */
  function IntOfString(s: string): (r: int)
    ensures IntMin <= r <= IntMax
  {
    var t := SkipNumericSpace(s);
    if |t| > 0 && t[0] == '-' then Clamp(-(DigitsValue(LeadingDigits(t[1..])) as int))
    else if |t| > 0 && t[0] == '+' then Clamp(DigitsValue(LeadingDigits(t[1..])))
    else Clamp(DigitsValue(LeadingDigits(t)))
  }

  /** `strval` of an integer. */
  function IntToString(i: int): string {
    if i < 0 then "-" + Decimal(-i) else Decimal(i)
  }

  /** PHP's `strval` (and string interpolation) of a scalar. */
  function StrVal(v: Value): string {
    match v
    case Null => ""
    case Bool(b) => if b then "1" else ""
    case Int(i) => IntToString(i)
    case Str(s) => s
  }

  /** PHP's `intval` of a scalar. */
  function IntVal(v: Value): int {
    match v
    case Null => 0
    case Bool(b) => if b then 1 else 0
    case Int(i) => i
    case Str(s) => IntOfString(s)
  }

  /** PHP's `boolval`: false exactly for the values `empty()` accepts. */
  function BoolVal(v: Value): bool {
    !IsEmpty(v)
  }

  lemma NonNegativeRoundTrip(n: nat)
    requires n <= IntMax
    ensures IntOfString(Decimal(n)) == n
  {
    var ds := Decimal(n);
    assert SkipNumericSpace(ds) == ds;
    LeadingDigitsOfDigits(ds);
    DecimalValue(n);
  }

  lemma NegativeRoundTrip(n: nat)
    requires 0 < n <= -IntMin
    ensures IntOfString("-" + Decimal(n)) == 0 - n
  {
    var ds := Decimal(n);
    var s := "-" + ds;
    assert SkipNumericSpace(s) == s;
    assert s[1..] == ds;
    LeadingDigitsOfDigits(ds);
    DecimalValue(n);
  }

  /** `intval` of `strval` is the identity on booleans and null as well. */
  lemma IntValOfStrValScalar(v: Value)
    requires !v.Str?
    requires v.Int? ==> IntMin <= v.i <= IntMax
    ensures IntVal(Str(StrVal(v))) == IntVal(v)
  {
    match v
    case Int(i) => IntValOfStrVal(i);
    case Bool(b) =>
      if b {
        assert StrVal(v) == Decimal(1);
        NonNegativeRoundTrip(1);
      } else {
        assert SkipNumericSpace("") == "";
      }
    case Null =>
      assert SkipNumericSpace("") == "";
  }

  /** Every 64-bit integer survives the trip through its decimal string. */
  lemma IntValOfStrVal(n: int)
    requires IntMin <= n <= IntMax
    ensures IntVal(Str(StrVal(Int(n)))) == n
  {
    if n < 0 {
      NegativeRoundTrip(-n);
    } else {
      NonNegativeRoundTrip(n);
    }
  }

  // ---------------------------------------------------------------------
  // PHP 8's loose `<` against an integer

  /** A numeric string in integer form: optional leading whitespace, an
      optional sign, at least one digit, optional trailing whitespace. */
  predicate IsIntegerString(s: string) {
    var t := SkipNumericSpace(s);
    var u := if |t| > 0 && (t[0] == '-' || t[0] == '+') then t[1..] else t;
    var ds := LeadingDigits(u);
    |ds| > 0 && forall k :: |ds| <= k < |u| ==> IsNumericSpace(u[k])
  }

  /** Lexicographic order on character codes, the order PHP compares
      non-numeric strings in. */
  predicate StrLess(a: string, b: string) {
    if a == [] then b != []
    else if b == [] then false
    else if a[0] != b[0] then a[0] < b[0]
    else StrLess(a[1..], b[1..])
  }

  /**
   * PHP 8's `$v < 1`. Null and false are below 1 and true is not (both sides
   * are compared as booleans). An integer string compares by its value. Any
   * other string is compared with "1" as a string, so "abc" is not below 1.
   */
  predicate LessThanOne(v: Value) {
    match v
    case Null => true
    case Bool(b) => !b
    case Int(i) => i < 1
    case Str(s) => if IsIntegerString(s) then IntOfString(s) < 1 else StrLess(s, "1")
  }

  /** On the decimal spelling of a number, `< 1` is the number's own test. */
  lemma LessThanOneOfDecimal(n: nat)
    requires n <= IntMax
    ensures LessThanOne(Str(Decimal(n))) <==> n < 1
  {
    DigitsAreIntegerString(Decimal(n));
    NonNegativeRoundTrip(n);
  }

  lemma DigitsAreIntegerString(ds: string)
    requires |ds| > 0 && AllDigits(ds)
    ensures IsIntegerString(ds)
  {
    assert IsDigit(ds[0]);
    assert SkipNumericSpace(ds) == ds;
    LeadingDigitsOfDigits(ds);
  }

  /** A string of letters is neither numeric nor below "1", though its
      `intval` is 0. */
  lemma LettersNotBelowOne(s: string)
    requires |s| > 0 && forall k :: 0 <= k < |s| ==> 'a' <= s[k] <= 'z'
    ensures !LessThanOne(Str(s)) && IntVal(Str(s)) == 0
  {
    assert SkipNumericSpace(s) == s;
    assert LeadingDigits(s) == [];
    assert !IsIntegerString(s);
    assert !StrLess(s, "1");
  }

  // ---------------------------------------------------------------------
  // Case mapping and trimming (ASCII, as PHP 8 does)

  function LowerChar(c: char): (r: char)
    ensures !('A' <= r <= 'Z')
  {
    if 'A' <= c <= 'Z' then (c as int + 32) as char else c
  }

  function UpperChar(c: char): (r: char)
    ensures !('a' <= r <= 'z')
  {
    if 'a' <= c <= 'z' then (c as int - 32) as char else c
  }

  /** `strtolower` */
  function ToLower(s: string): (r: string)
    ensures |r| == |s|
    ensures forall k :: 0 <= k < |s| ==> r[k] == LowerChar(s[k])
  {
    seq(|s|, k requires 0 <= k < |s| => LowerChar(s[k]))
  }

  /** `strtoupper` */
  function ToUpper(s: string): (r: string)
    ensures |r| == |s|
    ensures forall k :: 0 <= k < |s| ==> r[k] == UpperChar(s[k])
  {
    seq(|s|, k requires 0 <= k < |s| => UpperChar(s[k]))
  }

  /** The characters `trim` strips: space, tab, newline, carriage return, NUL and vertical tab. */
  predicate IsTrimmed(c: char) {
    c == ' ' || c == '\t' || c == '\n' || c == '\r' || c == 0 as char || c == 11 as char
  }

  function TrimLeft(s: string): (r: string)
  {
    if s != [] && IsTrimmed(s[0]) then TrimLeft(s[1..]) else s
  }

  function TrimRight(s: string): (r: string)
  {
    if s != [] && IsTrimmed(s[|s| - 1]) then TrimRight(s[..|s| - 1]) else s
  }

  /** `trim` */
  function Trim(s: string): (r: string)
  {
    TrimRight(TrimLeft(s))
  }

  // ---------------------------------------------------------------------
  // Searching, splitting and padding

  /** `strpos($s, $c)` for a single character: the first index, or false. */
  function IndexOf(s: string, c: char): (r: Option<nat>)
    ensures r.None? <==> c !in s
    ensures r.Some? ==> r.value < |s| && s[r.value] == c && c !in s[..r.value]
  {
    if s == [] then None
    else if s[0] == c then Some(0)
    else match IndexOf(s[1..], c)
      case None => None
      case Some(i) =>
        assert s[..i + 1] == [s[0]] + s[1..][..i];
        Some(i + 1)
  }

  /** `explode($c, $s)`: the pieces between occurrences of `c`. */
  function Split(s: string, c: char): (parts: seq<string>)
    ensures |parts| >= 1
    ensures forall k :: 0 <= k < |parts| ==> c !in parts[k]
    decreases |s|
  {
    match IndexOf(s, c)
    case None => [s]
    case Some(i) => [s[..i]] + Split(s[i + 1..], c)
  }

  /** `implode($c, $parts)` */
  function Join(parts: seq<string>, c: char): string {
    if |parts| == 0 then ""
    else if |parts| == 1 then parts[0]
    else parts[0] + [c] + Join(parts[1..], c)
  }

  /** Joining the pieces of `explode` with the same delimiter gives the string back. */
  lemma {:induction false} JoinSplit(s: string, c: char)
    ensures Join(Split(s, c), c) == s
    decreases |s|
  {
    match IndexOf(s, c)
    case None =>
    case Some(i) =>
      var head, tail := s[..i], s[i + 1..];
      var rest := Split(tail, c);
      assert Split(s, c) == [head] + rest;
      JoinSplit(tail, c);
      assert ([head] + rest)[1..] == rest;
      assert Join([head] + rest, c) == head + [c] + Join(rest, c);
      assert s == head + [c] + tail;
  }

  /** And `explode` recovers any non-empty list of delimiter-free pieces from their join. */
  lemma {:induction false} SplitJoin(parts: seq<string>, c: char)
    requires |parts| >= 1
    requires forall k :: 0 <= k < |parts| ==> c !in parts[k]
    ensures Split(Join(parts, c), c) == parts
    decreases |parts|
  {
    if |parts| > 1 {
      var rest := Join(parts[1..], c);
      var s := parts[0] + [c] + rest;
      assert s[|parts[0]|] == c;
      assert s[..|parts[0]|] == parts[0];
      assert IndexOf(s, c) == Some(|parts[0]|);
      assert s[|parts[0]| + 1..] == rest;
      SplitJoin(parts[1..], c);
    }
  }

  /** `explode($c, $s, 2)` when `c` occurs: the text before and after its first occurrence. */
  function SplitOnce(s: string, c: char): (r: (string, string))
    requires c in s
    ensures c !in r.0 && r.0 + [c] + r.1 == s
  {
    var i := IndexOf(s, c).value;
    assert s == s[..i] + [c] + s[i + 1..];
    (s[..i], s[i + 1..])
  }

  /** The first occurrence of `c` in `a + [c] + b`, with `c` not in `a`, is at `|a|`. */
  lemma FirstOccurrence(a: string, c: char, b: string)
    requires c !in a
    ensures IndexOf(a + [c] + b, c) == Some(|a|)
    ensures SplitOnce(a + [c] + b, c) == (a, b)
  {
    var s := a + [c] + b;
    assert s[|a|] == c;
    assert s[..|a|] == a;
    assert s[|a| + 1..] == b;
  }

  function Spaces(n: nat): (r: string)
    ensures |r| == n && forall k :: 0 <= k < n ==> r[k] == ' '
  {
    seq(n, _ => ' ')
  }

  /** `str_pad($s, $w)`: pad on the right with spaces up to width `w`. */
  function PadRight(s: string, w: int): (r: string)
    ensures |r| == if |s| >= w then |s| else w
    ensures r[..|s|] == s
    ensures forall k :: |s| <= k < |r| ==> r[k] == ' '
  {
    if |s| >= w then s else s + Spaces(w - |s|)
  }
}

=== FILE: return_helper.dfy ===
/**
 * `ReturnHelper`: a status flag (BAD = 0, GUD = 1) plus an ordered list of
 * messages and an ordered list of results, filled in through chained setters.
 */
module ReturnHelpers {
  import opened Wrappers
  import opened Php

  const BAD: int := 0
  const GUD: int := 1

  /** What `getResults` hands back: null, the only result, or the whole list. */
  datatype Results<T> = NoResults | OneResult(value: T) | AllResults(items: seq<T>)

  /** The observable state of a helper, used to specify code that builds one. */
  datatype Outcome<T> = Outcome(status: int, messages: seq<string>, results: seq<T>)
  {
    predicate IsBad() { status == BAD }
    predicate IsGood() { status == GUD }
  }

  /** The state of a freshly constructed helper. */
  function Fresh<T>(): Outcome<T> {
    Outcome(BAD, [], [])
  }

  /** A BAD outcome carrying one message, the shape every validator failure has. */
  function BadWith<T>(msg: string): (o: Outcome<T>)
    ensures o.IsBad() && !o.IsGood() && o.messages == [msg] && o.results == []
  {
    Outcome(BAD, [msg], [])
  }

  /** The result shape `getResults` gives for a list of results. */
  function ResultsOf<T>(results: seq<T>): (r: Results<T>)
    ensures r.NoResults? <==> |results| == 0
    ensures r.OneResult? <==> |results| == 1
    ensures r.OneResult? ==> r.value == results[0]
    ensures r.AllResults? ==> |r.items| >= 2 && r.items == results
  {
    if |results| < 1 then NoResults
    else if |results| == 1 then OneResult(results[0])
    else AllResults(results)
  }

  /** The message list `getMessages` gives: null for none. */
  function MessagesOf(messages: seq<string>): (r: Option<seq<string>>)
    ensures r.None? <==> |messages| == 0
    ensures r.Some? ==> |r.value| >= 1 && r.value == messages
  {
    if |messages| < 1 then None else Some(messages)
  }

  class ReturnHelper<T> {
    var status: int
    var messages: seq<string>
    var results: seq<T>

    function Snapshot(): Outcome<T>
      reads this
    {
      Outcome(status, messages, results)
    }

    /** A new helper is BAD with no messages and no results. */
    constructor ()
      ensures Snapshot() == Fresh()
    {
      messages := [];
      results := [];
      status := BAD;
    }

    /** `!$this->status`: BAD exactly when the status is 0, and then never GUD. */
    predicate IsBad()
      reads this
      ensures IsBad() <==> status == BAD
      ensures IsBad() ==> status != GUD
    {
      Snapshot().IsBad()
    }

    /** A strict comparison with GUD; a GUD helper is never BAD. */
    predicate IsGud()
      reads this
      ensures IsGud() <==> status == GUD
      ensures IsGud() ==> status != BAD
    {
      Snapshot().IsGood()
    }

    /** The alias of `IsGud`. */
    predicate IsGood()
      reads this
      ensures IsGood() <==> IsGud()
    {
      IsGud()
    }

    function GetMessages(): (r: Option<seq<string>>)
      reads this
      ensures r == MessagesOf(messages)
    {
      MessagesOf(messages)
    }

    function GetResults(): (r: Results<T>)
      reads this
      ensures r == ResultsOf(results)
    {
      ResultsOf(results)
    }

    /** True exactly when `getMessages` would not give null. */
    predicate HasMessages()
      reads this
      ensures HasMessages() <==> GetMessages().Some?
    {
      |messages| > 0
    }

    method SetMessage(message: string)
      modifies this
      ensures Snapshot() == old(Snapshot()).(messages := old(messages) + [message])
    {
      messages := messages + [message];
    }

    /** Appends every message in order; an empty list changes nothing. */
    method SetMessages(ms: seq<string>)
      modifies this
      ensures Snapshot() == old(Snapshot()).(messages := old(messages) + ms)
    {
      if |ms| < 1 {
        return;
      }
      var i := 0;
      while i < |ms|
        invariant 0 <= i <= |ms|
        invariant Snapshot() == old(Snapshot()).(messages := old(messages) + ms[..i])
      {
        messages := messages + [ms[i]];
        i := i + 1;
        assert ms[..i] == ms[..i - 1] + [ms[i - 1]];
      }
      assert ms[..i] == ms;
    }

    method SetResult(result: T)
      modifies this
      ensures Snapshot() == old(Snapshot()).(results := old(results) + [result])
    {
      results := results + [result];
    }

    /** Appends every result in order; an empty list changes nothing. */
    method SetResults(rs: seq<T>)
      modifies this
      ensures Snapshot() == old(Snapshot()).(results := old(results) + rs)
    {
      if |rs| < 1 {
        return;
      }
      var i := 0;
      while i < |rs|
        invariant 0 <= i <= |rs|
        invariant Snapshot() == old(Snapshot()).(results := old(results) + rs[..i])
      {
        results := results + [rs[i]];
        i := i + 1;
        assert rs[..i] == rs[..i - 1] + [rs[i - 1]];
      }
      assert rs[..i] == rs;
    }

    method SetBad()
      modifies this
      ensures Snapshot() == old(Snapshot()).(status := BAD)
      ensures IsBad() && !IsGood()
    {
      status := BAD;
    }

    method SetGud()
      modifies this
      ensures Snapshot() == old(Snapshot()).(status := GUD)
      ensures IsGood() && !IsBad()
    {
      status := GUD;
    }

    method SetGood()
      modifies this
      ensures Snapshot() == old(Snapshot()).(status := GUD)
      ensures IsGood() && !IsBad()
    {
      SetGud();
    }

    /** Stores `intval` of the argument, so a string "1" makes the helper GUD and
        any status outside 0 and 1 makes it neither BAD nor GUD. */
    method SetStatus(v: Value)
      modifies this
      ensures Snapshot() == old(Snapshot()).(status := IntVal(v))
      ensures IsBad() <==> IntVal(v) == BAD
      ensures IsGood() <==> IntVal(v) == GUD
    {
      status := IntVal(v);
    }
  }
}

=== FILE: script_usage_helper.dfy ===
/**
 * Usage text for command-line scripts: the registered options and examples,
 * the one-line basic help, the detailed help for one option, and the aligned
 * option table. Every `putLine` is one element of the returned lines.
 */
module ScriptUsage {
  import opened Wrappers
  import opened Php
  import opened Functions
  import opened ConsoleHelpers

  datatype UsageOption = UsageOption(name: string, shortName: string, longName: string, example: string,
                                     shortDescription: string, description: string, required: bool)

  class ScriptUsageHelper {
    var name: string
    var description: string
    var examples: seq<string>
    var options: seq<UsageOption>

    constructor (name: string, description: string)
      ensures this.name == name && this.description == description && examples == [] && options == []
    {
      this.name := name;
      this.description := description;
      examples := [];
      options := [];
    }

    /** `addExample`: appended after the earlier examples. */
    method AddExample(example: string)
      modifies this
      ensures examples == old(examples) + [example]
      ensures options == old(options) && name == old(name) && description == old(description)
    {
      examples := examples + [example];
    }

    /** `addOption`: appended after the earlier options. */
    method AddOption(name: string, shortName: string, longName: string, example: string,
                     shortDescription: string, description: string, required: bool)
      modifies this
      ensures options == old(options) + [UsageOption(name, shortName, longName, example, shortDescription, description, required)]
      ensures examples == old(examples) && this.name == old(this.name) && this.description == old(this.description)
    {
      options := options + [UsageOption(name, shortName, longName, example, shortDescription, description, required)];
    }

    /** `showBasicHelp`: the lines it prints. */
    function ShowBasicHelp(console: ConsoleHelper, message: Option<string>): (lines: seq<string>)
      reads this, console
      ensures |lines| == 2
      ensures message.None? ==> lines[0] == name
      ensures message.Some? ==> lines[0] == name + ": " + message.value
    {
      var self := console.self.GetOr("");
      [name + (if message.Some? then ": " + message.value else ""),
       "Try `php " + self + " -h` or `php " + self + " --help` for more information"]
    }

    /**
     * `showOptionHelp`: looks up `-h`/`--help`, prints the name, then either
     * the option table (a bare switch) or the detail of the first option whose
     * names match the requested one case-insensitively. The lookup throws when
     * the parsed arguments are null.
     */
    method ShowOptionHelp(console: ConsoleHelper) returns (r: Result<seq<string>>)
      ensures console.GetParameterWithDefault("h", "help", None).Failure? ==> r.Failure?
      ensures console.GetParameterWithDefault("h", "help", None).Success? ==>
        r == Success(OptionHelp(name, options, examples, console.self.GetOr(""), console.GetParameterWithDefault("h", "help", None).value))
    {
      var opts := options;
      var looked := console.GetParameterWithDefault("h", "help", None);
      if looked.Failure? {
        return Failure(looked.error);
      }
      var help := looked.value;
      var self := console.self.GetOr("");
      var lines := [name];
      if help != Some(Flag) {
        var wanted := HelpText(help);
        var i := 0;
        while i < |opts|
          invariant 0 <= i <= |opts|
          invariant forall k :: 0 <= k < i ==> !Matches(opts[k], wanted)
        {
          if Matches(opts[i], wanted) {
            lines := lines + Detail(opts[i], self);
            break;
          }
          i := i + 1;
        }
        assert FirstMatch(opts, wanted) == (if i < |opts| then Some(i) else None);
      } else {
        var table := PutTable(opts, examples, self);
        lines := lines + table;
      }
      r := Success(lines);
    }
  }

  /** The option-table branch of `showOptionHelp`: the headings, the column
      widths measured over all options, one row per option, then the examples. */
  method PutTable(options: seq<UsageOption>, examples: seq<string>, self: string) returns (lines: seq<string>)
    ensures lines == Table(options, examples, self)
  {
    var shortWidth, longWidth := MeasureWidths(options);
    var rows := PutRows(options, shortWidth, longWidth);
    var exampleLines := PutOptionExamples(options);
    var added := PutPrefixed("    php " + self + " ", examples);
    lines := TableHeading + rows + ["", "Examples:"] + exampleLines + added;
  }

  /** The widths start at 1 and grow to the longest short and long names. */
  method MeasureWidths(options: seq<UsageOption>) returns (shortWidth: nat, longWidth: nat)
    ensures shortWidth == Width(options, true) && longWidth == Width(options, false)
  {
    shortWidth, longWidth := 1, 1;
    var i := 0;
    while i < |options|
      invariant 0 <= i <= |options|
      invariant shortWidth == Width(options[..i], true) && longWidth == Width(options[..i], false)
    {
      assert options[..i + 1][..i] == options[..i];
      if |options[i].shortName| > shortWidth {
        shortWidth := |options[i].shortName|;
      }
      if |options[i].longName| > longWidth {
        longWidth := |options[i].longName|;
      }
      i := i + 1;
    }
    assert options[..i] == options;
  }

  method PutRows(options: seq<UsageOption>, shortWidth: nat, longWidth: nat) returns (rows: seq<string>)
    ensures rows == Rows(options, shortWidth, longWidth)
  {
    rows := [];
    var i := 0;
    while i < |options|
      invariant 0 <= i <= |options|
      invariant rows == Rows(options[..i], shortWidth, longWidth)
    {
      assert options[..i + 1][..i] == options[..i];
      rows := rows + [Row(options[i], shortWidth, longWidth)];
      i := i + 1;
    }
    assert options[..i] == options;
  }

  method PutOptionExamples(options: seq<UsageOption>) returns (lines: seq<string>)
    ensures lines == Prefixed("    ", ExamplesOf(options))
  {
    lines := [];
    var i := 0;
    while i < |options|
      invariant 0 <= i <= |options|
      invariant lines == Prefixed("    ", ExamplesOf(options[..i]))
    {
      assert options[..i + 1][..i] == options[..i];
      lines := lines + ["    " + options[i].example];
      i := i + 1;
    }
    assert options[..i] == options;
  }

  method PutPrefixed(prefix: string, xs: seq<string>) returns (lines: seq<string>)
    ensures lines == Prefixed(prefix, xs)
  {
    lines := [];
    var i := 0;
    while i < |xs|
      invariant 0 <= i <= |xs|
      invariant lines == Prefixed(prefix, xs[..i])
    {
      assert xs[..i + 1][..i] == xs[..i];
      lines := lines + [prefix + xs[i]];
      i := i + 1;
    }
    assert xs[..i] == xs;
  }

  /** The requested option name: `strtolower` of the looked-up value, with
      null read as "". */
  function HelpText(help: Option<ArgValue>): string {
    match help
    case Some(Text(s)) => ToLower(s)
    case _ => ""
  }

  predicate Matches(opt: UsageOption, wanted: string) {
    wanted == ToLower(opt.shortName) || wanted == ToLower(opt.longName) || wanted == ToLower(opt.name)
  }

  /** The index of the first option whose names match. */
  function FirstMatch(options: seq<UsageOption>, wanted: string): (r: Option<nat>)
    ensures r.Some? ==> (r.value < |options| && Matches(options[r.value], wanted) &&
      forall k :: 0 <= k < r.value ==> !Matches(options[k], wanted))
    ensures r.None? ==> forall k :: 0 <= k < |options| ==> !Matches(options[k], wanted)
  {
    if |options| == 0 then None
    else if Matches(options[0], wanted) then Some(0)
    else match FirstMatch(options[1..], wanted)
      case None => None
      case Some(k) => Some(k + 1)
  }

  /** The detail lines for one option. */
  function Detail(opt: UsageOption, self: string): seq<string> {
    ["Basic usage of " + opt.name + " option", "", opt.description, "",
     "Usage: php " + self + " --" + opt.shortName,
     "       php " + self + " --" + opt.longName, "",
     "Example:", "   php " + self + opt.example]
  }

  /** A name column: `-name` or `--name` padded to the width with `str_pad`,
      or blanks of the same width when the name is `empty()`. */
  function Cell(n: string, width: nat, dashes: string): string {
    if !EmptyString(n) then dashes + PadRight(n, width) else PadRight("", width + |dashes|)
  }

  /** A column shows the dashes and the name followed by spaces, or only
      spaces when the name is "" or "0". */
  lemma CellContents(n: string, width: nat, dashes: string)
    requires |n| <= width
    ensures !EmptyString(n) ==> Cell(n, width, dashes) == dashes + n + Spaces(width - |n|)
    ensures EmptyString(n) ==> Cell(n, width, dashes) == Spaces(|dashes| + width)
  {
    if !EmptyString(n) {
      assert PadRight(n, width) == n + Spaces(width - |n|);
    } else {
      assert PadRight("", width + |dashes|) == Spaces(width + |dashes|);
    }
  }

  /** The column width: at least 1 and the longest short (or long) name. */
  function Width(options: seq<UsageOption>, short: bool): (w: nat)
    ensures w >= 1
    decreases |options|
  {
    if |options| == 0 then 1
    else
      var w := Width(options[..|options| - 1], short);
      var last := options[|options| - 1];
      var n := if short then last.shortName else last.longName;
      if |n| > w then |n| else w
  }

  /** No name is longer than its column. */
  lemma {:induction false} WidthFits(options: seq<UsageOption>, short: bool)
    ensures forall k :: 0 <= k < |options| ==> |if short then options[k].shortName else options[k].longName| <= Width(options, short)
    decreases |options|
  {
    if |options| > 0 {
      var init := options[..|options| - 1];
      WidthFits(init, short);
      assert forall k :: 0 <= k < |init| ==> options[k] == init[k];
    }
  }

  /** The width is 1 or the length of some option's name: no column is wider
      than it needs to be. */
  lemma {:induction false} WidthAttained(options: seq<UsageOption>, short: bool)
    ensures Width(options, short) == 1 ||
      exists k :: 0 <= k < |options| && |if short then options[k].shortName else options[k].longName| == Width(options, short)
    decreases |options|
  {
    if |options| > 0 {
      var init := options[..|options| - 1];
      WidthAttained(init, short);
      if Width(options, short) != Width(init, short) {
        var last := |options| - 1;
        assert |if short then options[last].shortName else options[last].longName| == Width(options, short);
      } else if Width(init, short) != 1 {
        var j :| 0 <= j < |init| && |if short then init[j].shortName else init[j].longName| == Width(init, short);
        assert options[j] == init[j];
      }
    }
  }

  /** One option-table row. */
  function Row(opt: UsageOption, shortWidth: nat, longWidth: nat): string {
    "    " + Cell(opt.shortName, shortWidth, "-") + " " + Cell(opt.longName, longWidth, "--") + "  " + opt.shortDescription
  }

  /** The table rows, one per option, in order (see `RowsAt`). */
  function Rows(options: seq<UsageOption>, shortWidth: nat, longWidth: nat): (rows: seq<string>)
    ensures |rows| == |options|
    decreases |options|
  {
    if |options| == 0 then []
    else Rows(options[..|options| - 1], shortWidth, longWidth) + [Row(options[|options| - 1], shortWidth, longWidth)]
  }

  lemma {:induction false} RowsAt(options: seq<UsageOption>, shortWidth: nat, longWidth: nat, k: nat)
    requires k < |options|
    ensures Rows(options, shortWidth, longWidth)[k] == Row(options[k], shortWidth, longWidth)
    decreases |options|
  {
    var init := options[..|options| - 1];
    if k < |init| {
      RowsAt(init, shortWidth, longWidth, k);
      IndexBefore(Rows(init, shortWidth, longWidth), [Row(options[|options| - 1], shortWidth, longWidth)], k);
    }
  }

  function ExamplesOf(options: seq<UsageOption>): (xs: seq<string>)
    ensures |xs| == |options| && forall k :: 0 <= k < |options| ==> xs[k] == options[k].example
    decreases |options|
  {
    if |options| == 0 then [] else ExamplesOf(options[..|options| - 1]) + [options[|options| - 1].example]
  }

  /** Each line with the same prefix, in order (see `PrefixedAt`). */
  function Prefixed(prefix: string, xs: seq<string>): (lines: seq<string>)
    ensures |lines| == |xs|
    decreases |xs|
  {
    if |xs| == 0 then [] else Prefixed(prefix, xs[..|xs| - 1]) + [prefix + xs[|xs| - 1]]
  }

  lemma {:induction false} PrefixedAt(prefix: string, xs: seq<string>, k: nat)
    requires k < |xs|
    ensures Prefixed(prefix, xs)[k] == prefix + xs[k]
    decreases |xs|
  {
    var init := xs[..|xs| - 1];
    if k < |init| {
      PrefixedAt(prefix, init, k);
      IndexBefore(Prefixed(prefix, init), [prefix + xs[|xs| - 1]], k);
    }
  }

  const TableHeading := ["Available options and example usage", "", "Options:", "  Either short or long versions are valid"]

  /** Everything `showOptionHelp` prints once the help value is known. */
  function OptionHelp(name: string, options: seq<UsageOption>, examples: seq<string>, self: string, help: Option<ArgValue>): seq<string> {
    if help != Some(Flag) then
      match FirstMatch(options, HelpText(help))
      case None => [name]
      case Some(k) => [name] + Detail(options[k], self)
    else [name] + Table(options, examples, self)
  }

  /** The option table and the examples, after the name line. */
  function Table(options: seq<UsageOption>, examples: seq<string>, self: string): seq<string> {
    TableHeading + Rows(options, Width(options, true), Width(options, false)) + ["", "Examples:"] +
    Prefixed("    ", ExamplesOf(options)) + Prefixed("    php " + self + " ", examples)
  }

  /** Every table row puts its short description at the same column:
      4 + (short width + 1) + 1 + (long width + 2) + 2. */
  lemma RowsAligned(options: seq<UsageOption>, k: nat)
    requires k < |options|
    ensures var ws := Width(options, true);
      var wl := Width(options, false);
      var row := Row(options[k], ws, wl);
      var column := 4 + (ws + 1) + 1 + (wl + 2) + 2;
      |row| == column + |options[k].shortDescription| && row[column..] == options[k].shortDescription
  {
    var opt := options[k];
    var ws := Width(options, true);
    var wl := Width(options, false);
    WidthFits(options, true);
    WidthFits(options, false);
    assert |opt.shortName| <= ws && |opt.longName| <= wl;
    CellContents(opt.shortName, ws, "-");
    CellContents(opt.longName, wl, "--");
    var lead := "    " + Cell(opt.shortName, ws, "-") + " " + Cell(opt.longName, wl, "--") + "  ";
    assert |lead| == 4 + (ws + 1) + 1 + (wl + 2) + 2;
    assert Row(opt, ws, wl) == lead + opt.shortDescription;
  }

  lemma IndexAfter<T>(a: seq<T>, b: seq<T>, k: nat)
    requires k < |b|
    ensures (a + b)[|a| + k] == b[k]
  {
  }

  lemma IndexBefore<T>(a: seq<T>, b: seq<T>, k: nat)
    requires k < |a|
    ensures (a + b)[k] == a[k]
  {
  }

  /** Where each part of a five-part concatenation lands. */
  lemma FiveParts<T>(h: seq<T>, r: seq<T>, x: seq<T>, p1: seq<T>, p2: seq<T>, k: nat)
    ensures |h + r + x + p1 + p2| == |h| + |r| + |x| + |p1| + |p2|
    ensures k < |h| ==> (h + r + x + p1 + p2)[k] == h[k]
    ensures k < |r| ==> (h + r + x + p1 + p2)[|h| + k] == r[k]
    ensures k < |p1| ==> (h + r + x + p1 + p2)[|h| + |r| + |x| + k] == p1[k]
    ensures k < |p2| ==> (h + r + x + p1 + p2)[|h| + |r| + |x| + |p1| + k] == p2[k]
  {
  }

  /** The table has the four heading lines, one row per option, two more
      heading lines, then one line per option example and per added example. */
  lemma TableLength(options: seq<UsageOption>, examples: seq<string>, self: string)
    ensures |Table(options, examples, self)| == 6 + 2 * |options| + |examples|
    ensures forall k :: 0 <= k < 4 ==> Table(options, examples, self)[k] == TableHeading[k]
  {
    forall k | 0 <= k < 4 ensures Table(options, examples, self)[k] == TableHeading[k] {
      FiveParts(TableHeading, Rows(options, Width(options, true), Width(options, false)), ["", "Examples:"],
                Prefixed("    ", ExamplesOf(options)), Prefixed("    php " + self + " ", examples), k);
    }
  }

  /** Line 4 + `k` of the table is the row of option `k`. */
  lemma TableRow(options: seq<UsageOption>, examples: seq<string>, self: string, k: nat)
    requires k < |options|
    ensures Table(options, examples, self)[4 + k] == Row(options[k], Width(options, true), Width(options, false))
  {
    RowsAt(options, Width(options, true), Width(options, false), k);
    FiveParts(TableHeading, Rows(options, Width(options, true), Width(options, false)), ["", "Examples:"],
              Prefixed("    ", ExamplesOf(options)), Prefixed("    php " + self + " ", examples), k);
  }

  /** Line 6 + |options| + `k` is the example of option `k`. */
  lemma TableOptionExample(options: seq<UsageOption>, examples: seq<string>, self: string, k: nat)
    requires k < |options|
    ensures Table(options, examples, self)[6 + |options| + k] == "    " + options[k].example
  {
    PrefixedAt("    ", ExamplesOf(options), k);
    FiveParts(TableHeading, Rows(options, Width(options, true), Width(options, false)), ["", "Examples:"],
              Prefixed("    ", ExamplesOf(options)), Prefixed("    php " + self + " ", examples), k);
  }

  /** The added examples come last, each prefixed with `php <self>`. */
  lemma TableAddedExample(options: seq<UsageOption>, examples: seq<string>, self: string, k: nat)
    requires k < |examples|
    ensures Table(options, examples, self)[6 + 2 * |options| + k] == "    php " + self + " " + examples[k]
  {
    var r := Rows(options, Width(options, true), Width(options, false));
    var p1 := Prefixed("    ", ExamplesOf(options));
    var p2 := Prefixed("    php " + self + " ", examples);
    PrefixedAt("    php " + self + " ", examples, k);
    FiveParts(TableHeading, r, ["", "Examples:"], p1, p2, k);
    assert Table(options, examples, self) == TableHeading + r + ["", "Examples:"] + p1 + p2;
    assert |TableHeading| + |r| + 2 + |p1| + k == 6 + 2 * |options| + k;
  }

  /** Detailed help prints only the first matching option, or nothing after
      the name when none matches. */
  lemma DetailShowsFirstMatch(name: string, options: seq<UsageOption>, examples: seq<string>, self: string, help: string, k: nat)
    requires k < |options| && Matches(options[k], ToLower(help))
    requires forall j :: 0 <= j < k ==> !Matches(options[j], ToLower(help))
    ensures OptionHelp(name, options, examples, self, Some(Text(help))) == [name] + Detail(options[k], self)
  {
  }

  // =========================================================================
  // satisfiesRequirements

  /** Which names `satisfiesRequirements` looks up: the source reads the
      undeclared properties `$opt->short` and `$opt->long`, which are null and
      lower-case to ""; the evident intent is `shortName` and `longName`. */
  datatype NameRule = Undeclared | Declared

  function LookupNames(rule: NameRule, opt: UsageOption): (string, string) {
    match rule
    case Undeclared => ("", "")
    case Declared => (opt.shortName, opt.longName)
  }

  /** The options from `i` on, in order: the first required option whose names
      are not among the arguments makes it false; a failing lookup throws. */
  function RequirementsMet(console: ConsoleHelper, options: seq<UsageOption>, i: nat, rule: NameRule): Result<bool>
    reads console
    decreases |options| - i
  {
    if i >= |options| then Success(true)
    else if !options[i].required then RequirementsMet(console, options, i + 1, rule)
    else
      var (s, l) := LookupNames(rule, options[i]);
      match console.HasShortLongArg(s, l, true)
      case Failure(e) => Failure(e)
      case Success(found) => if found then RequirementsMet(console, options, i + 1, rule) else Success(false)
  }

  /** `satisfiesRequirements($consoleHelper)`, looking up names by `rule`. */
  method SatisfiesRequirements(console: ConsoleHelper, options: seq<UsageOption>, rule: NameRule) returns (r: Result<bool>)
    ensures r == RequirementsMet(console, options, 0, rule)
  {
    var i := 0;
    while i < |options|
      invariant 0 <= i <= |options|
      invariant RequirementsMet(console, options, i, rule) == RequirementsMet(console, options, 0, rule)
    {
      if options[i].required {
        var (s, l) := LookupNames(rule, options[i]);
        var found := console.HasShortLongArg(s, l, true);
        if found.Failure? {
          return Failure(found.error);
        }
        if !found.value {
          return Success(false);
        }
      }
      i := i + 1;
    }
    return Success(true);
  }

  /** The arguments are parsed and nothing is wrong with looking them up. */
  predicate Parsed(console: ConsoleHelper)
    reads console
  {
    console.argInfo.Some? && console.argInfo.value.argc >= 1 && console.argInfo.value.arga.Some?
  }

  /** Whether the arguments name the option, ignoring case. */
  predicate Given(console: ConsoleHelper, opt: UsageOption)
    reads console
    requires Parsed(console)
  {
    var a := console.argInfo.value.arga.value;
    exists k :: k in a && (ToLower(k) == ToLower(opt.shortName) || ToLower(k) == ToLower(opt.longName))
  }

  /** With the declared names, the requirements are met exactly when every
      required option is named among the arguments. */
  lemma {:induction false} DeclaredNamesMeetRequirements(console: ConsoleHelper, options: seq<UsageOption>, i: nat)
    requires Parsed(console) && i <= |options|
    ensures RequirementsMet(console, options, i, Declared) ==
      Success(forall k :: i <= k < |options| && options[k].required ==> Given(console, options[k]))
    decreases |options| - i
  {
    if i < |options| {
      DeclaredNamesMeetRequirements(console, options, i + 1);
    }
  }

  /** As written, the lookup is for the empty name: unless some argument has
      the empty key, the requirements are met exactly when no option is
      required. */
  lemma {:induction false} UndeclaredNamesIgnoreArguments(console: ConsoleHelper, options: seq<UsageOption>, i: nat)
    requires Parsed(console) && "" !in console.argInfo.value.arga.value
    requires i <= |options|
    ensures RequirementsMet(console, options, i, Undeclared) ==
      Success(forall k :: i <= k < |options| ==> !options[k].required)
    decreases |options| - i
  {
    if i < |options| {
      UndeclaredNamesIgnoreArguments(console, options, i + 1);
      if options[i].required {
        var a := console.argInfo.value.arga.value;
        assert !exists k :: k in a && ToLower(k) == ToLower("") by {
          forall k | k in a ensures ToLower(k) != ToLower("") {
            assert k != "";
          }
        }
      }
    }
  }

  /** A required `-u` that is given: the intended check passes, the check as
      written fails. */
  lemma RequiredOptionGiven(console: ConsoleHelper, opt: UsageOption)
    requires Parsed(console) && "" !in console.argInfo.value.arga.value
    requires opt.required && opt.shortName == "u" && "u" in console.argInfo.value.arga.value
    ensures RequirementsMet(console, [opt], 0, Declared) == Success(true)
    ensures RequirementsMet(console, [opt], 0, Undeclared) == Success(false)
  {
    DeclaredNamesMeetRequirements(console, [opt], 0);
    UndeclaredNamesIgnoreArguments(console, [opt], 0);
    assert Given(console, opt) by {
      assert ToLower("u") == ToLower(opt.shortName);
    }
  }
}

=== FILE: users_repo.dfy ===
/**
 * The `Users` repository's input validators: usernames, email addresses and
 * passwords. Each answers with a fresh `ReturnHelper` that is GUD, or BAD
 * with exactly one message. The uniqueness query against the `User` table is
 * an oracle: its answer is a parameter.
 */
module UsersRepo {
  import opened Wrappers
  import opened Php
  import opened ReturnHelpers

  const MinUsername: nat := 6
  const MaxUsername: nat := 64
  const MinPassword: nat := 8
  const MaxPassword: nat := 72

  const UsernameLength := "Empty or wrong length (must be between 6 and 64 characters long)"
  const PasswordLength := "Empty or wrong length (must be between 8 and 72 characters long)"
  const DuplicateUsername := "Duplicate username in database"
  const DuplicateEmail := "Duplicate email address in database"
  const QueryFailure := "Unable to check database for duplicates"
  const BadEmail := "Empty or invalid format"

  /** What the uniqueness query reports: no row, a row, or a `PDOException`. */
  datatype Lookup = NoRow | RowFound | QueryFailed

  /** The characters of `$acceptableChars`: ASCII letters, digits, `-` and `_`. */
  predicate Acceptable(c: char) {
    ('a' <= c <= 'z') || ('A' <= c <= 'Z') || ('0' <= c <= '9') || c == '-' || c == '_'
  }

  /** The index of the first character that is not acceptable. */
  function FirstUnacceptable(s: string): (r: Option<nat>)
    ensures r.None? <==> forall k :: 0 <= k < |s| ==> Acceptable(s[k])
    ensures r.Some? ==>
      && r.value < |s|
      && !Acceptable(s[r.value])
      && forall k :: 0 <= k < r.value ==> Acceptable(s[k])
    decreases |s|
  {
    if s == [] then None
    else if !Acceptable(s[0]) then Some(0)
    else match FirstUnacceptable(s[1..])
      case None => None
      case Some(i) => Some(i + 1)
  }

  function InvalidCharacter(c: char): string {
    "Invalid character (" + [c] + ")"
  }

  function Good(): Outcome<()> {
    Fresh().(status := GUD)
  }

  /** The answer of the uniqueness check, once the format is fine. */
  function Uniqueness(checkUnique: bool, query: Lookup, duplicate: string): Outcome<()> {
    if !checkUnique then Good()
    else match query
      case NoRow => Good()
      case RowFound => BadWith(duplicate)
      case QueryFailed => BadWith(QueryFailure)
  }

  /** What `isValidUsername` answers. */
  function UsernameVerdict(username: string, checkUnique: bool, query: Lookup): Outcome<()> {
    if EmptyString(username) || |username| < MinUsername || |username| > MaxUsername then BadWith(UsernameLength)
    else match FirstUnacceptable(username)
      case Some(i) => BadWith(InvalidCharacter(username[i]))
      case None => Uniqueness(checkUnique, query, DuplicateUsername)
  }

  /** What `isValidEmail` answers. */
  function EmailVerdict(email: string, checkUnique: bool, query: Lookup): Outcome<()> {
    if EmptyString(email) || IndexOf(email, '@').None? then BadWith(BadEmail)
    else Uniqueness(checkUnique, query, DuplicateEmail)
  }

  /** What `isValidPassword` answers. */
  function PasswordVerdict(password: string): Outcome<()> {
    if EmptyString(password) || |password| < MinPassword || |password| > MaxPassword then BadWith(PasswordLength)
    else Good()
  }

  /** `isValidUsername`, with its scan over the characters. */
  method IsValidUsername(username: string, checkUnique: bool, query: Lookup) returns (ret: ReturnHelper<()>)
    ensures fresh(ret)
    ensures ret.Snapshot() == UsernameVerdict(username, checkUnique, query)
  {
    ret := new ReturnHelper();
    if EmptyString(username) || |username| < MinUsername || |username| > MaxUsername {
      ret.SetBad();
      ret.SetMessage(UsernameLength);
      return;
    }
    var i := 0;
    while i < |username|
      invariant 0 <= i <= |username|
      invariant forall k :: 0 <= k < i ==> Acceptable(username[k])
      invariant ret.Snapshot() == Fresh()
    {
      if !Acceptable(username[i]) {
        ret.SetBad();
        ret.SetMessage(InvalidCharacter(username[i]));
        return;
      }
      i := i + 1;
    }
    CheckUnique(ret, checkUnique, query, DuplicateUsername);
  }

  /** The shared tail of the two validators: the query, when asked for, and
      then GUD. */
  method CheckUnique(ret: ReturnHelper<()>, checkUnique: bool, query: Lookup, duplicate: string)
    requires ret.Snapshot() == Fresh()
    modifies ret
    ensures ret.Snapshot() == Uniqueness(checkUnique, query, duplicate)
  {
    if checkUnique {
      match query {
        case RowFound =>
          ret.SetBad();
          ret.SetMessage(duplicate);
          return;
        case QueryFailed =>
          ret.SetBad();
          ret.SetMessage(QueryFailure);
          return;
        case NoRow =>
      }
    }
    ret.SetGood();
  }

  /** `isValidEmail` */
  method IsValidEmail(email: string, checkUnique: bool, query: Lookup) returns (ret: ReturnHelper<()>)
    ensures fresh(ret)
    ensures ret.Snapshot() == EmailVerdict(email, checkUnique, query)
  {
    ret := new ReturnHelper();
    if EmptyString(email) || IndexOf(email, '@').None? {
      ret.SetBad();
      ret.SetMessage(BadEmail);
      return;
    }
    CheckUnique(ret, checkUnique, query, DuplicateEmail);
  }

  /** `isValidPassword` */
  method IsValidPassword(password: string) returns (ret: ReturnHelper<()>)
    ensures fresh(ret)
    ensures ret.Snapshot() == PasswordVerdict(password)
  {
    ret := new ReturnHelper();
    if EmptyString(password) || |password| < MinPassword || |password| > MaxPassword {
      ret.SetBad();
      ret.SetMessage(PasswordLength);
      return;
    }
    ret.SetGood();
  }

  // =========================================================================
  // What the verdicts mean

  /** Every verdict is GUD with no messages, or BAD with exactly one. */
  predicate OneMessageIfBad(o: Outcome<()>) {
    (o.IsGood() && o.messages == [] && !o.IsBad()) || (o.IsBad() && |o.messages| == 1 && !o.IsGood())
  }

  /** A username passes the format checks exactly when it is 6 to 64
      acceptable characters; without the uniqueness check that is GUD, with it
      the query must also find no row. */
  lemma UsernameGoodIff(username: string, checkUnique: bool, query: Lookup)
    ensures OneMessageIfBad(UsernameVerdict(username, checkUnique, query))
    ensures UsernameVerdict(username, checkUnique, query).IsGood() <==>
      MinUsername <= |username| <= MaxUsername &&
      (forall k :: 0 <= k < |username| ==> Acceptable(username[k])) &&
      (checkUnique ==> query == NoRow)
  {
  }

  /** A bad character is reported by naming the first one, after the length
      check. */
  lemma UsernameNamesFirstBadCharacter(username: string, checkUnique: bool, query: Lookup, i: nat)
    requires MinUsername <= |username| <= MaxUsername
    requires i < |username| && !Acceptable(username[i])
    requires forall k :: 0 <= k < i ==> Acceptable(username[k])
    ensures UsernameVerdict(username, checkUnique, query).messages == [InvalidCharacter(username[i])]
  {
    var r := FirstUnacceptable(username);
    assert r.Some? && r.value == i;
  }

  /** A well-formed username that the query finds already present, or that
      the query fails on, is BAD with that reason. */
  lemma UsernameQueryOutcomes(username: string)
    requires MinUsername <= |username| <= MaxUsername
    requires forall k :: 0 <= k < |username| ==> Acceptable(username[k])
    ensures UsernameVerdict(username, true, RowFound) == BadWith(DuplicateUsername)
    ensures UsernameVerdict(username, true, QueryFailed) == BadWith(QueryFailure)
  {
  }

  /** An email is rejected for its format exactly when it is empty or has no
      `@`; a well-formed one is GUD when uniqueness is not checked. */
  lemma EmailFormat(email: string, checkUnique: bool, query: Lookup)
    ensures OneMessageIfBad(EmailVerdict(email, checkUnique, query))
    ensures EmailVerdict(email, checkUnique, query) == BadWith(BadEmail) <==> EmptyString(email) || '@' !in email
    ensures !checkUnique ==> (EmailVerdict(email, checkUnique, query).IsGood() <==> !EmptyString(email) && '@' in email)
  {
  }

  /** A password is GUD exactly when it has 8 to 72 characters. */
  lemma PasswordGoodIff(password: string)
    ensures OneMessageIfBad(PasswordVerdict(password))
    ensures PasswordVerdict(password).IsGood() <==> MinPassword <= |password| <= MaxPassword
    ensures !PasswordVerdict(password).IsGood() ==> PasswordVerdict(password) == BadWith(PasswordLength)
  {
  }
}

=== FILE: wrappers.dfy ===
/** Option and Result, used throughout for PHP's null and thrown exceptions. */
module Wrappers {

  datatype Option<+T> = None | Some(value: T) {
    function GetOr(default: T): T {
      match this
      case Some(v) => v
      case None => default
    }
  }

  /** A PHP call either returns a value or throws an exception with a message. */
  datatype Result<+T> = Success(value: T) | Failure(error: string)
}
